=== FILE: README.md ===
# postcard-ai-backend in Dafny

A model of the decision logic in the postcard-ai-backend, a travel-blog recommendation backend. The model covers five areas:

- **Recommendation stages.** These are vector ranking, the LLM ranking with its padded catalog and id rehydration, the reranker, the rule post-processor, and the `searchType` dispatch.
- **Scraping of the SLO CAL blog.** This covers URL and id extraction, `cleanText`, `extractMainContent`, the category crawl with its optional limit, and the two copies of `scrapeBlogPost`.
- **The file importer.** This is `processBlogs`.
- **The duplicator.** This is `duplicateBlogs` and `deleteDuplicateBlogs`.
- **The maintenance handlers of the blogs controller.** These are the scrape limit check, the two bulk re-embedding jobs, and the single-blog embedding override.

## Modelling choices

JavaScript objects and store rows are `Json.Row`, a `map<string, Value>`. An absent property reads as `Undefined`.

Calls to the outside world become inputs: the store, the LLM completions, the embedding and rerank calls, and HTTP fetches. Each is an `Option` or a `Result`, where `None` or `Err(message)` means the call threw or reported an error. A call made once per item is a function of that item. Pages are replaced by the answers to the DOM queries the code makes (`BlogPage.PostPage`, `Crawler.CategoryPage`).

`JSON.stringify`, `JSON.parse`, `String(x)` and `parseInt` are function parameters. The model states how results depend on them, not what they compute.

`CollapseNewlines` removes one line break at a time from a run of three, which gives the same text as the source's replacement of every run of three or more by two (`PageText.CollapseNewlinesRun`). The article controller scrapes each post and writes its file before scraping the next; a scrape has no effect, so the model scrapes all posts before writing any.

The batch loops share one shape, `Tally`: each item ends as a result or as an error record, and `{ total, processed, failed, errors }` stays balanced.

## Where the code and its description differ (the model follows the code)

- **LLM ranking.**
  - The catalog is cut to `targetCount` when it is longer, not only padded.
  - An empty catalog pads with id-only rows, because `{...undefined}` is `{}`.
- **The reranker.**
  - It does not rescore or sort.
  - Its second parameter is never read.
  - It is called with `targetCount`, `rules` and `rerankerEnabled`, which it ignores.
  - An out-of-range rerank index gives an `undefined` entry (`None`).
- **The rule post-processor.** The dispatcher never calls it. It is modelled on its own.
- **Metadata extraction.** The regular expression that extracts the metadata object is lazy. A nested object is therefore cut at its first `}` (`LlmService.FirstObjectTextIsNotBalanced`).
- **The list-item bullet.**
  - The scraper service's source text has the mojibake `â€¢ ` where the article controller has `• `. Each copy keeps its own bullet.
  - `ArticleController.SameTextAsService` shows that the bullet is the only difference in main content.
- **The scrape limit.** A negative limit is truthy, so the crawl stops after the first category page, and the post loop after the first post.

## Model

| member | source | states |
|---|---|---|
| LlmRanking.DuplicateBlogsToTargetCount | src/services/useLLMRanking.js:5-27 | the result has exactly `targetCount` entries. A longer catalog is cut to its first `targetCount` blogs. A shorter catalog is kept as the prefix, and each added entry at position i copies blog `i mod n` with id `dup-i`. The added ids are pairwise distinct |
| LlmRanking.DupIdInjective | src/services/useLLMRanking.js:20 | two positions with the same `dup-` id are the same position |
| LlmRanking.Candidates | src/services/useLLMRanking.js:51-55 | each prompt candidate has exactly the keys id, title and content_metadata, taken from the padded blog at the same position |
| LlmRanking.RankedItems | src/services/useLLMRanking.js:117-129 | the reply yields items iff it parses and its `ranked_blogs` is an array none of whose items is null or undefined. The items are that array. A present non-array value fails with "No valid ranked_blogs array found in the LLM response" |
| LlmRanking.FindIndex | src/services/useLLMRanking.js:135-137 | the result is the first padded blog whose stringified id equals the ranked id. `None` means that no blog matches |
| LlmRanking.CandidateIdFound | src/services/useLLMRanking.js:132-137 | an id copied from the i-th prompt candidate is always found again, at position i or earlier |
| LlmRanking.Names | src/services/useLLMRanking.js:152-159 | a falsy value or an empty array gives `[]`. An array gives the `name` of every element, in order, and throws iff some element is null or undefined. A non-empty string throws |
| LlmRanking.Entry | src/services/useLLMRanking.js:146-161 | the recommendation has exactly the eight keys. id, title, summary, url and content_metadata are copied from the blog, categories and tags are their names, and the score is the item's. It fails exactly when a names projection throws |
| LlmRanking.Lookup | src/services/useLLMRanking.js:133-161 | reading the id of a null item throws. A miss means that no padded blog has the same stringified id. A hit carries that id and the item's score |
| LlmRanking.LookupTakesFirstMatch | src/services/useLLMRanking.js:135-137 | a found item's entry is built from the first padded blog with the same stringified id |
| LlmRanking.Rehydrate | src/services/useLLMRanking.js:132-163 | the mapping succeeds iff no item's lookup throws, and it yields at most one entry per ranked item |
| LlmRanking.RehydrateOne | src/services/useLLMRanking.js:139-144 | one item yields its entry when its id is found, and nothing when it is not (the `null` is filtered out) |
| LlmRanking.RehydrateAppend | src/services/useLLMRanking.js:132-163 | ranking order is kept: the entries for a concatenation are the entries for each part, in order |
| LlmRanking.RehydrateAllFound | src/services/useLLMRanking.js:132-163 | when every ranked id names a padded blog, nothing is dropped, and entry i carries item i's score |
| LlmRanking.UseLlmRanking | src/services/useLLMRanking.js:29-181 | the call fails on a store error or a bad reply. It succeeds iff the table is read, the reply is accepted and the rehydration does not throw. It then reports `total == targetCount`, the preferences as given, and the rehydrated entries of the padded catalog |
| RulesPostProcessor.Plus | src/services/useRulesPostProcessor.js:48 | a numeric similarity is increased by exactly the modifier |
| RulesPostProcessor.Modified | src/services/useRulesPostProcessor.js:40-57 | a failed call or a non-numeric reply leaves the blog unchanged. A number adds `similarity` and `appliedModifier` and keeps every other field |
| RulesPostProcessor.UseRulesPostProcessor | src/services/useRulesPostProcessor.js:9-63 | falsy rules, a missing list or an empty list return the input as it is. Otherwise there is one blog per input blog, in order, each modified by its own completion |
| RulesPostProcessor.SkippedIdempotent | src/services/useRulesPostProcessor.js:10-12 | a skipped call changes nothing, so repeating it changes nothing |
| RulesPostProcessor.BlogsIndependent | src/services/useRulesPostProcessor.js:15-59 | blog i depends only on its own completion |
| RulesPostProcessor.ModifierUndo | src/services/useRulesPostProcessor.js:46-50 | subtracting `appliedModifier` from the new similarity and dropping it gives the original blog back |
| Reranker.Documents | src/services/useReranker.js:7-11 | one document per recommendation, in order: its `embedding_text` |
| Reranker.At | src/services/useReranker.js:22-24 | an index picks the recommendation at that position iff it is in range |
| Reranker.Pick | src/services/useReranker.js:22-24 | one entry per rerank result, in result order, each the recommendation at that result's index |
| Reranker.UseReranker | src/services/useReranker.js:4-30 | the call fails when vector ranking fails. Otherwise it succeeds iff the rerank call succeeds; the request carries the stringified preferences, the documents, `rerank-v3.5` and `top_n` 5. The vector ranking is returned unchanged, and the reranked blogs are the recommendations at the returned indices, in result order (`undefined` for an index out of range) |
| Reranker.RerankedAreVectorEntries | src/services/useReranker.js:22-24 | every reranked entry is one of the vector recommendations, unmodified |
| Reranker.PickIdentity | src/services/useReranker.js:22-24 | picking indices 0..n-1 gives the vector recommendations back |
| VectorRanking.Project | src/services/useVectorRanking.js:32-42 | a recommendation has exactly the seven keys, each read from the store row |
| VectorRanking.ProjectIdempotent | src/services/useVectorRanking.js:32-42 | projecting a recommendation again changes nothing |
| VectorRanking.UseVectorRanking | src/services/useVectorRanking.js:4-48 | the call succeeds iff the embedding and the `match_blogs` call (threshold 0.1, count 5) succeed. It returns the preferences as given and one projected row per store row, in order |
| VectorRanking.RecommendationShape | src/services/useVectorRanking.js:30-43 | every recommendation has exactly the seven fields, with the row's similarity unchanged |
| Recommendation.Field | src/services/blogRecommendationService.js:7-14 | a destructured default replaces `undefined` only |
| Recommendation.GetRecommendedBlogs | src/services/blogRecommendationService.js:5-30 | a null or undefined body throws. `vector`, `llm` and `reranker` select their stage with the arguments and defaults the code passes. Any other search type throws "Invalid search type" |
| Recommendation.ExplicitDefaults | src/services/blogRecommendationService.js:7-14 | a body that spells out the default values selects the same stage as one that omits them |
| Recommendation.MissingSearchType | src/services/blogRecommendationService.js:23-24 | a body without `searchType` selects no stage |
| LlmService.GenerateSummary | src/services/llmService.js:3-25 | the summary is present iff the call succeeds, and it is then exactly the trimmed reply |
| LlmService.SummaryKeepsText | src/services/llmService.js:20 | the summary is trimmed and keeps every non-whitespace character of the reply, in order |
| LlmService.SummaryOfTrimmedReply | src/services/llmService.js:20 | an already-trimmed reply is the summary verbatim |
| LlmService.FirstObjectText | src/services/llmService.js:59 | a match exists iff some `{` has a later `}`. The match starts at the first `{`, ends at the first `}` after it, and occurs in the text |
| LlmService.FirstObjectTextSkipsProse | src/services/llmService.js:59 | prose before a flat object is skipped, and the flat object is the match |
| LlmService.FirstObjectTextIsNotBalanced | src/services/llmService.js:59 | the lazy match cuts a nested object at its first closing brace |
| LlmService.GenerateContentMetadata | src/services/llmService.js:27-68 | a failed call, or a trimmed reply without a brace pair, gives null. Otherwise the result is the parse of the first `{…}` of the trimmed reply, or null when that does not parse. Any non-null result is such a parse |
| LlmService.MetadataOfObjectInProse | src/services/llmService.js:57-63 | when the trimmed reply is brace-free prose, a flat object and any text, the result is the parse of that object, or null when it does not parse |
| PageText.ExtractIdFromUrl | src/services/scraperService.js:9-12 | a found id is non-empty, has no `/`, and is the last segment of a URL that ends `/id/` |
| PageText.ExtractIdComplete | src/services/scraperService.js:9-12 | every URL ending `/id/` with a non-empty, slash-free id yields that id |
| PageText.StripTags | src/services/scraperService.js:17 | no tag is left, and text without tags is unchanged |
| PageText.StripTagsOneTag | src/services/scraperService.js:17 | a tag between tag-free text is replaced by exactly one space |
| PageText.CollapseWhitespace | src/services/scraperService.js:18 | the result is single-spaced, and it starts with a space iff the input starts with whitespace |
| PageText.CollapseAppend | src/services/scraperService.js:18 | collapsing works piecewise across a cut after a non-whitespace character |
| PageText.CollapseRun | src/services/scraperService.js:18 | a whitespace run before a non-whitespace character, or before the end, becomes exactly one space |
| PageText.CleanText | src/services/scraperService.js:14-20 | a missing or empty input gives "". The result is trimmed, single-spaced and tag-free, and keeps every non-whitespace character of the tag-stripped input, in order |
| PageText.CleanTextSeparatesWords | src/services/scraperService.js:14-20 | two words separated by any whitespace run clean to the two words joined by one space |
| PageText.CleanTextSeparatesAtTag | src/services/scraperService.js:14-20 | two words separated only by a tag clean to the two words joined by one space |
| PageText.CleanTextHasNoNewline | src/services/scraperService.js:14-20 | clean text holds no line break |
| PageText.CleanTextOfCleanText | src/services/scraperService.js:14-20 | text that is already clean passes through unchanged |
| PageText.CollapseNewlines | src/services/scraperService.js:64 | no three line breaks remain in a row |
| PageText.CollapseNewlinesKeepsText | src/services/scraperService.js:64 | collapsing removes line breaks only |
| PageText.CollapseNewlinesOfNoTriple | src/services/scraperService.js:64 | text without a triple line break is unchanged |
| PageText.CollapseNewlinesAppend | src/services/scraperService.js:64 | collapsing works piecewise across a cut after a character that is not a line break |
| PageText.CollapseNewlinesRun | src/services/scraperService.js:64 | a run of three or more line breaks becomes exactly two, and a shorter run is kept |
| PageText.CollapseNewlinesBetween | src/services/scraperService.js:64 | a run of three or more line breaks between other characters becomes one blank line, and the text on each side is collapsed on its own |
| PageText.MainContent | src/services/scraperService.js:22-65 | the main content is trimmed and has no triple line break |
| PageText.MainContentText | src/services/scraperService.js:33-61 | without its line breaks, the main content is exactly the elements' visible texts, bullets included, in document order |
| PageText.LayoutText | src/services/scraperService.js:41-60 | each element contributes its visible text and otherwise only line breaks |
| PageText.MainContentLayout | src/services/scraperService.js:30-64 | the main content is the texts of the elements that have one, in document order. Each pair is separated by the line breaks written after the first and before the second, cut to two when there are three or more |
| PageText.SpacingIsGap | src/services/scraperService.js:41-64 | that separation is one line break after a list item inside a list that is followed by a `p` or `li`, and a blank line otherwise |
| PageText.MainContentOfTwo | src/services/scraperService.js:30-64 | two elements with text give their texts with that separation between them. For two paragraphs it is a blank line |
| BlogPage.Slug | src/services/scraperService.js:75 | the slug contains no `/` |
| BlogPage.SlugOfSegment | src/services/scraperService.js:75 | the slug of `prefix/s/` is `s` |
| BlogPage.SlugMatchesId | src/services/scraperService.js:74-75 | when the URL has a post id, the slug equals it |
| BlogPage.Terms | src/services/scraperService.js:89-109 | the terms exist iff every link has an `href` (otherwise `url.match` throws). There is one term per link, with the trimmed text, the extracted id and the href |
| BlogPage.TermIdIsLastSegment | src/services/scraperService.js:93-97 | a term's id is the last path segment of its URL |
| Crawler.NormalizeHref | src/services/scraperService.js:149 | the result starts with `http`. An absolute href is kept, and a relative href gets the base URL prepended |
| Crawler.PostLinks | src/services/scraperService.js:145-155 | a URL is listed iff some truthy href normalises to it and it contains `/blog/post/` |
| Crawler.PostLinksAppend | src/services/scraperService.js:145-155 | the links are collected in document order: those of a concatenation are those of each part, in turn |
| Crawler.PostLinksOne | src/services/scraperService.js:146-153 | a single href yields its normalised form iff it is truthy and the result contains `/blog/post/`, and nothing otherwise |
| Crawler.PageBlogUrls | src/services/scraperService.js:144-161 | the page's post links without repetitions, in the order of their first occurrence. Each link is absolute and contains `/blog/post/` |
| Crawler.CategoryLinks | src/services/scraperService.js:175-180 | a URL is listed iff it is a truthy navigation href containing `/blog/all-posts/category/` |
| Crawler.CategoryLinksAppend | src/services/scraperService.js:175-180 | the category links are collected in document order: those of a concatenation are those of each part, in turn |
| Crawler.CategoryLinksOne | src/services/scraperService.js:176-179 | a single href yields itself iff it is truthy and contains `/blog/all-posts/category/`, and nothing otherwise |
| Crawler.CategoryUrls | src/services/scraperService.js:174-180 | the category links without repetitions, in the order of their first occurrence |
| Crawler.CategoryPageUrl | src/services/scraperService.js:139 | page 1 is the category URL itself, and a later page adds `?&page=` |
| Crawler.CategoryPageUrlInjective | src/services/scraperService.js:139 | different pages are fetched at different URLs |
| Crawler.CrawlCategory | src/services/scraperService.js:189-206 | the URLs found so far stay a prefix, and no URL repeats |
| Crawler.CrawlAll | src/services/scraperService.js:183-212 | the URLs found so far stay a prefix, and no URL repeats |
| Crawler.VisitedPages | src/services/scraperService.js:186-199 | the loop visits a prefix of the pages: every visited page but the last has a next link, and the visit ends early only at a page without one |
| Crawler.CrawlCategoryUnlimited | src/services/scraperService.js:189-199 | without a limit, a category adds the links of exactly the visited pages, in first-seen order |
| Crawler.CrawlAllUnlimited | src/services/scraperService.js:183-212 | without a limit, the crawl collects every link it sees, each once, in first-seen order |
| Crawler.CrawlCategoryLimited | src/services/scraperService.js:201-205 | with a limit, a category's URLs are a prefix of the unlimited ones, and they are cut short only once the limit is reached |
| Crawler.CrawlAllLimited | src/services/scraperService.js:201-211 | with a limit, the crawl's URLs are a prefix of the unlimited crawl's, and they are all of them unless the limit was reached |
| Crawler.CrawlFromScratch | src/services/scraperService.js:183-212 | the crawl from an empty set has no repetitions and is a limited crawl of the categories |
| Crawler.PagesReadStops | src/services/scraperService.js:183-212 | the page loop reads pages up to and including the first one after which the set reaches the limit, or all of them. The limit is not reached after any earlier page |
| Crawler.PageLoopSeen | src/services/scraperService.js:189-205 | the page loop's set holds exactly the links of the pages it reads, added in order |
| Crawler.PageLoopAppend | src/services/scraperService.js:183-212 | looping over two runs of pages is looping over the first, then over the second unless the limit was reached |
| Crawler.CrawlCategoryPageLoop | src/services/scraperService.js:189-206 | one category's loop is the page loop over the pages it visits |
| Crawler.CrawlAllPageLoop | src/services/scraperService.js:183-212 | the nested category and page loops are one page loop over the visited pages of every category in turn |
| Crawler.CrawlAllReadsPages | src/services/scraperService.js:183-212 | the limited crawl holds the links of the visited pages up to and including the first one after which the limit is reached, and of no later page |
| Crawler.ScrapePosts | src/services/scraperService.js:219-236 | the kept posts are a prefix of the successful scrapes. They are all of them unless the limit was reached, the limit is not reached before the last one, and their number is the capped count |
| Crawler.WrittenFiles | src/services/scraperService.js:226-240 | one file per kept post, named by its slug and `.json`, then `all-posts.json` |
| Crawler.WriteFailure | src/services/scraperService.js:218-240 | writing throws iff some file's write fails, with the message of the first failing write |
| ScraperService.ExtractMainContent | src/services/scraperService.js:22-65 | the service's main content is trimmed, has no triple line break, and is laid out as `PageText.MainContentLayout` states, with the service's bullet |
| ScraperService.SummaryOrFallback | src/services/scraperService.js:128 | the summary is the trimmed reply unless the call failed or the reply was blank. In those cases it is the trimmed first paragraph |
| ScraperService.ScrapeBlogPost | src/services/scraperService.js:68-136 | a post is returned iff the page loads and every category and tag link has an href. The post has the URL's slug, canonical URL and post id, the trimmed title, the page's categories and tags as terms, the main content and the summary |
| ScraperService.CanonicalUrlRoundTrip | src/services/scraperService.js:122 | the canonical URL gives back the same slug, and the slug as its post id |
| ScraperService.ScrapedPostIds | src/services/scraperService.js:74-122 | when the URL has an id, the post's slug equals it, and its canonical URL carries the same id |
| ScraperService.LimitEcho | src/services/scraperService.js:248 | the echoed limit is "none" iff the limit is absent or zero |
| ScraperService.ScrapeAllContent | src/services/scraperService.js:167-250 | each error rejects with its own message, in the order the steps run: the main page fetch, the directory creation, then the writes of the kept posts' files and of `all-posts.json`. The call succeeds iff none fails. The report then holds the category set and the crawl of those categories' pages from an empty set, which has no repetitions. totalBlogs is the number of URLs, the posts are the capped prefix of the successful scrapes, and scrapedPosts and limit are echoed consistently |
| ArticleController.RelatedPosts | src/controllers/article.js:113-121 | there is one related post per `.related-item`, with a trimmed title and raw link and image |
| ArticleController.ScrapeBlogPost | src/controllers/article.js:69-160 | a post is returned iff the page loads and every term link has an href. The post has the URL's slug and id, the trimmed title, the page's categories and tags as terms, the controller-bulleted main content, the trimmed first paragraph as summary, the related posts of the page's items, and the previous and next links |
| ArticleController.MainContentWithoutBullets | src/controllers/article.js:52-58 | without bulleted list items, the bullet literal does not affect the main content |
| ArticleController.SameTextAsService | src/controllers/article.js:23-66 | for such a page, the controller's main content equals the service's |
| ArticleController.ScrapeHandler | src/controllers/article.js:162-275 | each step's error becomes a 500 carrying its message, in the order the steps run: the main page fetch, the category crawl, the directory creation, then the file writes. The response is a success iff none fails. The body then holds the category set and every link of every category crawled to its last page, each once. The posts are all successful scrapes, and the counts match |
| ArticleController.CrawlFailure | src/controllers/article.js:185-233 | the crawl throws iff some category's loaded pages all show a next link. The message is that of the fetch of the next page of the first such category |
| ArticleController.VisitedWhenNotRunningOut | src/controllers/article.js:218-232 | a category whose loop does not run out of pages stops at a loaded page without a next link |
| BlogsController.ParseLimit | src/controllers/blogs.js:11-13 | the limit is kept iff the query is present, non-empty, parses, and is not zero. It is then the parsed value |
| BlogsController.ScrapeHandler | src/controllers/blogs.js:8-33 | a missing, empty, non-numeric or zero limit gives 400 "Limit is required". Otherwise a failed main page fetch, directory creation or file write gives 500 with that error's message, and the handler succeeds iff none fails. The body then holds the category set, the crawl of its pages, the URL count and the kept posts. scrapedPosts is their number and at most the limit (at most 1 for a negative limit), and the limit is echoed |
| BlogsController.EmbeddingSource | src/controllers/blogs.js:130-137 | the embedded object has exactly the six fields, read from the blog's columns and the names |
| BlogsController.RefreshMetadata | src/controllers/blogs.js:123-171 | an error names the blog's post_id and title. A non-array or null-holding categories or tags field fails with the TypeError. Otherwise a failed embedding or update is reported with its message, and the step succeeds iff neither fails, storing the embedding of the serialised source object with the new metadata and text |
| BlogsController.KeepMetadataOnly | src/controllers/blogs.js:284-324 | an error names the blog. A parse failure is reported with its message, and a missing `contentMetadata` with the TypeError. Otherwise a failed embedding or update is reported with its message, and the step succeeds iff neither fails, storing the serialised `contentMetadata` alone and its embedding |
| BlogsController.KeepMetadataOfImported | src/controllers/blogs.js:286-291 | an embedding text written by the importer is reduced to the serialised metadata |
| BlogsController.RunOverBlogs | src/controllers/blogs.js:114-172 | a failed fetch gives 500. Otherwise total is the number of blogs, the tallies balance, and the errors and updates are those of the steps, in order. Each error carries some blog's post_id and title |
| BlogsController.UpdateBlogsMetadata | src/controllers/blogs.js:101-185 | the tally of refreshing every blog, in order, or 500 on a failed fetch |
| BlogsController.ModifyEmbeddingText | src/controllers/blogs.js:260-338 | the tally of reducing every blog's text, in order, or 500 on a failed fetch |
| BlogsController.ModifyBlogEmbedding | src/controllers/blogs.js:187-258 | a missing id gives 400, and a failed fetch gives 404 with its message. A failed embedding or update gives 500 with its message. Success is equivalent to both succeeding, and the body holds the updated row, the fixed text and the message |
| BlogsController.ModifyBlogEmbeddingTouchesOnlyEmbedding | src/controllers/blogs.js:228-236 | the only update the handler requests sets `embedding_text` to the test text and `embedding`, and no other column |
| BlogsController.ModifyBlogEmbeddingFetchOnlyChecks | src/controllers/blogs.js:199-214 | the fetched row is used only as a check that the blog exists |
| Duplicator.DuplicateOf | src/services/blogDuplicatorService.js:56-63 | a copy has no id, carries the flag and the marked title, and keeps every other field |
| Duplicator.Duplicates | src/services/blogDuplicatorService.js:52-66 | copy k is the copy of source row `k mod n` |
| Duplicator.FlattenBatches | src/services/blogDuplicatorService.js:68-83 | the batches hold every copy, in order |
| Duplicator.BatchesWellBatched | src/services/blogDuplicatorService.js:68-83 | every batch but the last holds exactly 100 copies, and the last holds 1 to 100 |
| Duplicator.InsertInBatches | src/services/blogDuplicatorService.js:52-84 | the stored batches are a prefix of the batches. Every batch is stored iff no insert fails, and a failure is the error of the first failing insert |
| Duplicator.DuplicateBlogs | src/services/blogDuplicatorService.js:7-110 | the count error, already-full, fetch error, empty-table and insert error cases are each reported as the code reports them. Once every batch of a table below 2500 rows is stored, a final-count error is reported; otherwise the result is a success that stored exactly the 2500 - n copies, in order, and reports a final count of 2500 |
| Duplicator.Purge | src/services/blogDuplicatorService.js:139-142 | no flagged row is left |
| Duplicator.PurgeCount | src/services/blogDuplicatorService.js:148-153 | every row is either kept or counted as deleted |
| Duplicator.PurgeClean | src/services/blogDuplicatorService.js:139-142 | a table without flagged rows is unchanged |
| Duplicator.NoneCounted | src/services/blogDuplicatorService.js:130-136 | a zero count means that purging would change nothing |
| Duplicator.PurgeAllFlagged | src/services/blogDuplicatorService.js:139-142 | a table of flagged rows purges to nothing |
| Duplicator.DeleteDuplicateBlogs | src/services/blogDuplicatorService.js:116-163 | count and delete errors leave the table unchanged. Zero duplicates is a success that deletes nothing. Success leaves the purged table, with deletedCount equal to the rows removed, and it happens iff no needed call fails |
| Duplicator.DuplicateThenPurge | src/services/blogDuplicatorService.js:56-63 | purging after any number of stored batches gives back a table that had no flagged rows |
| BlogProcessor.JsonFiles | src/services/blogProcessorService.js:13 | a file is kept iff it is listed and ends with `.json` |
| BlogProcessor.JsonFilesAppend | src/services/blogProcessorService.js:13 | filtering keeps listing order: the files kept from a concatenation are those kept from each part, in turn |
| BlogProcessor.JsonFilesOne | src/services/blogProcessorService.js:13 | a single file is kept iff its name ends with `.json` |
| BlogProcessor.JsonFilesIdempotent | src/services/blogProcessorService.js:13 | filtering twice is filtering once |
| BlogProcessor.InsertRow | src/services/blogProcessorService.js:63-79 | the row has exactly the twelve post columns plus metadata, embedding and text. Each post column is read from its camelCase field |
| BlogProcessor.ProcessFile | src/services/blogProcessorService.js:25-94 | an error names its file, and a read failure is reported with its message. A file is stored iff it parses to a non-null value and the embedding and insert succeed, and the stored row is the enriched row |
| BlogProcessor.ProcessBlogs | src/services/blogProcessorService.js:8-102 | a listing failure is rethrown. Otherwise total is the number of `.json` files, the tallies balance, and the errors and rows are those of the files, in order. Every error names a listed `.json` file |
| Tally.Run | src/controllers/blogs.js:114-172 | total is the number of items, the tallies balance, and the errors and results are those of the items, in order |
| Tally.ErrorOrigin | src/controllers/blogs.js:163-171 | every reported error is the error of some failed item |
| OrderedSet.InsertAll | src/services/scraperService.js:183-197 | a `Set` grown by `add` has no repetitions, keeps its earlier elements first, and holds exactly the old and the added values |
| OrderedSet.InsertAllNew | src/services/scraperService.js:183-197 | every value past the old elements comes from the added list and was not already in the set |
| OrderedSet.InsertAllOrder | src/services/scraperService.js:243-244 | the added values appear in the order of their first occurrence |
| OrderedSet.InsertAllAppend | src/services/scraperService.js:197 | adding two lists one after the other is adding their concatenation |
| Strings.Trim | src/services/scraperService.js:19 | the result is trimmed, and it is the input without a whitespace-only prefix and suffix |
| Strings.TrimIdempotent | src/services/scraperService.js:19 | trimming twice is trimming once |

## Left out

- HTTP, DOM parsing, the file system and the clients are replaced by their answers. This covers axios, cheerio selection, `fs` reads and writes, the `slocal-blog-data` directory and `outputDirectory`, and the LLM, embedding, rerank and store clients.
- Timing (`duration`), token `usage` and logging are left out, because they do not affect any result.
- Floating point is modelled as exact `real` arithmetic, and NaN is not modelled.
- `parseFloat` on the modifier reply and `parseInt` on the limit are inputs.
- The completions in the rule post-processor run concurrently. They are modelled as independent per-position replies, which is what `Promise.all` over independent calls gives.
- `RulesPostProcessor.Plus`: a non-numeric `similarity` becomes `Undefined`, where JavaScript yields NaN or a string concatenation.
- `LlmRanking.Names`: an object whose `length` property is a numeric string is treated as having no positive length.
- `LlmRanking.DuplicateBlogsToTargetCount`: `targetCount` is a natural number. Negative or fractional counts, and their `slice` semantics, are not modelled.
- `LlmRanking.RankedItems`: the reasons for a failed parse or a failed call are placeholder messages. The source rethrows the original error.
- `BlogsController.RefreshMetadata`: the TypeError thrown by `.map` on a non-array, and by reading `name` of null, is one fixed message (`NamesTypeError`). The runtime's exact wording is not modelled. The same applies to `NullMetadataTypeError`, `UndefinedTitleMessage` and `DestructureNullMessage`.
- `JSON.stringify(undefined)` returning `undefined` is not distinguished from a string. Every serialisation is a string.
- The store's default row cap on `select("*")` is not modelled: a fetched table is the whole table.
- `Duplicator.DuplicateBlogs`: the count of rows is the length of the fetched table, and the final count is the table plus the stored copies. Concurrent writers and a `null` count without an error are not modelled.
- `Crawler.CrawlAllReadsPages`, `Crawler.CrawlAllPageLoop`: assume every category yields at least its first page. A category's first page is always fetched, and a failed fetch throws, which is not modelled (see the next line).
- `ScraperService.ScrapeAllContent`: a failed category page fetch is not modelled, because `pagesOf` is total. A category whose last page still shows a next link is crawled only as far as the supplied pages go. With a limit, whether such a fetch happens depends on when the limit is reached; the article controller, which has no limit, models it (`ArticleController.CrawlFailure`). Whether a file write fails depends on the file name only.
- `ArticleController.ScrapeHandler`: whether a file write fails depends on the file name only, not on the serialised contents. The `JSON.stringify` output, the `slocal-blog-data` path and `outputDirectory` are not modelled, and the body also carries the posts, where the source returns only their count.
- `publishDate` keeps the raw `datetime` attribute. The `new Date` conversion is not modelled.
- `processBlogsHandler`, `getRecommendationsHandler` and `generateContentMetadataHandler` are left out. They only wrap a modelled service call in a 200 or 500 response.
- The routes, the client set-up, the scripts and the Firebase initialisation are left out, because they hold no logic.

=== FILE: article_controller.dfy ===
/** The article controller's own copy of the scraper: `scrapeBlogPost`
    without an LLM summary but with related posts and the previous and next
    post links, and `scrapeHandler`, which crawls every category with no
    limit and answers the HTTP request. */
module ArticleController {
  import opened Wrappers
  import opened Strings
  import opened OrderedSet
  import opened PageText
  import opened BlogPage
  import opened Crawler

  /** The list-item bullet of this file. */
  const ControllerBullet := "\U{2022} "

  datatype RelatedPost = RelatedPost(title: string, url: Option<string>, imageUrl: Option<string>)

  datatype NavLink = NavLink(title: string, url: string)

  /** A post as the controller's `scrapeBlogPost` returns it. */
  datatype ArticlePost = ArticlePost(
    postId: Option<string>,
    title: string,
    slug: string,
    publishDate: Option<string>,
    featuredImage: Image,
    author: Author,
    content: Option<string>,
    mainContent: string,
    summary: string,
    categories: seq<Term>,
    tags: seq<Term>,
    relatedPosts: seq<RelatedPost>,
    previousPost: NavLink,
    nextPost: NavLink)

  /** `.related-item` entries: trimmed title, raw link and image attributes. */
  function RelatedPosts(items: seq<Related>): (r: seq<RelatedPost>)
    ensures |r| == |items|
    ensures forall i :: 0 <= i < |items| ==>
              r[i] == RelatedPost(Trim(items[i].title), items[i].href, items[i].imageSrc)
  {
    seq(|items|, i requires 0 <= i < |items| => RelatedPost(Trim(items[i].title), items[i].href, items[i].imageSrc))
  }

  /** `scrapeBlogPost(url)` of the controller; `page` is `None` when the fetch
      or the parse throws. */
  function ScrapeBlogPost(url: string, page: Option<PostPage>): (r: Option<ArticlePost>)
    ensures r.Some? <==> page.Some? && Terms(page.value.categories).Some? && Terms(page.value.tags).Some?
    ensures r.Some? ==> r.value.slug == Slug(url) && r.value.postId == ExtractIdFromUrl(url)
    ensures r.Some? ==> r.value.mainContent == MainContent(ControllerBullet, page.value.elements)
    ensures r.Some? ==> r.value.summary == Trim(page.value.firstParagraph)
    ensures r.Some? ==> r.value.title == Trim(page.value.title)
    ensures r.Some? ==> r.value.categories == Terms(page.value.categories).value
                        && r.value.tags == Terms(page.value.tags).value
    ensures r.Some? ==> r.value.relatedPosts == RelatedPosts(page.value.related)
    ensures r.Some? ==> r.value.previousPost == NavLink(Trim(page.value.prevTitle), page.value.prevHref.GetOr(""))
                        && r.value.nextPost == NavLink(Trim(page.value.nextTitle), page.value.nextHref.GetOr(""))
  {
    if page.None? then None
    else
      var p := page.value;
      var cats, tags := Terms(p.categories), Terms(p.tags);
      if cats.None? || tags.None? then None
      else
        Some(ArticlePost(
          postId := ExtractIdFromUrl(url),
          title := Trim(p.title),
          slug := Slug(url),
          publishDate := p.datetime,
          featuredImage := FeaturedImage(p),
          author := AuthorOf(p),
          content := p.content,
          mainContent := MainContent(ControllerBullet, p.elements),
          summary := Trim(p.firstParagraph),
          categories := cats.value,
          tags := tags.value,
          relatedPosts := RelatedPosts(p.related),
          previousPost := NavLink(Trim(p.prevTitle), p.prevHref.GetOr("")),
          nextPost := NavLink(Trim(p.nextTitle), p.nextHref.GetOr(""))))
  }

  /** A list item inside a list whose clean text is not empty: the only
      element the bullet is printed for. */
  predicate Bulleted(e: Element)
  {
    e.tag == "li" && e.parentIsList && CleanText(e.html) != ""
  }

  /** The bullet literal matters only for bulleted list items: without them
      the two copies of `extractMainContent` produce the same text. */
  lemma {:induction false} MainContentWithoutBullets(b1: string, b2: string, els: seq<Element>)
    requires forall i :: 0 <= i < |els| ==> !Bulleted(els[i])
    ensures MainContent(b1, els) == MainContent(b2, els)
  {
    AssembleWithoutBullets(b1, b2, els);
  }

  lemma {:induction false} AssembleWithoutBullets(b1: string, b2: string, els: seq<Element>)
    requires forall i :: 0 <= i < |els| ==> !Bulleted(els[i])
    ensures Assemble(b1, els) == Assemble(b2, els)
    decreases |els|
  {
    if els != [] {
      PieceWithoutBullet(b1, b2, els[0]);
      assert forall i :: 0 < i < |els| ==> els[1..][i - 1] == els[i];
      AssembleWithoutBullets(b1, b2, els[1..]);
    }
  }

  lemma PieceWithoutBullet(b1: string, b2: string, e: Element)
    requires !Bulleted(e)
    ensures Piece(b1, e) == Piece(b2, e)
  {
    var t := CleanText(e.html);
    LayoutWithoutBullet(b1, b2, e.tag, e.parentIsList, t);
  }

  lemma LayoutWithoutBullet(b1: string, b2: string, tag: string, inList: bool, t: string)
    requires !(tag == "li" && inList && t != "")
    ensures Layout(b1, tag, inList, t) == Layout(b2, tag, inList, t)
  {
  }

  /** Both copies of `scrapeBlogPost` read the same post identity and text
      from a page; only the bullet of the main content and the summary
      source differ. */
  lemma SameTextAsService(url: string, page: PostPage, serviceBullet: string)
    requires ScrapeBlogPost(url, Some(page)).Some?
    requires forall i :: 0 <= i < |page.elements| ==> !Bulleted(page.elements[i])
    ensures ScrapeBlogPost(url, Some(page)).value.mainContent == MainContent(serviceBullet, page.elements)
  {
    MainContentWithoutBullets(ControllerBullet, serviceBullet, page.elements);
  }

  // ---------------------------------------------------------------- handler

  /** The JSON body of a successful `scrapeHandler` response
      (`outputDirectory` left out), with the posts it writes to
      `all-posts.json`. */
  datatype CrawlReport = CrawlReport(
    categoryUrls: seq<string>,
    blogUrls: seq<string>,
    totalBlogs: nat,
    scrapedPosts: nat,
    posts: seq<ArticlePost>)

  datatype Response = Success(body: CrawlReport) | ServerError(message: string)

  /** Whether the `while (hasNextPage)` loop over a category asks for a page
      past the ones that load: `pages[i]` is what page `i + 1` returns, and a
      fetch beyond them throws. That happens when every loaded page shows a
      next link (or none loads at all). */
  predicate RunsOut(pages: seq<CategoryPage>)
  {
    forall i :: 0 <= i < |pages| ==> pages[i].hasNextPage
  }

  /** The error a category's crawl throws, if any: the failed fetch of the
      page after the last one that loads. */
  function CategoryError(cat: string, pages: seq<CategoryPage>, fetchError: string -> string): (r: Option<string>)
    ensures r.Some? <==> RunsOut(pages)
    ensures r.Some? ==> r.value == fetchError(CategoryPageUrl(cat, |pages| + 1))
  {
    if RunsOut(pages) then Some(fetchError(CategoryPageUrl(cat, |pages| + 1))) else None
  }

  /** Without an error, a category's loop stops at a page that loads. */
  lemma VisitedWhenNotRunningOut(pages: seq<CategoryPage>)
    requires !RunsOut(pages)
    ensures |VisitedPages(pages)| > 0 && !VisitedPages(pages)[|VisitedPages(pages)| - 1].hasNextPage
  {
    var v := VisitedPages(pages);
    assert forall i :: 0 <= i < |v| ==> v[i] == pages[i];
  }

  /** The error the crawl of all categories throws, if any: that of the first
      category whose loop runs out of pages. */
  function CrawlFailure(cats: seq<string>, pagesOf: string -> seq<CategoryPage>,
                        fetchError: string -> string): (r: Option<string>)
    ensures r.None? <==> forall k :: 0 <= k < |cats| ==> !RunsOut(pagesOf(cats[k]))
    ensures forall k :: 0 <= k < |cats| && RunsOut(pagesOf(cats[k]))
                        && (forall j :: 0 <= j < k ==> !RunsOut(pagesOf(cats[j]))) ==>
              r == Some(fetchError(CategoryPageUrl(cats[k], |pagesOf(cats[k])| + 1)))
  {
    var errs := seq(|cats|, i requires 0 <= i < |cats| => CategoryError(cats[i], pagesOf(cats[i]), fetchError));
    assert forall k :: 0 <= k < |cats| ==> (errs[k].Some? <==> RunsOut(pagesOf(cats[k])));
    FirstSome(errs)
  }

  function ArticleSlug(post: ArticlePost): string
  {
    post.slug
  }

  /** The posts the handler scrapes once every category has been crawled:
      those of the crawled post URLs that scrape, in crawl order. */
  function CrawledPosts(cats: seq<string>, pagesOf: string -> seq<CategoryPage>,
                        scrape: string -> Option<ArticlePost>): seq<ArticlePost>
  {
    Somes(MapSeq(scrape, InsertAll([], AllLinks(MapSeq(pagesOf, cats)))))
  }

  /** `scrapeHandler`. The fetches, the file system and the post scraper are
      parameters:
      - `nav` is the main page's navigation hrefs, or the error its fetch throws;
      - `pagesOf(url)` is the category pages of `url` that load, and
        `fetchError(pageUrl)` the message of a fetch beyond them;
      - `mkdirError` is what creating the output directory throws, if anything;
      - `scrape` is the controller's `scrapeBlogPost`, which never throws;
      - `writeError(fileName)` is what writing that file throws, if anything.
      The steps run in that order and the first error thrown becomes a 500
      answer carrying its message; otherwise every category is crawled to its
      last page, every post that scrapes is kept and written, and the report
      is returned. */
  function ScrapeHandler(nav: Result<seq<Option<string>>>,
                         pagesOf: string -> seq<CategoryPage>,
                         fetchError: string -> string,
                         mkdirError: Option<string>,
                         scrape: string -> Option<ArticlePost>,
                         writeError: string -> Option<string>): (r: Response)
    ensures nav.Err? ==> r == ServerError(nav.message)
    ensures nav.Ok? && CrawlFailure(CategoryUrls(nav.value), pagesOf, fetchError).Some? ==>
              r == ServerError(CrawlFailure(CategoryUrls(nav.value), pagesOf, fetchError).value)
    ensures nav.Ok? && CrawlFailure(CategoryUrls(nav.value), pagesOf, fetchError).None? && mkdirError.Some? ==>
              r == ServerError(mkdirError.value)
    ensures nav.Ok? && CrawlFailure(CategoryUrls(nav.value), pagesOf, fetchError).None? && mkdirError.None? ==>
              var failure := WriteFailure(WrittenFiles(MapSeq(ArticleSlug, CrawledPosts(CategoryUrls(nav.value), pagesOf, scrape))), writeError);
              (failure.Some? ==> r == ServerError(failure.value)) && (failure.None? ==> r.Success?)
    ensures r.Success? ==> nav.Ok? && mkdirError.None?
                           && CrawlFailure(CategoryUrls(nav.value), pagesOf, fetchError).None?
                           && WriteFailure(WrittenFiles(MapSeq(ArticleSlug, r.body.posts)), writeError).None?
    ensures r.Success? ==> r.body.categoryUrls == CategoryUrls(nav.value)
    ensures r.Success? ==> r.body.blogUrls == InsertAll([], AllLinks(MapSeq(pagesOf, r.body.categoryUrls)))
    ensures r.Success? ==> Distinct(r.body.blogUrls) && r.body.totalBlogs == |r.body.blogUrls|
    ensures r.Success? ==> r.body.posts == Somes(MapSeq(scrape, r.body.blogUrls))
    ensures r.Success? ==> r.body.scrapedPosts == |r.body.posts| <= |r.body.blogUrls|
  {
    if nav.Err? then ServerError(nav.message)
    else
      var cats := CategoryUrls(nav.value);
      var crawlFailure := CrawlFailure(cats, pagesOf, fetchError);
      if crawlFailure.Some? then ServerError(crawlFailure.value)
      else if mkdirError.Some? then ServerError(mkdirError.value)
      else
        var pages := MapSeq(pagesOf, cats);
        CrawlAllUnlimited([], pages);
        var urls := CrawlAll([], pages, None);
        var posts := Somes(MapSeq(scrape, urls));
        SomesLength(MapSeq(scrape, urls));
        var writeFailure := WriteFailure(WrittenFiles(MapSeq(ArticleSlug, posts)), writeError);
        if writeFailure.Some? then ServerError(writeFailure.value)
        else Success(CrawlReport(cats, urls, |urls|, |posts|, posts))
  }
}

=== FILE: blog_page.dfy ===
/** What `scrapeBlogPost` reads from one blog post page, in both the scraper
    service and the article controller: the page's facts (the DOM queries are
    replaced by their answers), the slug taken from the post URL, and the
    category and tag links. */
module BlogPage {
  import opened Wrappers
  import opened Strings
  import opened PageText

  /** An `<a>` element: its text and its `href` attribute, if any. */
  datatype Link = Link(text: string, href: Option<string>)

  /** A category or tag entry of a scraped post. */
  datatype Term = Term(name: string, id: Option<string>, url: string)

  /** A `.related-item` of the page, as the controller reads it. */
  datatype Related = Related(title: string, href: Option<string>, imageSrc: Option<string>)

  /** The answers to the DOM queries `scrapeBlogPost` makes. `content` is the
      `.post-content` HTML after `extractMainContent` has removed the scripts,
      styles, frames, advertisements and share widgets; `elements` are the
      `h3, h5, p, li` elements inside it, in document order. */
  datatype PostPage = PostPage(
    title: string,
    datetime: Option<string>,
    imageSrc: Option<string>,
    imageAlt: Option<string>,
    authorName: string,
    authorHref: Option<string>,
    categories: seq<Link>,
    tags: seq<Link>,
    content: Option<string>,
    elements: seq<Element>,
    firstParagraph: string,
    related: seq<Related>,
    prevTitle: string,
    prevHref: Option<string>,
    nextTitle: string,
    nextHref: Option<string>)

  datatype Image = Image(url: string, alt: string)

  datatype Author = Author(name: string, profileUrl: string)

  /** `{ url: src || "", alt: alt || "" }`. */
  function FeaturedImage(page: PostPage): Image
  {
    Image(page.imageSrc.GetOr(""), page.imageAlt.GetOr(""))
  }

  /** `{ name: text.trim() || "", profileUrl: href || "" }`. */
  function AuthorOf(page: PostPage): Author
  {
    Author(Trim(page.authorName), page.authorHref.GetOr(""))
  }

  // ---------------------------------------------------------------- slug

  /** `url.split("/").slice(-2)[0]`: the next-to-last `/`-segment, or the
      only segment of a URL without a slash. */
  function Slug(url: string): (r: string)
    ensures '/' !in r
  {
    var segs := Split(url, '/');
    if |segs| >= 2 then segs[|segs| - 2] else segs[0]
  }

  /** The slug of `prefix/s/` is `s`. */
  lemma SlugOfSegment(prefix: string, s: string)
    requires '/' !in s
    ensures Slug(prefix + "/" + s + "/") == s
  {
    var url := prefix + "/" + s + "/";
    assert url == prefix + ['/'] + (s + ['/'] + []);
    SplitAtSeparator(prefix, '/', s + ['/'] + []);
    SplitAtSeparator(s, '/', []);
    SplitNoSeparator(s, '/');
    assert Split([], '/') == [[]];
  }

  /** When the URL has a post id, the slug is that id. */
  lemma SlugMatchesId(url: string)
    requires ExtractIdFromUrl(url).Some?
    ensures Slug(url) == ExtractIdFromUrl(url).value
  {
    var id := ExtractIdFromUrl(url).value;
    var prefix := url[..|url| - |id| - 2];
    assert url == prefix + "/" + id + "/";
    SlugOfSegment(prefix, id);
  }

  // ---------------------------------------------------------------- terms

  /** The `{ name, id, url }` entries of the category or tag links. A link
      without an `href` makes `extractIdFromUrl` throw (`url.match` on
      `undefined`), which fails the whole scrape: `None`. */
  function Terms(links: seq<Link>): (r: Option<seq<Term>>)
    ensures r.Some? <==> forall i :: 0 <= i < |links| ==> links[i].href.Some?
    ensures r.Some? ==> |r.value| == |links| && forall i :: 0 <= i < |links| ==> r.value[i] == TermOf(links[i])
  {
    if links == [] then Some([])
    else
      var rest := Terms(links[1..]);
      AllHrefCons(links);
      if links[0].href.None? || rest.None? then None
      else
        TermsCons(links, rest.value);
        Some([TermOf(links[0])] + rest.value)
  }

  /** The entry of a link that has an `href`. */
  function TermOf(link: Link): Term
    requires link.href.Some?
  {
    Term(Trim(link.text), ExtractIdFromUrl(link.href.value), link.href.value)
  }

  lemma AllHrefCons(links: seq<Link>)
    requires |links| > 0
    ensures (forall i :: 0 <= i < |links| ==> links[i].href.Some?)
        <==> links[0].href.Some? && forall i :: 0 <= i < |links| - 1 ==> links[1..][i].href.Some?
  {
    assert forall i :: 0 < i < |links| ==> links[1..][i - 1] == links[i];
  }

  lemma TermsCons(links: seq<Link>, rest: seq<Term>)
    requires |links| > 0 && links[0].href.Some? && |rest| == |links| - 1
    requires forall i :: 0 <= i < |rest| ==> links[1..][i].href.Some? && rest[i] == TermOf(links[1..][i])
    ensures forall i :: 0 <= i < |links| ==> links[i].href.Some? && ([TermOf(links[0])] + rest)[i] == TermOf(links[i])
  {
    var r := [TermOf(links[0])] + rest;
    forall i | 0 < i < |links|
      ensures links[i].href.Some? && r[i] == TermOf(links[i])
    {
      assert links[1..][i - 1] == links[i] && r[i] == rest[i - 1];
    }
  }

  /** A term's id, when it has one, is the last path segment of its URL. */
  lemma TermIdIsLastSegment(links: seq<Link>, i: nat)
    requires Terms(links).Some? && i < |links|
    requires Terms(links).value[i].id.Some?
    ensures var t := Terms(links).value[i];
            '/' !in t.id.value && EndsWith(t.url, "/" + t.id.value + "/")
  {
  }
}

=== FILE: blogs_controller.dfy ===
/** The blog maintenance handlers of `controllers/blogs.js`: the scrape entry
    point with its limit check, the two bulk re-embedding jobs with their
    per-blog tallies, and the single-blog embedding override.

    Store reads and updates, the metadata completion and the embedding call
    are inputs, as in the services: `Err(message)` for a call that throws or
    reports an error, `replyFor(mainContent)` for the completion text, and
    `updateError(u)` for the error the store reports for update `u`.
    `JSON.stringify`, `JSON.parse` and `parseInt` are the parameters
    `stringify`, `parseText` and `parseInt`. */
module BlogsController {
  import opened Wrappers
  import opened Json
  import opened Tally
  import opened LlmService
  import opened Crawler
  import opened OrderedSet
  import opened ScraperService
  import opened BlogProcessor

  const LimitRequiredMessage := "Limit is required"
  const PostIdRequiredMessage := "Post ID is required"
  const BlogNotFoundMessage := "Blog not found"
  /** What `blog.categories.map` or `blog.tags.map` throws when the field is
      not an array of objects. */
  const NamesTypeError := "Cannot map the names of a non-array"
  /** What reading `contentMetadata` of a parsed `null` throws. */
  const NullMetadataTypeError := "Cannot read properties of null (reading 'contentMetadata')"
  /** The fixed text `modifyBlogEmbeddingHandler` embeds. */
  const TestEmbeddingText := "{\"activities\": \"ice fishing\" }"

  /** A handler's response: `200` with the success body, or the status code
      with `{ success: false, error, details? }`. */
  datatype Response<T> = Success(body: T) | Failure(status: nat, error: string, details: Option<string>)

  // ---------------------------------------------------------------- scrape

  /** `req.query.limit ? parseInt(req.query.limit) : undefined`, kept only
      when `!limit` is false. `parseInt(s)` is `None` for `NaN`. */
  function ParseLimit(query: Option<string>, parseInt: string -> Option<int>): (r: Option<int>)
    ensures r.Some? <==> query.Some? && query.value != "" && parseInt(query.value).Some?
                         && parseInt(query.value).value != 0
    ensures r.Some? ==> r == parseInt(query.value)
  {
    if query.None? || query.value == "" then None
    else
      match parseInt(query.value)
      case None => None
      case Some(n) => if n == 0 then None else Some(n)
  }

  /** `scrapeHandler`: a missing, empty, non-numeric or zero limit is a `400`
      before anything is fetched; otherwise the crawl's report, or `500` with
      the message of the error `scrapeAllContent` rejects with. */
  method ScrapeHandler(query: Option<string>, parseInt: string -> Option<int>,
                       nav: Result<seq<Option<string>>>,
                       pagesOf: string -> seq<CategoryPage>,
                       scrape: string -> Option<Post>,
                       mkdirError: Option<string>,
                       writeError: string -> Option<string>) returns (r: Response<ScrapeReport>)
    ensures ParseLimit(query, parseInt).None? ==> r == Failure(400, LimitRequiredMessage, None)
    ensures ParseLimit(query, parseInt).Some? && nav.Err? ==> r == Failure(500, nav.message, None)
    ensures ParseLimit(query, parseInt).Some? && nav.Ok? && mkdirError.Some? ==>
              r == Failure(500, mkdirError.value, None)
    ensures ParseLimit(query, parseInt).Some? && nav.Ok? && mkdirError.None? ==>
              var posts := KeptPosts(nav.value, pagesOf, scrape, ParseLimit(query, parseInt));
              var failure := WriteFailure(WrittenFiles(MapSeq(PostSlug, posts)), writeError);
              (failure.Some? ==> r == Failure(500, failure.value, None))
              && (failure.None? ==> r.Success? && r.body.posts == posts)
    ensures r.Success? ==> ParseLimit(query, parseInt).Some? && nav.Ok? && mkdirError.None?
    ensures r.Success? ==>
              && nav.Ok?
              && r.body.categoryUrls == CategoryUrls(nav.value)
              && r.body.blogUrls == CrawlAll([], MapSeq(pagesOf, r.body.categoryUrls), ParseLimit(query, parseInt))
              && Distinct(r.body.blogUrls)
              && r.body.totalBlogs == |r.body.blogUrls|
              && r.body.scrapedPosts == |r.body.posts|
    ensures r.Success? ==> var limit := ParseLimit(query, parseInt).value;
              r.body.limit == Num(limit as real)
              && (limit > 0 ==> r.body.scrapedPosts <= limit)
              && (limit < 0 ==> r.body.scrapedPosts <= 1)
  {
    var limit := ParseLimit(query, parseInt);
    if limit.None? {
      return Failure(400, LimitRequiredMessage, None);
    }
    var result := ScrapeAllContent(nav, pagesOf, scrape, limit, mkdirError, writeError);
    if result.Err? {
      return Failure(500, result.message, None);
    }
    r := Success(result.value);
  }

  // ----------------------------------------------------- bulk re-embedding

  /** `{ post_id, title, error: error.message }`. */
  datatype BlogError = BlogError(postId: Value, title: Value, error: string)

  /** `.update(fields).eq("post_id", postId)`. */
  datatype Update = Update(postId: Value, fields: Row)

  /** The error record for a blog. */
  function ErrorFor(blog: Row, message: string): BlogError
  {
    BlogError(Get(blog, "post_id"), Get(blog, "title"), message)
  }

  /** The object serialised for the embedding in `updateBlogsMetadataHandler`. */
  function EmbeddingSource(blog: Row, categories: seq<Value>, tags: seq<Value>, contentMetadata: Value): (r: Row)
    ensures r.Keys == {"title", "summary", "publishDate", "categories", "tags", "contentMetadata"}
    ensures r["title"] == Get(blog, "title") && r["summary"] == Get(blog, "summary")
            && r["publishDate"] == Get(blog, "publish_date")
    ensures r["categories"] == Arr(categories) && r["tags"] == Arr(tags) && r["contentMetadata"] == contentMetadata
  {
    map[
      "title" := Get(blog, "title"),
      "summary" := Get(blog, "summary"),
      "publishDate" := Get(blog, "publish_date"),
      "categories" := Arr(categories),
      "tags" := Arr(tags),
      "contentMetadata" := contentMetadata]
  }

  /** The body of the `try` block of `updateBlogsMetadataHandler` for one blog. */
  function RefreshMetadata(blog: Row, replyFor: Value -> Option<string>, parse: string -> Option<Value>,
                           stringify: Value -> string, embed: string -> Result<Value>,
                           updateError: Update -> Option<string>): (r: Step<Update, BlogError>)
    ensures r.Failed? ==> r.error.postId == Get(blog, "post_id") && r.error.title == Get(blog, "title")
    ensures MapProp(Get(blog, "categories"), "name").None? || MapProp(Get(blog, "tags"), "name").None? ==>
              r == Failed(ErrorFor(blog, NamesTypeError))
    ensures r.Done? ==>
              var md := GenerateContentMetadata(replyFor(Get(blog, "main_content")), parse);
              var cats, tags := MapProp(Get(blog, "categories"), "name"), MapProp(Get(blog, "tags"), "name");
              && cats.Some? && tags.Some?
              && var text := stringify(Obj(EmbeddingSource(blog, cats.value, tags.value, md)));
                 && embed(text).Ok?
                 && r.result == Update(Get(blog, "post_id"), map["content_metadata" := md, "embedding_text" := Str(text),
                                                                 "embedding" := embed(text).value])
                 && updateError(r.result).None?
    ensures var md := GenerateContentMetadata(replyFor(Get(blog, "main_content")), parse);
            var cats, tags := MapProp(Get(blog, "categories"), "name"), MapProp(Get(blog, "tags"), "name");
            cats.Some? && tags.Some? ==>
              var text := stringify(Obj(EmbeddingSource(blog, cats.value, tags.value, md)));
              && (embed(text).Err? ==> r == Failed(ErrorFor(blog, embed(text).message)))
              && (embed(text).Ok? ==>
                    var u := Update(Get(blog, "post_id"), map["content_metadata" := md, "embedding_text" := Str(text),
                                                               "embedding" := embed(text).value]);
                    && (updateError(u).Some? ==> r == Failed(ErrorFor(blog, updateError(u).value)))
                    && (updateError(u).None? ==> r == Done(u)))
  {
    var md := GenerateContentMetadata(replyFor(Get(blog, "main_content")), parse);
    var cats := MapProp(Get(blog, "categories"), "name");
    var tags := MapProp(Get(blog, "tags"), "name");
    if cats.None? || tags.None? then Failed(ErrorFor(blog, NamesTypeError))
    else
      var text := stringify(Obj(EmbeddingSource(blog, cats.value, tags.value, md)));
      match embed(text)
      case Err(m) => Failed(ErrorFor(blog, m))
      case Ok(embedding) =>
        var u := Update(Get(blog, "post_id"),
                        map["content_metadata" := md, "embedding_text" := Str(text), "embedding" := embedding]);
        if updateError(u).Some? then Failed(ErrorFor(blog, updateError(u).value)) else Done(u)
  }

  /** The body of the `try` block of `modifyEmbeddingTextHandler` for one blog:
      the stored `embedding_text` is parsed and only its `contentMetadata` is
      serialised again. */
  function KeepMetadataOnly(blog: Row, parseText: Value -> Result<Value>, stringify: Value -> string,
                            embed: string -> Result<Value>, updateError: Update -> Option<string>): (r: Step<Update, BlogError>)
    ensures r.Failed? ==> r.error.postId == Get(blog, "post_id") && r.error.title == Get(blog, "title")
    ensures parseText(Get(blog, "embedding_text")).Err? ==>
              r == Failed(ErrorFor(blog, parseText(Get(blog, "embedding_text")).message))
    ensures r.Done? ==>
              var parsed := parseText(Get(blog, "embedding_text"));
              && parsed.Ok? && Prop(parsed.value, "contentMetadata").Some?
              && var text := stringify(Prop(parsed.value, "contentMetadata").value);
                 && embed(text).Ok?
                 && r.result == Update(Get(blog, "post_id"), map["embedding_text" := Str(text), "embedding" := embed(text).value])
                 && updateError(r.result).None?
    ensures var parsed := parseText(Get(blog, "embedding_text"));
            parsed.Ok? && Prop(parsed.value, "contentMetadata").None? ==> r == Failed(ErrorFor(blog, NullMetadataTypeError))
    ensures var parsed := parseText(Get(blog, "embedding_text"));
            parsed.Ok? && Prop(parsed.value, "contentMetadata").Some? ==>
              var text := stringify(Prop(parsed.value, "contentMetadata").value);
              && (embed(text).Err? ==> r == Failed(ErrorFor(blog, embed(text).message)))
              && (embed(text).Ok? ==>
                    var u := Update(Get(blog, "post_id"), map["embedding_text" := Str(text), "embedding" := embed(text).value]);
                    && (updateError(u).Some? ==> r == Failed(ErrorFor(blog, updateError(u).value)))
                    && (updateError(u).None? ==> r == Done(u)))
  {
    match parseText(Get(blog, "embedding_text"))
    case Err(m) => Failed(ErrorFor(blog, m))
    case Ok(parsed) =>
      match Prop(parsed, "contentMetadata")
      case None => Failed(ErrorFor(blog, NullMetadataTypeError))
      case Some(md) =>
        var text := stringify(md);
        match embed(text)
        case Err(m) => Failed(ErrorFor(blog, m))
        case Ok(embedding) =>
          var u := Update(Get(blog, "post_id"), map["embedding_text" := Str(text), "embedding" := embedding]);
          if updateError(u).Some? then Failed(ErrorFor(blog, updateError(u).value)) else Done(u)
  }

  /** A text the importer stored is reduced to the serialised metadata alone,
      when parsing gives back the object that was serialised. */
  lemma KeepMetadataOfImported(blog: Row, md: Value, parseText: Value -> Result<Value>, stringify: Value -> string,
                               embed: string -> Result<Value>, updateError: Update -> Option<string>)
    requires Get(blog, "embedding_text") == Str(EmbeddingText(md, stringify))
    requires parseText(Str(EmbeddingText(md, stringify))) == Ok(Obj(map["contentMetadata" := md]))
    requires embed(stringify(md)).Ok?
    requires updateError(Update(Get(blog, "post_id"),
                                map["embedding_text" := Str(stringify(md)), "embedding" := embed(stringify(md)).value])).None?
    ensures KeepMetadataOnly(blog, parseText, stringify, embed, updateError).Done?
    ensures KeepMetadataOnly(blog, parseText, stringify, embed, updateError).result.fields["embedding_text"] == Str(stringify(md))
  {
    assert Prop(Obj(map["contentMetadata" := md]), "contentMetadata") == Some(md);
  }

  /** Runs one of the bulk jobs over the fetched blogs (`Err` when the fetch
      fails, answered with `500`); returns the response and the updates
      made, in blog order. */
  method RunOverBlogs(blogs: Result<seq<Row>>, steps: seq<Step<Update, BlogError>>)
    returns (r: Response<Report<BlogError>>, updates: seq<Update>)
    requires blogs.Ok? ==> |steps| == |blogs.value|
    requires blogs.Ok? ==> forall i :: 0 <= i < |steps| && steps[i].Failed? ==>
               steps[i].error.postId == Get(blogs.value[i], "post_id") && steps[i].error.title == Get(blogs.value[i], "title")
    ensures blogs.Err? ==> r == Failure(500, blogs.message, None) && updates == []
    ensures blogs.Ok? ==> r.Success? && r.body.total == |blogs.value| && Balanced(r.body)
    ensures blogs.Ok? ==> r.body.errors == Errors(steps) && updates == Results(steps) && r.body.processed == |updates|
    ensures blogs.Ok? ==> forall k :: 0 <= k < |r.body.errors| ==>
              exists i :: 0 <= i < |blogs.value| && r.body.errors[k].postId == Get(blogs.value[i], "post_id")
                                                 && r.body.errors[k].title == Get(blogs.value[i], "title")
  {
    if blogs.Err? {
      return Failure(500, blogs.message, None), [];
    }
    var report;
    report, updates := Run(steps);
    forall k | 0 <= k < |report.errors|
      ensures exists i :: 0 <= i < |blogs.value| && report.errors[k].postId == Get(blogs.value[i], "post_id")
                                                 && report.errors[k].title == Get(blogs.value[i], "title")
    {
      ErrorOrigin(steps, k);
    }
    r := Success(report);
  }

  /** The outcome of `updateBlogsMetadataHandler`'s loop for every blog. */
  function RefreshAll(blogs: seq<Row>, replyFor: Value -> Option<string>, parse: string -> Option<Value>,
                      stringify: Value -> string, embed: string -> Result<Value>,
                      updateError: Update -> Option<string>): (r: seq<Step<Update, BlogError>>)
    ensures |r| == |blogs|
    ensures forall i :: 0 <= i < |blogs| ==> r[i] == RefreshMetadata(blogs[i], replyFor, parse, stringify, embed, updateError)
  {
    seq(|blogs|, i requires 0 <= i < |blogs| => RefreshMetadata(blogs[i], replyFor, parse, stringify, embed, updateError))
  }

  /** `updateBlogsMetadataHandler`. */
  method UpdateBlogsMetadata(blogs: Result<seq<Row>>, replyFor: Value -> Option<string>, parse: string -> Option<Value>,
                             stringify: Value -> string, embed: string -> Result<Value>,
                             updateError: Update -> Option<string>)
    returns (r: Response<Report<BlogError>>, updates: seq<Update>)
    ensures blogs.Err? ==> r == Failure(500, blogs.message, None) && updates == []
    ensures blogs.Ok? ==> r.Success? && r.body.total == |blogs.value| && Balanced(r.body)
    ensures blogs.Ok? ==> var steps := RefreshAll(blogs.value, replyFor, parse, stringify, embed, updateError);
              r.body.errors == Errors(steps) && updates == Results(steps)
  {
    var steps := if blogs.Ok? then RefreshAll(blogs.value, replyFor, parse, stringify, embed, updateError) else [];
    r, updates := RunOverBlogs(blogs, steps);
  }

  /** The outcome of `modifyEmbeddingTextHandler`'s loop for every blog. */
  function KeepMetadataAll(blogs: seq<Row>, parseText: Value -> Result<Value>, stringify: Value -> string,
                           embed: string -> Result<Value>, updateError: Update -> Option<string>): (r: seq<Step<Update, BlogError>>)
    ensures |r| == |blogs|
    ensures forall i :: 0 <= i < |blogs| ==> r[i] == KeepMetadataOnly(blogs[i], parseText, stringify, embed, updateError)
  {
    seq(|blogs|, i requires 0 <= i < |blogs| => KeepMetadataOnly(blogs[i], parseText, stringify, embed, updateError))
  }

  /** `modifyEmbeddingTextHandler`. */
  method ModifyEmbeddingText(blogs: Result<seq<Row>>, parseText: Value -> Result<Value>, stringify: Value -> string,
                             embed: string -> Result<Value>, updateError: Update -> Option<string>)
    returns (r: Response<Report<BlogError>>, updates: seq<Update>)
    ensures blogs.Err? ==> r == Failure(500, blogs.message, None) && updates == []
    ensures blogs.Ok? ==> r.Success? && r.body.total == |blogs.value| && Balanced(r.body)
    ensures blogs.Ok? ==> var steps := KeepMetadataAll(blogs.value, parseText, stringify, embed, updateError);
              r.body.errors == Errors(steps) && updates == Results(steps)
  {
    var steps := if blogs.Ok? then KeepMetadataAll(blogs.value, parseText, stringify, embed, updateError) else [];
    r, updates := RunOverBlogs(blogs, steps);
  }

  // ------------------------------------------------- single-blog override

  /** The success body of `modifyBlogEmbeddingHandler`. */
  datatype EmbeddingModified = EmbeddingModified(message: string, blog: Row, embeddingText: string)

  /** `modifyBlogEmbeddingHandler`: `postId` is the route parameter, `fetch(id)`
      the blog with that id, `update(id, fields)` the updated blog. */
  function ModifyBlogEmbedding(postId: Option<string>, fetch: string -> Result<Row>, embed: string -> Result<Value>,
                               update: (string, Row) -> Result<Row>): (r: Response<EmbeddingModified>)
    ensures postId.None? || postId.value == "" ==> r == Failure(400, PostIdRequiredMessage, None)
    ensures postId.Some? && postId.value != "" && fetch(postId.value).Err? ==>
              r == Failure(404, BlogNotFoundMessage, Some(fetch(postId.value).message))
    ensures r.Success? <==> postId.Some? && postId.value != "" && fetch(postId.value).Ok?
                            && embed(TestEmbeddingText).Ok?
                            && update(postId.value, map["embedding_text" := Str(TestEmbeddingText),
                                                        "embedding" := embed(TestEmbeddingText).value]).Ok?
    ensures postId.Some? && postId.value != "" && fetch(postId.value).Ok? && embed(TestEmbeddingText).Err? ==>
              r == Failure(500, embed(TestEmbeddingText).message, None)
    ensures postId.Some? && postId.value != "" && fetch(postId.value).Ok? && embed(TestEmbeddingText).Ok? ==>
              var updated := update(postId.value, map["embedding_text" := Str(TestEmbeddingText),
                                                      "embedding" := embed(TestEmbeddingText).value]);
              (updated.Err? ==> r == Failure(500, updated.message, None))
              && (updated.Ok? ==> r.Success? && r.body.blog == updated.value)
    ensures r.Success? ==> (r.body.embeddingText == TestEmbeddingText
                            && r.body.message == "Successfully modified embedding for blog " + postId.value)
  {
    if postId.None? || postId.value == "" then Failure(400, PostIdRequiredMessage, None)
    else
      var id := postId.value;
      match fetch(id)
      case Err(m) => Failure(404, BlogNotFoundMessage, Some(m))
      case Ok(_) =>
        match embed(TestEmbeddingText)
        case Err(m) => Failure(500, m, None)
        case Ok(embedding) =>
          match update(id, map["embedding_text" := Str(TestEmbeddingText), "embedding" := embedding])
          case Err(m) => Failure(500, m, None)
          case Ok(updated) =>
            Success(EmbeddingModified("Successfully modified embedding for blog " + id, updated, TestEmbeddingText))
  }

  /** The handler asks the store to change `embedding_text`, set to the test
      text, and `embedding`, and no other column: two stores that answer
      every such request alike give the same response. */
  lemma ModifyBlogEmbeddingTouchesOnlyEmbedding(postId: Option<string>, fetch: string -> Result<Row>,
                                                embed: string -> Result<Value>,
                                                update1: (string, Row) -> Result<Row>,
                                                update2: (string, Row) -> Result<Row>)
    requires forall id: string, fields: Row ::
               fields.Keys == {"embedding_text", "embedding"} && fields["embedding_text"] == Str(TestEmbeddingText) ==>
                 update1(id, fields) == update2(id, fields)
    ensures ModifyBlogEmbedding(postId, fetch, embed, update1) == ModifyBlogEmbedding(postId, fetch, embed, update2)
  {
  }

  /** The fetched blog only shows that the post exists: stores that agree on
      which ids exist, and on the error for the others, give the same
      response. */
  lemma ModifyBlogEmbeddingFetchOnlyChecks(postId: Option<string>, fetch1: string -> Result<Row>,
                                           fetch2: string -> Result<Row>, embed: string -> Result<Value>,
                                           update: (string, Row) -> Result<Row>)
    requires forall id :: fetch1(id).Ok? <==> fetch2(id).Ok?
    requires forall id :: fetch1(id).Err? ==> fetch2(id) == fetch1(id)
    ensures ModifyBlogEmbedding(postId, fetch1, embed, update) == ModifyBlogEmbedding(postId, fetch2, embed, update)
  {
  }
}

=== FILE: crawler.dfy ===
/** The link handling that the scraper service and the article controller
    share: category links from the blog's navigation bar, post links from each
    category page, the URL of the n-th category page, and the crawl over
    category pages with its optional limit. The HTTP fetches are replaced by
    the pages they return. */
module Crawler {
  import opened Wrappers
  import opened Strings
  import opened OrderedSet

  const BaseUrl := "https://www.slocal.com"
  const MainPageUrl := "https://www.slocal.com/blog/"
  const PostMarker := "/blog/post/"
  const CategoryMarker := "/blog/all-posts/category/"

  // ---------------------------------------------------------------- links

  /** `href.startsWith("http") ? href : baseUrl + href`. */
  function NormalizeHref(href: string): (r: string)
    ensures StartsWith(r, "http")
    ensures StartsWith(href, "http") ==> r == href
    ensures !StartsWith(href, "http") ==> StartsWith(r, BaseUrl) && r[|BaseUrl|..] == href
  {
    if StartsWith(href, "http") then href
    else
      assert (BaseUrl + href)[..4] == "http";
      assert (BaseUrl + href)[..|BaseUrl|] == BaseUrl;
      BaseUrl + href
  }

  /** A truthy `href` attribute: present and not empty. */
  predicate Truthy(href: Option<string>)
  {
    href.Some? && href.value != ""
  }

  /** The normalised post links of one category page, in document order,
      before duplicates are dropped. */
  function PostLinks(hrefs: seq<Option<string>>): (r: seq<string>)
    ensures forall x :: x in r <==> exists i :: 0 <= i < |hrefs| && Truthy(hrefs[i])
                                              && x == NormalizeHref(hrefs[i].value) && Contains(x, PostMarker)
  {
    if hrefs == [] then []
    else
      var rest := PostLinks(hrefs[1..]);
      assert forall i :: 0 < i < |hrefs| ==> hrefs[1..][i - 1] == hrefs[i];
      if Truthy(hrefs[0]) && Contains(NormalizeHref(hrefs[0].value), PostMarker)
      then [NormalizeHref(hrefs[0].value)] + rest
      else rest
  }

  /** `scrapeCategoryPage`'s `blogUrls`: the post links of the page as a set,
      in first-seen order. */
  function PageBlogUrls(hrefs: seq<Option<string>>): (r: seq<string>)
    ensures Distinct(r)
    ensures forall x :: x in r <==> x in PostLinks(hrefs)
    ensures forall k :: 0 <= k < |r| ==> Contains(r[k], PostMarker) && StartsWith(r[k], "http")
    ensures FirstSeenOrder(r, PostLinks(hrefs))
  {
    var r := InsertAll([], PostLinks(hrefs));
    InsertAllOrder([], PostLinks(hrefs));
    assert r[0..] == r;
    r
  }

  /** The links of a document are those of its first part followed by those
      of the rest. */
  lemma {:induction false} PostLinksAppend(a: seq<Option<string>>, b: seq<Option<string>>)
    ensures PostLinks(a + b) == PostLinks(a) + PostLinks(b)
    decreases |a|
  {
    if a == [] {
      assert a + b == b;
    } else {
      assert (a + b)[1..] == a[1..] + b;
      PostLinksAppend(a[1..], b);
    }
  }

  /** One href contributes its normalised form exactly when it is a post
      link. */
  lemma PostLinksOne(href: Option<string>)
    ensures PostLinks([href]) == if Truthy(href) && Contains(NormalizeHref(href.value), PostMarker)
                                 then [NormalizeHref(href.value)] else []
  {
    assert [href][1..] == [];
  }

  /** The navigation links that point at a category listing, before
      duplicates are dropped. */
  function CategoryLinks(hrefs: seq<Option<string>>): (r: seq<string>)
    ensures forall x :: x in r <==> exists i :: 0 <= i < |hrefs| && Truthy(hrefs[i])
                                              && x == hrefs[i].value && Contains(x, CategoryMarker)
  {
    if hrefs == [] then []
    else
      var rest := CategoryLinks(hrefs[1..]);
      assert forall i :: 0 < i < |hrefs| ==> hrefs[1..][i - 1] == hrefs[i];
      if Truthy(hrefs[0]) && Contains(hrefs[0].value, CategoryMarker)
      then [hrefs[0].value] + rest
      else rest
  }

  /** The `categoryUrls` set built from the navigation bar's hrefs. */
  function CategoryUrls(hrefs: seq<Option<string>>): (r: seq<string>)
    ensures Distinct(r)
    ensures forall x :: x in r <==> x in CategoryLinks(hrefs)
    ensures FirstSeenOrder(r, CategoryLinks(hrefs))
  {
    var r := InsertAll([], CategoryLinks(hrefs));
    InsertAllOrder([], CategoryLinks(hrefs));
    assert r[0..] == r;
    r
  }

  /** The category links of a navigation bar are those of its first part
      followed by those of the rest. */
  lemma {:induction false} CategoryLinksAppend(a: seq<Option<string>>, b: seq<Option<string>>)
    ensures CategoryLinks(a + b) == CategoryLinks(a) + CategoryLinks(b)
    decreases |a|
  {
    if a == [] {
      assert a + b == b;
    } else {
      assert (a + b)[1..] == a[1..] + b;
      CategoryLinksAppend(a[1..], b);
    }
  }

  /** One href contributes itself exactly when it is a category link. */
  lemma CategoryLinksOne(href: Option<string>)
    ensures CategoryLinks([href]) == if Truthy(href) && Contains(href.value, CategoryMarker)
                                     then [href.value] else []
  {
    assert [href][1..] == [];
  }

  /** The URL of page `page` of a category listing. */
  function CategoryPageUrl(url: string, page: nat): (r: string)
    requires page >= 1
    ensures page == 1 <==> r == url
    ensures page > 1 ==> StartsWith(r, url + "?&page=")
  {
    if page == 1 then url
    else
      var r := url + "?&page=" + NatToString(page);
      assert r[..|url + "?&page="|] == url + "?&page=";
      r
  }

  /** Different pages of one category are fetched at different URLs. */
  lemma CategoryPageUrlInjective(url: string, p: nat, q: nat)
    requires p >= 1 && q >= 1 && CategoryPageUrl(url, p) == CategoryPageUrl(url, q)
    ensures p == q
  {
    if p > 1 && q > 1 {
      var pre := url + "?&page=";
      assert CategoryPageUrl(url, p)[|pre|..] == NatToString(p);
      assert CategoryPageUrl(url, q)[|pre|..] == NatToString(q);
      NatToStringInjective(p, q);
    }
  }

  // ---------------------------------------------------------------- crawl

  /** What one category page yields: the hrefs of its `.blog-post a` links and
      whether it shows a next-page link. */
  datatype CategoryPage = CategoryPage(hrefs: seq<Option<string>>, hasNextPage: bool)

  /** `limit && size >= limit` for a limit that parsed to an integer (`None`
      for an absent limit). */
  predicate Reached(limit: Option<int>, size: nat)
  {
    limit.Some? && limit.value != 0 && size >= limit.value
  }

  /** The `while (hasNextPage)` loop over one category: `pages[i]` is what
      page `i + 1` returns. Each page's links are added to `acc`; the loop
      ends after a page without a next link, or as soon as the limit is
      reached. */
  function CrawlCategory(acc: seq<string>, pages: seq<CategoryPage>, limit: Option<int>): (r: seq<string>)
    requires Distinct(acc)
    ensures Distinct(r) && |acc| <= |r| && r[..|acc|] == acc
    decreases |pages|
  {
    if pages == [] then acc
    else
      var a := InsertAll(acc, PageBlogUrls(pages[0].hrefs));
      if Reached(limit, |a|) || !pages[0].hasNextPage then a
      else
        var r := CrawlCategory(a, pages[1..], limit);
        assert r[..|acc|] == r[..|a|][..|acc|];
        r
  }

  /** The outer `for` loop over the category URLs, with the same limit check
      after each category. */
  function CrawlAll(acc: seq<string>, categories: seq<seq<CategoryPage>>, limit: Option<int>): (r: seq<string>)
    requires Distinct(acc)
    ensures Distinct(r) && |acc| <= |r| && r[..|acc|] == acc
    decreases |categories|
  {
    if categories == [] then acc
    else
      var a := CrawlCategory(acc, categories[0], limit);
      if Reached(limit, |a|) then a
      else
        var r := CrawlAll(a, categories[1..], limit);
        assert r[..|acc|] == r[..|a|][..|acc|];
        r
  }

  // ---------------------------------------------------------------- reference

  /** The pages the loop visits without a limit: up to and including the first
      page that has no next link. */
  function VisitedPages(pages: seq<CategoryPage>): (r: seq<CategoryPage>)
    ensures |r| <= |pages| && r == pages[..|r|]
    ensures |pages| > 0 ==> |r| > 0 && (r[|r| - 1].hasNextPage ==> r == pages)
    ensures forall i :: 0 <= i < |r| - 1 ==> r[i].hasNextPage
  {
    if pages == [] then []
    else if !pages[0].hasNextPage then [pages[0]]
    else [pages[0]] + VisitedPages(pages[1..])
  }

  /** Every post link of the given pages, in visiting order. */
  function LinksOf(pages: seq<CategoryPage>): seq<string>
  {
    if pages == [] then [] else PageBlogUrls(pages[0].hrefs) + LinksOf(pages[1..])
  }

  /** Every post link the unlimited crawl sees, category after category. */
  function AllLinks(categories: seq<seq<CategoryPage>>): seq<string>
  {
    if categories == [] then [] else LinksOf(VisitedPages(categories[0])) + AllLinks(categories[1..])
  }

  /** Without a limit, one category's loop adds the links of exactly the
      pages up to the last one. */
  lemma {:induction false} CrawlCategoryUnlimited(acc: seq<string>, pages: seq<CategoryPage>)
    requires Distinct(acc)
    ensures CrawlCategory(acc, pages, None) == InsertAll(acc, LinksOf(VisitedPages(pages)))
    decreases |pages|
  {
    if pages != [] {
      var first := PageBlogUrls(pages[0].hrefs);
      var a := InsertAll(acc, first);
      if pages[0].hasNextPage {
        CrawlCategoryUnlimited(a, pages[1..]);
        InsertAllAppend(acc, first, LinksOf(VisitedPages(pages[1..])));
      } else {
        assert LinksOf([pages[0]]) == first + [];
        assert first + [] == first;
      }
    }
  }

  /** Without a limit, the crawl collects every link it sees, each once, in
      first-seen order. */
  lemma {:induction false} CrawlAllUnlimited(acc: seq<string>, categories: seq<seq<CategoryPage>>)
    requires Distinct(acc)
    ensures CrawlAll(acc, categories, None) == InsertAll(acc, AllLinks(categories))
    decreases |categories|
  {
    if categories != [] {
      var first := LinksOf(VisitedPages(categories[0]));
      CrawlCategoryUnlimited(acc, categories[0]);
      CrawlAllUnlimited(InsertAll(acc, first), categories[1..]);
      InsertAllAppend(acc, first, AllLinks(categories[1..]));
    }
  }

  /** A limit only cuts one category's loop short, and only once reached. */
  lemma {:induction false} CrawlCategoryLimited(acc: seq<string>, pages: seq<CategoryPage>, limit: Option<int>)
    requires Distinct(acc)
    ensures var r, full := CrawlCategory(acc, pages, limit), CrawlCategory(acc, pages, None);
            |r| <= |full| && full[..|r|] == r && (r == full || Reached(limit, |r|))
    decreases |pages|
  {
    if pages != [] {
      var a := InsertAll(acc, PageBlogUrls(pages[0].hrefs));
      if !Reached(limit, |a|) && pages[0].hasNextPage {
        CrawlCategoryLimited(a, pages[1..], limit);
      }
    }
  }

  /** With a limit, the crawl's links are a prefix of the unlimited crawl's,
      and they are all of them unless the limit was reached. */
  lemma {:induction false} CrawlAllLimited(acc: seq<string>, categories: seq<seq<CategoryPage>>, limit: Option<int>)
    requires Distinct(acc)
    ensures var r, full := CrawlAll(acc, categories, limit), CrawlAll(acc, categories, None);
            |r| <= |full| && full[..|r|] == r && (r == full || Reached(limit, |r|))
    decreases |categories|
  {
    if categories != [] {
      var a := CrawlCategory(acc, categories[0], limit);
      var b := CrawlCategory(acc, categories[0], None);
      CrawlCategoryLimited(acc, categories[0], limit);
      var full := CrawlAll(acc, categories, None);
      assert full == CrawlAll(b, categories[1..], None);
      if Reached(limit, |a|) {
        assert full[..|a|] == full[..|b|][..|a|];
      } else {
        CrawlAllLimited(a, categories[1..], limit);
      }
    }
  }

  /** `urls` is what a crawl from an empty set may end with: the first links of
      the unlimited crawl, all of them unless the limit was reached. */
  predicate LimitedCrawlOf(urls: seq<string>, categories: seq<seq<CategoryPage>>, limit: Option<int>)
  {
    var all := InsertAll([], AllLinks(categories));
    |urls| <= |all| && urls == all[..|urls|] && (urls == all || Reached(limit, |urls|))
  }

  /** The crawl `scrapeAllContent` runs, from an empty set of URLs. */
  lemma CrawlFromScratch(categories: seq<seq<CategoryPage>>, limit: Option<int>)
    ensures Distinct(CrawlAll([], categories, limit))
    ensures LimitedCrawlOf(CrawlAll([], categories, limit), categories, limit)
  {
    CrawlAllLimited([], categories, limit);
    CrawlAllUnlimited([], categories);
  }

  // ---------------------------------------------------------------- page by page

  /** The pages the crawl may visit, category after category: each category's
      pages up to its last one. */
  function VisitedAll(categories: seq<seq<CategoryPage>>): seq<CategoryPage>
  {
    if categories == [] then [] else VisitedPages(categories[0]) + VisitedAll(categories[1..])
  }

  /** The set after the links of the first `k` of `pages` are added to `acc`. */
  function Seen(acc: seq<string>, pages: seq<CategoryPage>, k: nat): (r: seq<string>)
    requires Distinct(acc) && k <= |pages|
    ensures Distinct(r)
  {
    InsertAll(acc, LinksOf(pages[..k]))
  }

  /** The two nested loops read as one loop over pages: add a page's links,
      stop once the limit is reached, otherwise go on to the next page. */
  function PageLoop(acc: seq<string>, pages: seq<CategoryPage>, limit: Option<int>): (r: seq<string>)
    requires Distinct(acc)
    ensures Distinct(r)
    decreases |pages|
  {
    if pages == [] then acc
    else
      var a := InsertAll(acc, PageBlogUrls(pages[0].hrefs));
      if Reached(limit, |a|) then a else PageLoop(a, pages[1..], limit)
  }

  /** How many pages that loop reads. */
  function PagesRead(acc: seq<string>, pages: seq<CategoryPage>, limit: Option<int>): (k: nat)
    requires Distinct(acc)
    ensures k <= |pages| && (pages != [] ==> 1 <= k)
    decreases |pages|
  {
    if pages == [] then 0
    else
      var a := InsertAll(acc, PageBlogUrls(pages[0].hrefs));
      if Reached(limit, |a|) then 1 else 1 + PagesRead(a, pages[1..], limit)
  }

  /** Reading `j` pages is reading the first one, then `j - 1` of the rest. */
  lemma SeenStep(acc: seq<string>, pages: seq<CategoryPage>, j: nat)
    requires Distinct(acc) && 0 < j <= |pages|
    ensures Seen(acc, pages, j) == Seen(InsertAll(acc, PageBlogUrls(pages[0].hrefs)), pages[1..], j - 1)
  {
    LinksOfPrefix(pages, j);
    InsertAllAppend(acc, PageBlogUrls(pages[0].hrefs), LinksOf(pages[1..][..j - 1]));
  }

  lemma LinksOfPrefix(pages: seq<CategoryPage>, j: nat)
    requires 0 < j <= |pages|
    ensures LinksOf(pages[..j]) == PageBlogUrls(pages[0].hrefs) + LinksOf(pages[1..][..j - 1])
  {
    assert pages[..j][0] == pages[0];
    assert pages[..j][1..] == pages[1..][..j - 1];
  }

  /** Reading no page leaves the set as it is. */
  lemma SeenNone(acc: seq<string>, pages: seq<CategoryPage>)
    requires Distinct(acc)
    ensures Seen(acc, pages, 0) == acc
  {
    assert pages[..0] == [];
  }

  /** Reading `k` pages ends the loop: they are all the pages, or the limit
      is reached after the k-th. */
  predicate StopsAfter(acc: seq<string>, pages: seq<CategoryPage>, limit: Option<int>, k: nat)
    requires Distinct(acc) && k <= |pages|
  {
    k == |pages| || Reached(limit, |Seen(acc, pages, k)|)
  }

  /** The limit is not reached after any of the first `k - 1` pages. */
  predicate GoesOnBefore(acc: seq<string>, pages: seq<CategoryPage>, limit: Option<int>, k: nat)
    requires Distinct(acc) && k <= |pages|
  {
    forall j :: 0 < j < k ==> !Reached(limit, |Seen(acc, pages, j)|)
  }

  lemma StopsAfterStep(acc: seq<string>, pages: seq<CategoryPage>, limit: Option<int>, k: nat)
    requires Distinct(acc) && 0 < |pages| && k < |pages|
    requires StopsAfter(InsertAll(acc, PageBlogUrls(pages[0].hrefs)), pages[1..], limit, k)
    ensures StopsAfter(acc, pages, limit, k + 1)
  {
    SeenStep(acc, pages, k + 1);
  }

  lemma GoesOnBeforeStep(acc: seq<string>, pages: seq<CategoryPage>, limit: Option<int>, k: nat)
    requires Distinct(acc) && 0 < |pages| && k < |pages|
    requires !Reached(limit, |InsertAll(acc, PageBlogUrls(pages[0].hrefs))|)
    requires GoesOnBefore(InsertAll(acc, PageBlogUrls(pages[0].hrefs)), pages[1..], limit, k)
    ensures GoesOnBefore(acc, pages, limit, k + 1)
  {
    var a := InsertAll(acc, PageBlogUrls(pages[0].hrefs));
    forall j | 0 < j < k + 1
      ensures !Reached(limit, |Seen(acc, pages, j)|)
    {
      SeenStep(acc, pages, j);
      SeenNone(a, pages[1..]);
    }
  }

  /** The loop reads pages up to and including the first one after which the
      limit is reached, or all of them: never a page past that one. */
  lemma {:induction false} PagesReadStops(acc: seq<string>, pages: seq<CategoryPage>, limit: Option<int>)
    requires Distinct(acc)
    ensures StopsAfter(acc, pages, limit, PagesRead(acc, pages, limit))
    ensures GoesOnBefore(acc, pages, limit, PagesRead(acc, pages, limit))
    decreases |pages|
  {
    if pages != [] {
      var a := InsertAll(acc, PageBlogUrls(pages[0].hrefs));
      if Reached(limit, |a|) {
        PagesReadStopsFirst(acc, pages, limit);
      } else {
        PagesReadStops(a, pages[1..], limit);
        PagesReadStopsLater(acc, pages, limit);
      }
    }
  }

  lemma PagesReadStopsFirst(acc: seq<string>, pages: seq<CategoryPage>, limit: Option<int>)
    requires Distinct(acc) && pages != []
    requires Reached(limit, |InsertAll(acc, PageBlogUrls(pages[0].hrefs))|)
    ensures StopsAfter(acc, pages, limit, PagesRead(acc, pages, limit))
    ensures GoesOnBefore(acc, pages, limit, PagesRead(acc, pages, limit))
  {
    SeenStep(acc, pages, 1);
    SeenNone(InsertAll(acc, PageBlogUrls(pages[0].hrefs)), pages[1..]);
  }

  lemma PagesReadStopsLater(acc: seq<string>, pages: seq<CategoryPage>, limit: Option<int>)
    requires Distinct(acc) && pages != []
    requires var a := InsertAll(acc, PageBlogUrls(pages[0].hrefs));
             && !Reached(limit, |a|)
             && StopsAfter(a, pages[1..], limit, PagesRead(a, pages[1..], limit))
             && GoesOnBefore(a, pages[1..], limit, PagesRead(a, pages[1..], limit))
    ensures StopsAfter(acc, pages, limit, PagesRead(acc, pages, limit))
    ensures GoesOnBefore(acc, pages, limit, PagesRead(acc, pages, limit))
  {
    var a := InsertAll(acc, PageBlogUrls(pages[0].hrefs));
    var k := PagesRead(a, pages[1..], limit);
    assert PagesRead(acc, pages, limit) == k + 1;
    StopsAfterStep(acc, pages, limit, k);
    GoesOnBeforeStep(acc, pages, limit, k);
  }

  /** The loop's set is that of the pages it reads. */
  lemma {:induction false} PageLoopSeen(acc: seq<string>, pages: seq<CategoryPage>, limit: Option<int>)
    requires Distinct(acc)
    ensures PageLoop(acc, pages, limit) == Seen(acc, pages, PagesRead(acc, pages, limit))
    decreases |pages|
  {
    if pages == [] {
      SeenNone(acc, pages);
    } else if Reached(limit, |InsertAll(acc, PageBlogUrls(pages[0].hrefs))|) {
      SeenStep(acc, pages, 1);
      SeenNone(InsertAll(acc, PageBlogUrls(pages[0].hrefs)), pages[1..]);
    } else {
      PageLoopSeen(InsertAll(acc, PageBlogUrls(pages[0].hrefs)), pages[1..], limit);
      PageLoopSeenLater(acc, pages, limit);
    }
  }

  lemma PageLoopSeenLater(acc: seq<string>, pages: seq<CategoryPage>, limit: Option<int>)
    requires Distinct(acc) && pages != []
    requires var a := InsertAll(acc, PageBlogUrls(pages[0].hrefs));
             && !Reached(limit, |a|)
             && PageLoop(a, pages[1..], limit) == Seen(a, pages[1..], PagesRead(a, pages[1..], limit))
    ensures PageLoop(acc, pages, limit) == Seen(acc, pages, PagesRead(acc, pages, limit))
  {
    var k := PagesRead(InsertAll(acc, PageBlogUrls(pages[0].hrefs)), pages[1..], limit);
    GoesOnNext(acc, pages, limit);
    SeenStep(acc, pages, k + 1);
  }

  /** Past a page that does not reach the limit, the loop and its page count
      carry on with the rest. */
  lemma GoesOnNext(acc: seq<string>, pages: seq<CategoryPage>, limit: Option<int>)
    requires Distinct(acc) && pages != []
    requires !Reached(limit, |InsertAll(acc, PageBlogUrls(pages[0].hrefs))|)
    ensures var a := InsertAll(acc, PageBlogUrls(pages[0].hrefs));
            && PageLoop(acc, pages, limit) == PageLoop(a, pages[1..], limit)
            && PagesRead(acc, pages, limit) == PagesRead(a, pages[1..], limit) + 1
  {
  }

  /** Looping over `w + rest` is looping over `w`, then over `rest` unless the
      limit was reached in `w`. */
  lemma {:induction false} PageLoopAppend(acc: seq<string>, w: seq<CategoryPage>, rest: seq<CategoryPage>, limit: Option<int>)
    requires Distinct(acc) && w != []
    ensures PageLoop(acc, w + rest, limit)
            == var c := PageLoop(acc, w, limit); if Reached(limit, |c|) then c else PageLoop(c, rest, limit)
    decreases |w|
  {
    var a := InsertAll(acc, PageBlogUrls(w[0].hrefs));
    assert (w + rest)[0] == w[0];
    assert (w + rest)[1..] == w[1..] + rest;
    if !Reached(limit, |a|) {
      if w[1..] == [] {
        assert w[1..] + rest == rest;
      } else {
        PageLoopAppend(a, w[1..], rest, limit);
      }
    }
  }

  /** One category's loop is the page loop over the pages it visits. */
  lemma {:induction false} CrawlCategoryPageLoop(acc: seq<string>, pages: seq<CategoryPage>, limit: Option<int>)
    requires Distinct(acc)
    ensures CrawlCategory(acc, pages, limit) == PageLoop(acc, VisitedPages(pages), limit)
    decreases |pages|
  {
    if pages != [] {
      var a := InsertAll(acc, PageBlogUrls(pages[0].hrefs));
      if !pages[0].hasNextPage {
        assert VisitedPages(pages)[1..] == [];
      } else if !Reached(limit, |a|) {
        assert VisitedPages(pages)[1..] == VisitedPages(pages[1..]);
        CrawlCategoryPageLoop(a, pages[1..], limit);
      }
    }
  }

  /** The crawl over categories is the page loop over every page visited,
      when each category yields at least its first page. */
  lemma {:induction false} CrawlAllPageLoop(acc: seq<string>, categories: seq<seq<CategoryPage>>, limit: Option<int>)
    requires Distinct(acc)
    requires forall i :: 0 <= i < |categories| ==> categories[i] != []
    ensures CrawlAll(acc, categories, limit) == PageLoop(acc, VisitedAll(categories), limit)
    decreases |categories|
  {
    if categories != [] {
      var w := VisitedPages(categories[0]);
      CrawlCategoryPageLoop(acc, categories[0], limit);
      PageLoopAppend(acc, w, VisitedAll(categories[1..]), limit);
      var c := PageLoop(acc, w, limit);
      if !Reached(limit, |c|) {
        CrawlAllPageLoop(c, categories[1..], limit);
      }
    }
  }

  /** The limited crawl holds the links of the pages up to and including the
      first one after which the limit is reached (or of all visited pages),
      and of no page after it. */
  lemma CrawlAllReadsPages(acc: seq<string>, categories: seq<seq<CategoryPage>>, limit: Option<int>)
    requires Distinct(acc)
    requires forall i :: 0 <= i < |categories| ==> categories[i] != []
    ensures var pages := VisitedAll(categories);
            var k := PagesRead(acc, pages, limit);
            && CrawlAll(acc, categories, limit) == Seen(acc, pages, k)
            && (k == |pages| || Reached(limit, |Seen(acc, pages, k)|))
            && forall j :: 0 < j < k ==> !Reached(limit, |Seen(acc, pages, j)|)
  {
    CrawlAllPageLoop(acc, categories, limit);
    PageLoopSeen(acc, VisitedAll(categories), limit);
    PagesReadStops(acc, VisitedAll(categories), limit);
  }

  // ---------------------------------------------------------------- posts

  /** The number of posts the scraping loop keeps when `n` scrapes succeed:
      every one without a limit; otherwise the loop stops right after the
      push that makes the count reach the limit, so a negative limit keeps
      just one. */
  function Cap(limit: Option<int>, n: nat): nat
  {
    if limit.None? || limit.value == 0 then n
    else if limit.value > 0 then (if limit.value < n then limit.value else n)
    else (if n < 1 then n else 1)
  }

  /** The `for (const blogUrl of allBlogUrls)` loop: `outcomes[i]` is what
      `scrapeBlogPost` returned for the i-th URL (`None` for `null`). */
  method ScrapePosts<P>(outcomes: seq<Option<P>>, limit: Option<int>) returns (posts: seq<P>)
    ensures |posts| <= |Somes(outcomes)| && posts == Somes(outcomes)[..|posts|]
    ensures posts == Somes(outcomes) || Reached(limit, |posts|)
    ensures forall j :: 0 < j < |posts| ==> !Reached(limit, j)
    ensures |posts| == Cap(limit, |Somes(outcomes)|)
  {
    posts := [];
    var i := 0;
    while i < |outcomes|
      invariant 0 <= i <= |outcomes|
      invariant posts == Somes(outcomes[..i])
      invariant forall j :: 0 < j <= |posts| ==> !Reached(limit, j)
    {
      SomesAppend(outcomes[..i], [outcomes[i]]);
      assert outcomes[..i + 1] == outcomes[..i] + [outcomes[i]];
      if outcomes[i].Some? {
        posts := posts + [outcomes[i].value];
        if Reached(limit, |posts|) {
          assert |posts| > 1 ==> !Reached(limit, |posts| - 1);
          SomesAppend(outcomes[..i + 1], outcomes[i + 1..]);
          assert outcomes == outcomes[..i + 1] + outcomes[i + 1..];
          return;
        }
      }
      i := i + 1;
    }
    assert outcomes[..i] == outcomes;
    assert |posts| > 0 ==> !Reached(limit, 1) && !Reached(limit, |posts|);
  }

  // ---------------------------------------------------------------- output files

  /** The file that receives every scraped post at once. */
  const AllPostsFile := "all-posts.json"

  /** The files a scrape writes, in order: one per post, named by its slug,
      then the file holding them all. */
  function WrittenFiles(slugs: seq<string>): (r: seq<string>)
    ensures |r| == |slugs| + 1 && r[|slugs|] == AllPostsFile
    ensures forall i :: 0 <= i < |slugs| ==> r[i] == slugs[i] + ".json"
  {
    seq(|slugs|, i requires 0 <= i < |slugs| => slugs[i] + ".json") + [AllPostsFile]
  }

  /** The error writing the files throws, if any: that of the first file whose
      write fails. */
  function WriteFailure(files: seq<string>, writeError: string -> Option<string>): (r: Option<string>)
    ensures r.None? <==> forall k :: 0 <= k < |files| ==> writeError(files[k]).None?
    ensures forall k :: 0 <= k < |files| && writeError(files[k]).Some?
                        && (forall j :: 0 <= j < k ==> writeError(files[j]).None?) ==>
              r == writeError(files[k])
  {
    var errs := MapSeq(writeError, files);
    FirstSome(errs)
  }
}

=== FILE: duplicator.dfy ===
/** The duplicator (`duplicateBlogs`, `deleteDuplicateBlogs`): padding the
    `blogs` table to 2500 rows with flagged copies inserted 100 at a time, and
    removing every flagged row again. The table is the sequence of its rows;
    each store call's failure is an input (`Some(message)` for the error it
    reports), and template-literal conversion of a title is the parameter
    `str`. */
module Duplicator {
  import opened Wrappers
  import opened Json
  import opened Strings

  const TargetTotal: nat := 2500
  const BatchSize: nat := 100
  const DuplicatePrefix := "[DUPLICATE] "
  const AlreadyFullMessage := "Already have 2500 or more blogs. No duplication needed."
  const NoDuplicatesMessage := "No duplicate blogs found to delete"
  /** What reading `title` of `undefined` throws. */
  const UndefinedTitleMessage := "Cannot read properties of undefined (reading 'title')"

  // ------------------------------------------------------------ duplicates

  /** Whether a row carries the duplicate flag (`is_duplicate = true`). */
  predicate IsDuplicate(row: Row)
  {
    Get(row, "is_duplicate") == Bool(true)
  }

  /** The copy of one source row: no `id`, the flag set, the title marked,
      every other field as in the source. */
  function DuplicateOf(source: Row, str: Value -> string): (r: Row)
    ensures r.Keys == (source.Keys - {"id"}) + {"is_duplicate", "title"}
    ensures "id" !in r && IsDuplicate(r)
    ensures r["title"] == Str(DuplicatePrefix + str(Get(source, "title")))
    ensures forall k :: k in source && k !in {"id", "is_duplicate", "title"} ==> r[k] == source[k]
  {
    (source - {"id"})["is_duplicate" := Bool(true)]["title" := Str(DuplicatePrefix + str(Get(source, "title")))]
  }

  /** The `needed` copies the loop creates, cycling through the table. */
  function Duplicates(table: seq<Row>, needed: nat, str: Value -> string): (r: seq<Row>)
    requires |table| > 0
    ensures |r| == needed
    ensures forall k :: 0 <= k < needed ==> r[k] == DuplicateOf(table[k % |table|], str)
  {
    seq(needed, k requires 0 <= k < needed => DuplicateOf(table[k % |table|], str))
  }

  // --------------------------------------------------------------- batches

  /** The items of a list of batches, in order. */
  function Flatten<T>(bs: seq<seq<T>>): seq<T>
  {
    if bs == [] then [] else bs[0] + Flatten(bs[1..])
  }

  /** Splitting into consecutive batches of `BatchSize`, the last one holding
      the rest. */
  function Batches<T>(xs: seq<T>): seq<seq<T>>
    decreases |xs|
  {
    if xs == [] then []
    else if |xs| <= BatchSize then [xs]
    else [xs[..BatchSize]] + Batches(xs[BatchSize..])
  }

  /** Whether every batch is non-empty and full except possibly the last. */
  predicate WellBatched<T>(bs: seq<seq<T>>)
  {
    forall i :: 0 <= i < |bs| ==> 0 < |bs[i]| <= BatchSize && (i < |bs| - 1 ==> |bs[i]| == BatchSize)
  }

  lemma {:induction false} FlattenAppend<T>(a: seq<seq<T>>, b: seq<seq<T>>)
    ensures Flatten(a + b) == Flatten(a) + Flatten(b)
    decreases |a|
  {
    if a == [] {
      assert a + b == b;
    } else {
      assert (a + b)[1..] == a[1..] + b;
      FlattenAppend(a[1..], b);
    }
  }

  /** Batching loses nothing and reorders nothing. */
  lemma {:induction false} FlattenBatches<T>(xs: seq<T>)
    ensures Flatten(Batches(xs)) == xs
    decreases |xs|
  {
    if xs != [] && |xs| > BatchSize {
      FlattenBatches(xs[BatchSize..]);
      assert ([xs[..BatchSize]] + Batches(xs[BatchSize..]))[1..] == Batches(xs[BatchSize..]);
      assert xs[..BatchSize] + xs[BatchSize..] == xs;
    } else if xs != [] {
      assert [xs][1..] == [];
      assert xs + [] == xs;
    }
  }

  /** Every batch is non-empty and at most `BatchSize` long, and all but the
      last are exactly `BatchSize` long. */
  lemma {:induction false} BatchesWellBatched<T>(xs: seq<T>)
    ensures WellBatched(Batches(xs))
    ensures |Batches(xs)| == 0 <==> xs == []
    decreases |xs|
  {
    if |xs| > BatchSize {
      var rest := Batches(xs[BatchSize..]);
      BatchesWellBatched(xs[BatchSize..]);
      var bs := [xs[..BatchSize]] + rest;
      assert forall i :: 0 < i < |bs| ==> bs[i] == rest[i - 1];
    }
  }

  /** A prefix whose length is a multiple of `BatchSize` is batched on its
      own. */
  lemma {:induction false} BatchesAppend<T>(a: seq<T>, b: seq<T>)
    requires |a| % BatchSize == 0
    ensures Batches(a + b) == Batches(a) + Batches(b)
    decreases |a|
  {
    if a == [] {
      assert a + b == b;
    } else if b == [] {
      assert a + b == a;
      assert Batches(a) + [] == Batches(a);
    } else {
      var head, rest := a[..BatchSize], a[BatchSize..];
      assert (a + b)[..BatchSize] == head;
      assert (a + b)[BatchSize..] == rest + b;
      assert Batches(a + b) == [head] + Batches(rest + b);
      BatchesAppend(rest, b);
      if rest == [] {
        assert head == a && rest + b == b;
        assert Batches(a) == [head] + Batches(rest);
      } else {
        assert Batches(a) == [head] + Batches(rest);
      }
      assert [head] + (Batches(rest) + Batches(b)) == ([head] + Batches(rest)) + Batches(b);
    }
  }

  /** Flushing the items after a full prefix adds one batch. */
  lemma Flush<T>(xs: seq<T>, flushed: nat, count: nat)
    requires flushed % BatchSize == 0 && flushed < count <= |xs| && count - flushed <= BatchSize
    ensures Batches(xs[..count]) == Batches(xs[..flushed]) + [xs[flushed..count]]
  {
    var a, b := xs[..flushed], xs[flushed..count];
    assert a + b == xs[..count];
    BatchesAppend(a, b);
    assert Batches(b) == [b];
  }

  /** The batches of a full prefix are a proper prefix of the batches of the
      whole. */
  lemma FullPrefix<T>(xs: seq<T>, flushed: nat)
    requires flushed % BatchSize == 0 && flushed < |xs|
    ensures |Batches(xs[..flushed])| < |Batches(xs)|
    ensures Batches(xs[..flushed]) == Batches(xs)[..|Batches(xs[..flushed])|]
  {
    var a, b := xs[..flushed], xs[flushed..];
    assert a + b == xs;
    BatchesAppend(a, b);
    BatchesWellBatched(b);
  }

  // ----------------------------------------------------------- duplication

  /** The object `duplicateBlogs` resolves to. */
  datatype DuplicationReport =
    | DupSuccess(message: string, originalCount: int, duplicatedCount: nat, finalCount: int)
    | DupError(message: string)

  /** The rows inserted by the given batches, after the existing ones. */
  function Stored(table: seq<Row>, inserted: seq<seq<Row>>): seq<Row>
  {
    table + Flatten(inserted)
  }

  /** The insert loop of `duplicateBlogs` over the copies `ds` it creates in
      order: one item at a time, flushed whenever 100 are pending or the last
      one is added. Returns the error of the first failed insert, and the
      batches stored before it. */
  method InsertInBatches<T>(ds: seq<T>, insertError: nat -> Option<string>)
    returns (failure: Option<string>, inserted: seq<seq<T>>)
    ensures |inserted| <= |Batches(ds)| && inserted == Batches(ds)[..|inserted|]
    ensures failure.None? <==> |inserted| == |Batches(ds)|
    ensures failure.Some? ==> failure == insertError(|inserted|)
    ensures forall i :: 0 <= i < |inserted| ==> insertError(i).None?
  {
    var pending: seq<T> := [];
    var count: nat := 0;
    inserted := [];
    while count < |ds|
      invariant count <= |ds| && |pending| <= count && |pending| < BatchSize
      invariant count < |ds| ==> (count - |pending|) % BatchSize == 0
      invariant pending == ds[count - |pending|..count]
      invariant inserted == Batches(ds[..count - |pending|])
      invariant count == |ds| ==> pending == []
      invariant forall i :: 0 <= i < |inserted| ==> insertError(i).None?
    {
      var flushed := count - |pending|;
      pending := pending + [ds[count]];
      count := count + 1;
      assert pending == ds[flushed..count];
      if |pending| == BatchSize || count == |ds| {
        var batch := |inserted|;
        if insertError(batch).Some? {
          FullPrefix(ds, flushed);
          return insertError(batch), inserted;
        }
        Flush(ds, flushed, count);
        assert count < |ds| ==> count == flushed + BatchSize;
        inserted := inserted + [pending];
        pending := [];
      }
    }
    assert ds[..count] == ds;
    failure := None;
  }

  /** `duplicateBlogs()` on a table. `countError`, `fetchError` and
      `finalCountError` are the errors of the three reads, `insertError(i)`
      the error of the `i`-th insert call. Returns the report and the batches
      that were stored. */
  method DuplicateBlogs(table: seq<Row>, countError: Option<string>, fetchError: Option<string>,
                        insertError: nat -> Option<string>, finalCountError: Option<string>,
                        str: Value -> string)
    returns (r: DuplicationReport, inserted: seq<seq<Row>>)
    ensures countError.Some? ==> r == DupError(countError.value) && inserted == []
    ensures countError.None? && |table| >= TargetTotal ==>
              r == DupSuccess(AlreadyFullMessage, |table|, 0, |table|) && inserted == []
    ensures countError.None? && |table| < TargetTotal && fetchError.Some? ==>
              r == DupError(fetchError.value) && inserted == []
    ensures countError.None? && fetchError.None? && |table| == 0 ==>
              r == DupError(UndefinedTitleMessage) && inserted == []
    ensures forall i :: 0 <= i < |inserted| ==> insertError(i).None?
    ensures 0 < |table| < TargetTotal && countError.None? && fetchError.None? ==>
              var all := Batches(Duplicates(table, TargetTotal - |table|, str));
              && |inserted| <= |all| && inserted == all[..|inserted|]
              && (|inserted| < |all| ==> insertError(|inserted|).Some? && r == DupError(insertError(|inserted|).value))
              && (|inserted| == |all| ==> r == if finalCountError.Some? then DupError(finalCountError.value)
                                                else DupSuccess(DuplicatedMessage(TargetTotal - |table|), |table|,
                                                                TargetTotal - |table|, TargetTotal))
    ensures r.DupSuccess? && |table| < TargetTotal ==>
              Flatten(inserted) == Duplicates(table, TargetTotal - |table|, str)
              && r == DupSuccess(DuplicatedMessage(TargetTotal - |table|), |table|, TargetTotal - |table|, TargetTotal)
              && |Stored(table, inserted)| == TargetTotal
  {
    if countError.Some? {
      return DupError(countError.value), [];
    }
    var current := |table|;
    if current >= TargetTotal {
      return DupSuccess(AlreadyFullMessage, current, 0, current), [];
    }
    if fetchError.Some? {
      return DupError(fetchError.value), [];
    }
    if current == 0 {
      // `existingBlogs[0 % 0]` is `undefined`, whose `title` throws.
      return DupError(UndefinedTitleMessage), [];
    }
    var needed: nat := TargetTotal - current;
    var ds := Duplicates(table, needed, str);
    var failure;
    failure, inserted := InsertInBatches(ds, insertError);
    if failure.Some? {
      return DupError(failure.value), inserted;
    }
    assert inserted == Batches(ds);
    FlattenBatches(ds);
    if finalCountError.Some? {
      return DupError(finalCountError.value), inserted;
    }
    r := DupSuccess(DuplicatedMessage(needed), current, needed, current + needed);
  }

  /** `Successfully duplicated <n> blogs`. */
  function DuplicatedMessage(n: nat): string
  {
    "Successfully duplicated " + NatToString(n) + " blogs"
  }

  // ----------------------------------------------------------------- purge

  /** The rows left once the flagged ones are removed, in order. */
  function Purge(table: seq<Row>): (r: seq<Row>)
    ensures |r| <= |table|
    ensures forall i :: 0 <= i < |r| ==> !IsDuplicate(r[i])
  {
    if table == [] then []
    else if IsDuplicate(table[0]) then Purge(table[1..])
    else [table[0]] + Purge(table[1..])
  }

  /** The number of flagged rows, as the store counts them. */
  function DuplicateCount(table: seq<Row>): nat
  {
    if table == [] then 0
    else (if IsDuplicate(table[0]) then 1 else 0) + DuplicateCount(table[1..])
  }

  /** Every row is either kept or counted. */
  lemma {:induction false} PurgeCount(table: seq<Row>)
    ensures |Purge(table)| + DuplicateCount(table) == |table|
    decreases |table|
  {
    if table != [] {
      PurgeCount(table[1..]);
    }
  }

  /** A table without flagged rows is left as it is. */
  lemma {:induction false} PurgeClean(table: seq<Row>)
    requires forall i :: 0 <= i < |table| ==> !IsDuplicate(table[i])
    ensures Purge(table) == table
    decreases |table|
  {
    if table != [] {
      PurgeClean(table[1..]);
      assert [table[0]] + table[1..] == table;
    }
  }

  /** With no flagged row counted, purging changes nothing. */
  lemma {:induction false} NoneCounted(table: seq<Row>)
    requires DuplicateCount(table) == 0
    ensures Purge(table) == table
    decreases |table|
  {
    if table != [] {
      NoneCounted(table[1..]);
      assert [table[0]] + table[1..] == table;
    }
  }

  lemma {:induction false} PurgeAppend(a: seq<Row>, b: seq<Row>)
    ensures Purge(a + b) == Purge(a) + Purge(b)
    decreases |a|
  {
    if a == [] {
      assert a + b == b;
    } else {
      assert (a + b)[1..] == a[1..] + b;
      PurgeAppend(a[1..], b);
    }
  }

  /** A table of flagged rows purges to nothing. */
  lemma {:induction false} PurgeAllFlagged(table: seq<Row>)
    requires forall i :: 0 <= i < |table| ==> IsDuplicate(table[i])
    ensures Purge(table) == []
    decreases |table|
  {
    if table != [] {
      PurgeAllFlagged(table[1..]);
    }
  }

  /** The object `deleteDuplicateBlogs` resolves to. */
  datatype PurgeReport =
    | PurgeSuccess(message: string, deletedCount: nat)
    | PurgeError(message: string)

  /** A report and the table as it is afterwards. */
  datatype Purged = Purged(report: PurgeReport, after: seq<Row>)

  /** `deleteDuplicateBlogs()` on a table. `countError` and `deleteError` are
      the errors of the count and the delete call; a failed delete removes
      nothing. */
  function DeleteDuplicateBlogs(table: seq<Row>, countError: Option<string>, deleteError: Option<string>): (r: Purged)
    ensures countError.Some? ==> r == Purged(PurgeError(countError.value), table)
    ensures countError.None? && DuplicateCount(table) == 0 ==> r == Purged(PurgeSuccess(NoDuplicatesMessage, 0), table)
    ensures countError.None? && DuplicateCount(table) > 0 && deleteError.Some? ==>
              r == Purged(PurgeError(deleteError.value), table)
    ensures r.report.PurgeSuccess? ==> r.after == Purge(table) && r.report.deletedCount == |table| - |r.after|
    ensures r.report.PurgeSuccess? <==> countError.None? && (DuplicateCount(table) == 0 || deleteError.None?)
  {
    if countError.Some? then Purged(PurgeError(countError.value), table)
    else
      var n := DuplicateCount(table);
      PurgeCount(table);
      if n == 0 then
        NoneCounted(table);
        Purged(PurgeSuccess(NoDuplicatesMessage, 0), table)
      else if deleteError.Some? then Purged(PurgeError(deleteError.value), table)
      else Purged(PurgeSuccess(DeletedMessage(n), n), Purge(table))
  }

  /** `Successfully deleted <n> duplicate blogs`. */
  function DeletedMessage(n: nat): string
  {
    "Successfully deleted " + NatToString(n) + " duplicate blogs"
  }

  /** Duplicating and then purging gives back a table that had no flagged
      rows, whatever number of batches was stored. */
  lemma DuplicateThenPurge(table: seq<Row>, needed: nat, str: Value -> string, inserted: seq<seq<Row>>)
    requires |table| > 0 && forall i :: 0 <= i < |table| ==> !IsDuplicate(table[i])
    requires |inserted| <= |Batches(Duplicates(table, needed, str))|
    requires inserted == Batches(Duplicates(table, needed, str))[..|inserted|]
    ensures Purge(Stored(table, inserted)) == table
  {
    var ds := Duplicates(table, needed, str);
    var all := Batches(ds);
    FlattenBatches(ds);
    assert all == inserted + all[|inserted|..];
    FlattenAppend(inserted, all[|inserted|..]);
    var f := Flatten(inserted);
    assert f == ds[..|f|];
    assert forall i :: 0 <= i < |f| ==> IsDuplicate(f[i]);
    PurgeAppend(table, f);
    PurgeClean(table);
    PurgeAllFlagged(f);
    assert table + [] == table;
  }
}

=== FILE: json.dfy ===
/** JavaScript values as the services see them after `JSON.parse` or a store
    query. A row (one record of the `blogs` table, or any plain object) is a
    map from property names to values; a property that is absent reads as
    `Undefined`. */
module Json {
  import opened Wrappers

  datatype Value =
    | Undefined
    | Null
    | Bool(b: bool)
    | Num(n: real)
    | Str(s: string)
    | Arr(items: seq<Value>)
    | Obj(fields: Row)

  type Row = map<string, Value>

  /** `row[key]` on a plain object. */
  function Get(row: Row, key: string): Value
  {
    if key in row then row[key] else Undefined
  }

  /** `v[key]` on an arbitrary value: reading a property of `null` or
      `undefined` throws a TypeError (`None`); other primitives and arrays
      have none of the properties the services read. */
  function Prop(v: Value, key: string): (r: Option<Value>)
    ensures r.None? <==> v.Null? || v.Undefined?
  {
    match v
    case Undefined => None
    case Null => None
    case Obj(fields) => Some(Get(fields, key))
    case _ => Some(Undefined)
  }

  /** JavaScript truthiness (a `NaN` number is not represented). */
  predicate Truthy(v: Value)
  {
    match v
    case Undefined => false
    case Null => false
    case Bool(b) => b
    case Num(n) => n != 0.0
    case Str(s) => s != ""
    case _ => true
  }

  /** `v.map((x) => x[key])` when `v` must be an array: anything else has no
      `map` method, and an element that is `null` or `undefined` throws. */
  function MapProp(v: Value, key: string): (r: Option<seq<Value>>)
    ensures r.Some? ==> v.Arr? && |r.value| == |v.items|
    ensures r.Some? ==> forall i :: 0 <= i < |r.value| ==> Prop(v.items[i], key) == Some(r.value[i])
    ensures v.Arr? && (forall i :: 0 <= i < |v.items| ==> Prop(v.items[i], key).Some?) ==> r.Some?
  {
    if v.Arr? then PropOfEach(v.items, key) else None
  }

  function PropOfEach(items: seq<Value>, key: string): (r: Option<seq<Value>>)
    ensures r.Some? ==> |r.value| == |items|
    ensures r.Some? ==> forall i :: 0 <= i < |items| ==> Prop(items[i], key) == Some(r.value[i])
    ensures (forall i :: 0 <= i < |items| ==> Prop(items[i], key).Some?) ==> r.Some?
  {
    if items == [] then Some([])
    else
      match (Prop(items[0], key), PropOfEach(items[1..], key))
      case (Some(x), Some(rest)) => Some([x] + rest)
      case _ => None
  }
}

=== FILE: llm_ranking.dfy ===
/** LLM ranking (`useLLMRanking`): the catalog is cut or padded to
    `targetCount` entries, sent to the model, and the `{ id, score }` items of
    its `ranked_blogs` reply are looked up again in the padded catalog and
    projected to recommendation records. The store query, the completion call
    and `JSON.parse` are inputs; JavaScript's `String(x)` is the parameter
    `str`. */
module LlmRanking {
  import opened Wrappers
  import opened Strings
  import opened Json

  // ---------------------------------------------------------------- padding

  /** `dup-${i}`. */
  function DupId(i: nat): Value
  {
    Str("dup-" + NatToString(i))
  }

  lemma DupIdInjective(i: nat, j: nat)
    requires DupId(i) == DupId(j)
    ensures i == j
  {
    var a, b := "dup-" + NatToString(i), "dup-" + NatToString(j);
    assert a[4..] == NatToString(i) && b[4..] == NatToString(j);
    NatToStringInjective(i, j);
  }

  /** The blog position `i` is copied from: `blogs[i % blogs.length]`, which
      is `undefined` for an empty catalog, and spreading `undefined` copies
      nothing. */
  function Source(blogs: seq<Row>, i: nat): Row
  {
    if |blogs| > 0 then blogs[i % |blogs|] else map[]
  }

  /** `{ ...blogs[i % n], id: dup-${i} }`. */
  function Duplicate(blogs: seq<Row>, i: nat): Row
  {
    Source(blogs, i)["id" := DupId(i)]
  }

  /** The padded catalog in closed form: the first `targetCount` blogs, or all
      of them followed by the duplicates for positions `|blogs|` up to
      `targetCount`. */
  function Padded(blogs: seq<Row>, targetCount: nat): seq<Row>
  {
    if |blogs| > targetCount then blogs[..targetCount]
    else blogs + seq(targetCount - |blogs|, k requires 0 <= k < targetCount - |blogs| => Duplicate(blogs, |blogs| + k))
  }

  /** `duplicateBlogsToTargetCount(blogs, targetCount)`. */
  method DuplicateBlogsToTargetCount(blogs: seq<Row>, targetCount: nat) returns (r: seq<Row>)
    ensures |r| == targetCount
    ensures |blogs| >= targetCount ==> r == blogs[..targetCount]
    ensures |blogs| < targetCount ==> r[..|blogs|] == blogs
    ensures forall i :: |blogs| <= i < |r| ==>
              Get(r[i], "id") == DupId(i) && r[i] - {"id"} == Source(blogs, i) - {"id"}
    ensures forall i, j :: |blogs| <= i < j < |r| ==> Get(r[i], "id") != Get(r[j], "id")
    ensures r == Padded(blogs, targetCount)
  {
    r := blogs;
    if |r| > targetCount {
      return r[..targetCount];
    }
    while |r| < targetCount
      invariant |blogs| <= |r| <= targetCount
      invariant r[..|blogs|] == blogs
      invariant forall i :: |blogs| <= i < |r| ==> r[i] == Duplicate(blogs, i)
    {
      var original := Source(blogs, |r|);
      r := r + [original["id" := DupId(|r|)]];
    }
    forall i, j | |blogs| <= i < j < |r|
      ensures Get(r[i], "id") != Get(r[j], "id")
    {
      if Get(r[i], "id") == Get(r[j], "id") {
        DupIdInjective(i, j);
      }
    }
  }

  const CandidateKeys: set<string> := {"id", "title", "content_metadata"}

  /** `blogsData`: what the prompt lists of each padded blog. */
  function Candidates(padded: seq<Row>): (r: seq<Row>)
    ensures |r| == |padded|
    ensures forall i :: 0 <= i < |padded| ==> r[i].Keys == CandidateKeys
    ensures forall i, k :: 0 <= i < |padded| && k in CandidateKeys ==> r[i][k] == Get(padded[i], k)
  {
    seq(|padded|, i requires 0 <= i < |padded| => map["id" := Get(padded[i], "id"), "title" := Get(padded[i], "title"),
                                                    "content_metadata" := Get(padded[i], "content_metadata")])
  }

  // ---------------------------------------------------------------- reply

  const InvalidRankingMessage := "No valid ranked_blogs array found in the LLM response"

  /** The parsed reply, when the completion call and `JSON.parse` succeed. */
  function Parsed(reply: Option<string>, parse: string -> Option<Value>): Option<Value>
  {
    if reply.None? then None else parse(Trim(reply.value))
  }

  /** A `ranked_blogs` value the code accepts: an array none of whose items is
      `null` or `undefined`. */
  predicate AcceptedRanking(ranked: Value)
  {
    ranked.Arr? && forall i :: 0 <= i < |ranked.items| ==> Prop(ranked.items[i], "id").Some?
  }

  /** The `ranked_blogs` items of the completion reply, after
      `content.trim()`, `JSON.parse`, the array check and the
      `map((item) => item.id)` that throws on a `null` item. */
  function RankedItems(reply: Option<string>, parse: string -> Option<Value>): (r: Result<seq<Value>>)
    ensures r.Ok? <==> Parsed(reply, parse).Some? && Prop(Parsed(reply, parse).value, "ranked_blogs").Some?
                       && AcceptedRanking(Prop(Parsed(reply, parse).value, "ranked_blogs").value)
    ensures r.Ok? ==> Prop(Parsed(reply, parse).value, "ranked_blogs") == Some(Arr(r.value))
    ensures (Parsed(reply, parse).Some? && Prop(Parsed(reply, parse).value, "ranked_blogs").Some?
             && !Prop(Parsed(reply, parse).value, "ranked_blogs").value.Arr?) ==> r == Err(InvalidRankingMessage)
  {
    if reply.None? then Err("completion failed")
    else
      var parsed := parse(Trim(reply.value));
      if parsed.None? then Err("invalid JSON")
      else
        match Prop(parsed.value, "ranked_blogs")
        case None => Err("cannot read ranked_blogs")
        case Some(ranked) =>
          if !Truthy(ranked) || !ranked.Arr? then Err(InvalidRankingMessage)
          else if MapProp(ranked, "id").None? then Err("cannot read id")
          else Ok(ranked.items)
  }

  // ---------------------------------------------------------------- lookup

  /** `String(b.id) === String(id)`. */
  predicate SameId(b: Row, id: Value, str: Value -> string)
  {
    str(Get(b, "id")) == str(id)
  }

  /** `expandedBlogs.find(...)`: the position of the first blog whose
      stringified id equals the stringified ranked id. */
  function FindIndex(padded: seq<Row>, id: Value, str: Value -> string, from: nat): (r: Option<nat>)
    requires from <= |padded|
    ensures r.Some? ==> from <= r.value < |padded| && SameId(padded[r.value], id, str)
    ensures r.Some? ==> forall j :: from <= j < r.value ==> !SameId(padded[j], id, str)
    ensures r.None? ==> forall j :: from <= j < |padded| ==> !SameId(padded[j], id, str)
    decreases |padded| - from
  {
    if from == |padded| then None
    else if SameId(padded[from], id, str) then Some(from)
    else FindIndex(padded, id, str, from + 1)
  }

  /** An id the model copies from the prompt's candidates is always found
      again, at that candidate or at an earlier blog with the same id. */
  lemma CandidateIdFound(padded: seq<Row>, i: nat, str: Value -> string)
    requires i < |padded|
    ensures var k := FindIndex(padded, Candidates(padded)[i]["id"], str, 0);
            k.Some? && k.value <= i
  {
    var id := Candidates(padded)[i]["id"];
    assert SameId(padded[i], id, str);
  }

  /** Whether `blog.categories && blog.categories.length > 0` holds for an
      object: its `length` property compares greater than zero. */
  predicate PositiveLength(v: Value)
  {
    match v
    case Num(n) => n > 0.0
    case Bool(b) => b
    case _ => false
  }

  /** `v && v.length > 0 ? v.map((c) => c.name) : []`: the names of a
      non-empty array; `[]` for anything falsy or of length zero; a thrown
      TypeError for a non-empty string or a length-carrying object (no `map`
      method) and for an array holding `null`. */
  function Names(v: Value): (r: Result<Value>)
    ensures !Truthy(v) || v == Arr([]) ==> r == Ok(Arr([]))
    ensures r.Ok? ==> r.value.Arr?
    ensures v.Arr? ==> (r.Ok? <==> forall i :: 0 <= i < |v.items| ==> Prop(v.items[i], "name").Some?)
    ensures v.Arr? && r.Ok? ==>
              |r.value.items| == |v.items| && forall i :: 0 <= i < |v.items| ==> Prop(v.items[i], "name") == Some(r.value.items[i])
    ensures v.Str? ==> (r.Ok? <==> v.s == "")
  {
    match v
    case Arr(items) =>
      if |items| == 0 then Ok(Arr([]))
      else
        var names := PropOfEach(items, "name");
        if names.None? then Err("cannot read name") else Ok(Arr(names.value))
    case Str(s) => if s == "" then Ok(Arr([])) else Err("map is not a function")
    case Obj(fields) => if PositiveLength(Get(fields, "length")) then Err("map is not a function") else Ok(Arr([]))
    case _ => Ok(Arr([]))
  }

  /** The fields a recommendation copies from its blog unchanged. */
  const CopiedKeys: set<string> := {"id", "title", "summary", "url", "content_metadata"}

  const EntryKeys: set<string> := CopiedKeys + {"categories", "tags", "score"}

  /** The recommendation built from a found blog and the ranked item's score. */
  function Entry(blog: Row, score: Value): (r: Result<Row>)
    ensures r.Ok? <==> Names(Get(blog, "categories")).Ok? && Names(Get(blog, "tags")).Ok?
    ensures r.Ok? ==> r.value.Keys == EntryKeys && r.value["score"] == score
    ensures r.Ok? ==> forall k :: k in CopiedKeys ==> r.value[k] == Get(blog, k)
    ensures r.Ok? ==> r.value["categories"] == Names(Get(blog, "categories")).value
                      && r.value["tags"] == Names(Get(blog, "tags")).value
  {
    var cats := Names(Get(blog, "categories"));
    var tags := Names(Get(blog, "tags"));
    if cats.Err? then Err(cats.message)
    else if tags.Err? then Err(tags.message)
    else
      Ok(map[
        "id" := Get(blog, "id"),
        "title" := Get(blog, "title"),
        "summary" := Get(blog, "summary"),
        "url" := Get(blog, "url"),
        "content_metadata" := Get(blog, "content_metadata"),
        "categories" := cats.value,
        "tags" := tags.value,
        "score" := score])
  }

  /** The `map` callback for one ranked item: reading `id` of `null` throws,
      a miss gives `null`, a hit gives the entry for the first matching blog. */
  function Lookup(item: Value, padded: seq<Row>, str: Value -> string): (r: Result<Option<Row>>)
    ensures Prop(item, "id").None? ==> r.Err?
    ensures r.Ok? && r.value.None? ==> forall j :: 0 <= j < |padded| ==> !SameId(padded[j], Prop(item, "id").value, str)
    ensures r.Ok? && r.value.Some? ==>
              SameId(r.value.value, Prop(item, "id").value, str) && Get(r.value.value, "score") == Prop(item, "score").value
  {
    match Prop(item, "id")
    case None => Err("cannot read id")
    case Some(id) =>
      match FindIndex(padded, id, str, 0)
      case None => Ok(None)
      case Some(k) =>
        var e := Entry(padded[k], Prop(item, "score").value);
        if e.Err? then Err(e.message) else Ok(Some(e.value))
  }

  /** A found item's entry is built from the first padded blog with the same
      stringified id, and carries the item's score. */
  lemma LookupTakesFirstMatch(item: Value, padded: seq<Row>, str: Value -> string, k: nat)
    requires Prop(item, "id").Some? && FindIndex(padded, Prop(item, "id").value, str, 0) == Some(k)
    requires Entry(padded[k], Prop(item, "score").value).Ok?
    ensures forall j :: 0 <= j < k ==> !SameId(padded[j], Prop(item, "id").value, str)
    ensures Lookup(item, padded, str) == Ok(Some(Entry(padded[k], Prop(item, "score").value).value))
  {
  }

  /** The `map` callback applied to every ranked item. */
  function LookupAll(items: seq<Value>, padded: seq<Row>, str: Value -> string): (r: seq<Result<Option<Row>>>)
    ensures |r| == |items| && forall i :: 0 <= i < |items| ==> r[i] == Lookup(items[i], padded, str)
  {
    seq(|items|, i requires 0 <= i < |items| => Lookup(items[i], padded, str))
  }

  /** `rankedBlogsWithScores.map(...).filter(Boolean)`: the first thrown error,
      or the entries of the found items in ranking order. */
  function Rehydrate(items: seq<Value>, padded: seq<Row>, str: Value -> string): (r: Result<seq<Row>>)
    ensures r.Ok? <==> forall i :: 0 <= i < |items| ==> Lookup(items[i], padded, str).Ok?
    ensures r.Ok? ==> |r.value| <= |items|
  {
    var looked := LookupAll(items, padded, str);
    CollectOk(looked);
    Collect(looked)
  }

  /** One item: its entry when its id is found, nothing when it is not. */
  lemma RehydrateOne(item: Value, padded: seq<Row>, str: Value -> string)
    requires Lookup(item, padded, str).Ok?
    ensures Rehydrate([item], padded, str) == Ok(Kept(Lookup(item, padded, str).value))
  {
    assert LookupAll([item], padded, str) == [Lookup(item, padded, str)];
    CollectOne(Lookup(item, padded, str));
  }

  /** Ranking order is kept: the entries of a concatenation are the entries
      of its parts, in order. */
  lemma RehydrateAppend(a: seq<Value>, b: seq<Value>, padded: seq<Row>, str: Value -> string)
    requires Rehydrate(a, padded, str).Ok? && Rehydrate(b, padded, str).Ok?
    ensures Rehydrate(a + b, padded, str) == Ok(Rehydrate(a, padded, str).value + Rehydrate(b, padded, str).value)
  {
    LookupAllAppend(a, b, padded, str);
    CollectAppend(LookupAll(a, padded, str), LookupAll(b, padded, str));
  }

  lemma LookupAllAppend(a: seq<Value>, b: seq<Value>, padded: seq<Row>, str: Value -> string)
    ensures LookupAll(a + b, padded, str) == LookupAll(a, padded, str) + LookupAll(b, padded, str)
  {
    var l, la, lb := LookupAll(a + b, padded, str), LookupAll(a, padded, str), LookupAll(b, padded, str);
    forall i | 0 <= i < |l|
      ensures l[i] == (la + lb)[i]
    {
      if i < |a| {
        assert (a + b)[i] == a[i];
      } else {
        assert (a + b)[i] == b[i - |a|];
      }
    }
  }

  /** When every ranked id names a padded blog, nothing is dropped: one entry
      per ranked item, each carrying that item's score. */
  lemma RehydrateAllFound(items: seq<Value>, padded: seq<Row>, str: Value -> string)
    requires Rehydrate(items, padded, str).Ok?
    requires forall i :: 0 <= i < |items| ==> FindIndex(padded, Prop(items[i], "id").value, str, 0).Some?
    ensures |Rehydrate(items, padded, str).value| == |items|
    ensures forall i :: 0 <= i < |items| ==> Get(Rehydrate(items, padded, str).value[i], "score") == Prop(items[i], "score").value
  {
    var looked := LookupAll(items, padded, str);
    forall i | 0 <= i < |items|
      ensures looked[i].Ok? && looked[i].value.Some?
    {
      var k := FindIndex(padded, Prop(items[i], "id").value, str, 0).value;
      assert SameId(padded[k], Prop(items[i], "id").value, str);
    }
    CollectAllPresent(looked);
  }

  // ---------------------------------------------------------------- ranking

  /** The resolved value (`duration` and `usage` left out). */
  datatype Ranking = Ranking(total: nat, preferences: Value, recommendations: seq<Row>)

  /** `useLLMRanking(preferences, model, targetCount)`. `table` is the
      `blogs` table (`None` when the query errors); `reply` is the completion
      text (`None` when the call throws). */
  method UseLlmRanking(preferences: Value, targetCount: nat, table: Option<seq<Row>>,
                       reply: Option<string>, parse: string -> Option<Value>,
                       str: Value -> string) returns (r: Result<Ranking>)
    ensures table.None? || RankedItems(reply, parse).Err? ==> r.Err?
    ensures r.Ok? ==> r.value.total == targetCount && r.value.preferences == preferences
    ensures r.Ok? <==> table.Some? && RankedItems(reply, parse).Ok?
                       && Rehydrate(RankedItems(reply, parse).value, Padded(table.value, targetCount), str).Ok?
    ensures r.Ok? ==> r.value.recommendations
                      == Rehydrate(RankedItems(reply, parse).value, Padded(table.value, targetCount), str).value
  {
    if table.None? {
      return Err("store query failed");
    }
    var padded := DuplicateBlogsToTargetCount(table.value, targetCount);
    var items := RankedItems(reply, parse);
    if items.Err? {
      return Err(items.message);
    }
    var recs := Rehydrate(items.value, padded, str);
    if recs.Err? {
      return Err(recs.message);
    }
    r := Ok(Ranking(|padded|, preferences, recs.value));
  }
}

=== FILE: llm_service.dfy ===
/** The two completion helpers of the LLM service. The completion call itself
    is an input: `None` when the call (or reading its reply) throws, otherwise
    the reply text. `JSON.parse` is the parameter `parse`, `None` when it
    throws. */
module LlmService {
  import opened Wrappers
  import opened Strings
  import opened Json

  const CompletionModel := "google/gemini-2.0-flash-001"

  /** `generateSummary`: the trimmed reply, or `null` when the call fails. */
  function GenerateSummary(reply: Option<string>): (r: Option<string>)
    ensures r.Some? <==> reply.Some?
    ensures r.Some? ==> r.value == Trim(reply.value)
  {
    match reply
    case None => None
    case Some(text) => Some(Trim(text))
  }

  /** A reply that is already trimmed is the summary verbatim. */
  lemma SummaryOfTrimmedReply(text: string)
    requires IsTrimmed(text)
    ensures GenerateSummary(Some(text)) == Some(text)
  {
    TrimOfTrimmed(text);
  }

  /** The summary keeps every character of the reply but the surrounding
      whitespace. */
  lemma SummaryKeepsText(text: string)
    ensures IsTrimmed(GenerateSummary(Some(text)).value)
    ensures Remove(GenerateSummary(Some(text)).value, Whitespace) == Remove(text, Whitespace)
  {
    TrimKeepsNonWhitespace(text);
  }

  /** Some `{` is followed, somewhere later, by a `}`. */
  predicate HasBracePair(s: string)
  {
    exists i, j :: 0 <= i < j < |s| && s[i] == '{' && s[j] == '}'
  }

  /** `s.match(/\{[\s\S]*?\}/)[0]`: the lazy quantifier stops at the first `}`
      after the first `{`, so the match is not a balanced object. */
  function FirstObjectText(s: string): (r: Option<string>)
    ensures r.None? <==> !HasBracePair(s)
    ensures r.Some? ==> |r.value| >= 2 && r.value[0] == '{' && r.value[|r.value| - 1] == '}'
    ensures r.Some? ==> '}' !in r.value[..|r.value| - 1]
    ensures r.Some? ==> exists i: nat :: i <= |s| && OccursAt(s, r.value, i) && '{' !in s[..i]
  {
    match IndexOf(s, '{', 0)
    case None => None
    case Some(i) =>
      match IndexOf(s, '}', i + 1)
      case None => None
      case Some(j) =>
        var m := s[i..j + 1];
        assert OccursAt(s, m, i);
        assert m[..|m| - 1] == s[i..j];
        assert forall k :: 0 <= k < i ==> s[..i][k] == s[k];
        Some(m)
  }

  /** Prose around a flat object is skipped: the object is what gets parsed. */
  lemma FirstObjectTextSkipsProse(pre: string, body: string, post: string)
    requires '{' !in pre && '}' !in body
    ensures FirstObjectText(pre + "{" + body + "}" + post) == Some("{" + body + "}")
  {
    var s := pre + "{" + body + "}" + post;
    assert s[|pre|] == '{' && s[|pre| + |body| + 1] == '}';
    assert forall k :: 0 <= k < |pre| ==> s[k] == pre[k];
    assert forall k :: |pre| < k < |pre| + |body| + 1 ==> s[k] == body[k - |pre| - 1];
    assert s[|pre|..|pre| + |body| + 2] == "{" + body + "}";
  }

  /** A nested object is cut at its first closing brace. */
  lemma FirstObjectTextIsNotBalanced()
    ensures FirstObjectText("{\"a\":{}}") == Some("{\"a\":{}")
  {
    assert IndexOf("{\"a\":{}}", '{', 0) == Some(0);
    assert IndexOf("{\"a\":{}}", '}', 1) == Some(6);
    assert "{\"a\":{}}"[0..7] == "{\"a\":{}";
  }

  /** `generateContentMetadata`: the parsed first `{…}` of the trimmed reply,
      or `null` when the call fails, no object is found or parsing throws. */
  function GenerateContentMetadata(reply: Option<string>, parse: string -> Option<Value>): (r: Value)
    ensures reply.None? || !HasBracePair(Trim(reply.value)) ==> r == Null
    ensures r != Null ==> reply.Some? && FirstObjectText(Trim(reply.value)).Some?
                          && parse(FirstObjectText(Trim(reply.value)).value) == Some(r)
    ensures reply.Some? && FirstObjectText(Trim(reply.value)).Some? ==>
              r == parse(FirstObjectText(Trim(reply.value)).value).GetOr(Null)
  {
    match reply
    case None => Null
    case Some(text) =>
      match FirstObjectText(Trim(text))
      case None => Null
      case Some(json) => parse(json).GetOr(Null)
  }

  /** A reply whose trimmed text is prose, a flat object and prose yields the
      parse of that object, whatever whitespace surrounds it. */
  lemma MetadataOfObjectInProse(reply: string, pre: string, body: string, post: string, parse: string -> Option<Value>)
    requires '{' !in pre && '}' !in body
    requires Trim(reply) == pre + "{" + body + "}" + post
    ensures GenerateContentMetadata(Some(reply), parse) == parse("{" + body + "}").GetOr(Null)
  {
    FirstObjectTextSkipsProse(pre, body, post);
  }
}

=== FILE: ordered_set.dfy ===
/** A JavaScript `Set` of strings, observed through `Array.from`: a sequence
    without repetitions in insertion order. `new Set()` followed by a series
    of `add` calls is `InsertAll([], xs)`. */
module OrderedSet {


  predicate Distinct(xs: seq<string>)
  {
    forall i, j :: 0 <= i < j < |xs| ==> xs[i] != xs[j]
  }

  /** Position of the first occurrence of `x` in `xs`. */
  function FirstIndex(xs: seq<string>, x: string): (k: nat)
    requires x in xs
    ensures k < |xs| && xs[k] == x && x !in xs[..k]
  {
    if xs[0] == x then 0
    else
      var k := 1 + FirstIndex(xs[1..], x);
      assert xs[..k] == [xs[0]] + xs[1..][..k - 1];
      k
  }

  /** `Set.prototype.add`. */
  function Insert(acc: seq<string>, x: string): seq<string>
  {
    if x in acc then acc else acc + [x]
  }

  /** Adding every element of `xs`, in order, to the set holding `acc`. */
  function InsertAll(acc: seq<string>, xs: seq<string>): (r: seq<string>)
    requires Distinct(acc)
    ensures Distinct(r)
    ensures |acc| <= |r| && r[..|acc|] == acc
    ensures forall x :: x in r <==> x in acc || x in xs
  {
    if xs == [] then acc
    else
      var init, last := xs[..|xs| - 1], xs[|xs| - 1];
      var p := InsertAll(acc, init);
      assert xs == init + [last];
      Insert(p, last)
  }

  /** The elements of `ys` occur in `xs`, in the order of their first
      occurrences there. */
  predicate FirstSeenOrder(ys: seq<string>, xs: seq<string>)
  {
    && (forall i :: 0 <= i < |ys| ==> ys[i] in xs)
    && (forall i, j :: 0 <= i < j < |ys| ==> FirstIndex(xs, ys[i]) < FirstIndex(xs, ys[j]))
  }

  /** The elements added to `acc` come from `xs` and were not in `acc`. */
  lemma {:induction false} InsertAllNew(acc: seq<string>, xs: seq<string>)
    requires Distinct(acc)
    ensures var r := InsertAll(acc, xs);
            forall i :: |acc| <= i < |r| ==> r[i] in xs && r[i] !in acc
    decreases |xs|
  {
    if xs != [] {
      var init, last := xs[..|xs| - 1], xs[|xs| - 1];
      assert xs == init + [last];
      InsertAllNew(acc, init);
      var p, r := InsertAll(acc, init), InsertAll(acc, xs);
      assert r == Insert(p, last);
      forall i | |acc| <= i < |r|
        ensures r[i] in xs && r[i] !in acc
      {
        if i < |p| {
          assert r[i] == p[i] && p[i] in init;
        } else {
          assert r[i] == last && last !in p;
        }
      }
    }
  }

  /** The elements added to `acc` appear in the order in which they first
      occur in `xs`. */
  lemma {:induction false} InsertAllOrder(acc: seq<string>, xs: seq<string>)
    requires Distinct(acc)
    ensures FirstSeenOrder(InsertAll(acc, xs)[|acc|..], xs)
    decreases |xs|
  {
    if xs != [] {
      var init, last := xs[..|xs| - 1], xs[|xs| - 1];
      assert xs == init + [last];
      InsertAllOrder(acc, init);
      var p := InsertAll(acc, init);
      var ps := p[|acc|..];
      FirstSeenOrderExtend(ps, init, last);
      if last !in p {
        assert InsertAll(acc, xs)[|acc|..] == ps + [last];
      } else {
        assert InsertAll(acc, xs)[|acc|..] == ps;
      }
    }
  }

  /** Growing `xs` keeps the order of what was already seen, and a new
      element comes after all of it. */
  lemma FirstSeenOrderExtend(ys: seq<string>, init: seq<string>, last: string)
    requires FirstSeenOrder(ys, init)
    ensures FirstSeenOrder(ys, init + [last])
    ensures last !in init ==> FirstSeenOrder(ys + [last], init + [last])
  {
    var xs := init + [last];
    FirstIndexOfPrefix(init, last);
    assert forall i :: 0 <= i < |ys| ==> FirstIndex(xs, ys[i]) == FirstIndex(init, ys[i]) < |init|;
    if last !in init {
      var zs := ys + [last];
      forall i, j | 0 <= i < j < |zs|
        ensures FirstIndex(xs, zs[i]) < FirstIndex(xs, zs[j])
      {
        if j == |ys| {
          assert zs[j] == last;
        } else {
          assert zs[i] == ys[i] && zs[j] == ys[j];
        }
      }
    }
  }

  /** The first occurrence is the only position with `x` and no earlier `x`. */
  lemma FirstIndexUnique(xs: seq<string>, x: string, k: nat)
    requires k < |xs| && xs[k] == x && x !in xs[..k]
    ensures FirstIndex(xs, x) == k
  {
    var f := FirstIndex(xs, x);
    assert forall m :: 0 <= m < k ==> xs[..k][m] == xs[m];
    assert forall m :: 0 <= m < f ==> xs[..f][m] == xs[m];
  }

  /** Elements of a prefix keep their first position when the sequence grows. */
  lemma FirstIndexOfPrefix(init: seq<string>, last: string)
    ensures forall x :: x in init ==> FirstIndex(init + [last], x) == FirstIndex(init, x)
    ensures last !in init ==> FirstIndex(init + [last], last) == |init|
  {
    var xs := init + [last];
    forall x | x in init
      ensures FirstIndex(xs, x) == FirstIndex(init, x)
    {
      var k := FirstIndex(init, x);
      assert xs[..k] == init[..k];
      FirstIndexUnique(xs, x, k);
    }
    if last !in init {
      assert xs[..|init|] == init;
      FirstIndexUnique(xs, last, |init|);
    }
  }

  /** Inserting elements that are already present changes nothing. */
  lemma {:induction false} InsertAllPresent(acc: seq<string>, xs: seq<string>)
    requires Distinct(acc)
    requires forall x :: x in xs ==> x in acc
    ensures InsertAll(acc, xs) == acc
    decreases |xs|
  {
    if xs != [] {
      InsertAllPresent(acc, xs[..|xs| - 1]);
    }
  }

  /** Adding `a` and then `b` is adding `a + b`. */
  lemma {:induction false} InsertAllAppend(acc: seq<string>, a: seq<string>, b: seq<string>)
    requires Distinct(acc)
    ensures InsertAll(InsertAll(acc, a), b) == InsertAll(acc, a + b)
    decreases |b|
  {
    if b == [] {
      assert a + b == a;
    } else {
      var init := b[..|b| - 1];
      InsertAllAppend(acc, a, init);
      assert (a + b)[..|a + b| - 1] == a + init;
      assert (a + b)[|a + b| - 1] == b[|b| - 1];
    }
  }
}

=== FILE: page_text.dfy ===
/** The text helpers that the scraper service and the article controller
    each define identically: `extractIdFromUrl`, `cleanText`, and the
    per-element formatting of `extractMainContent`. The DOM walk itself is
    replaced by the sequence of elements it visits. */
module PageText {
  import opened Wrappers
  import opened Strings

  // ---------------------------------------------------------------- ids

  /** `url.match(/\/([^\/]+)\/$/)`, group 1: the last non-empty path segment
      of a URL that ends with a slash. */
  function ExtractIdFromUrl(url: string): (r: Option<string>)
    ensures r.Some? ==> |r.value| > 0 && '/' !in r.value && EndsWith(url, "/" + r.value + "/")
  {
    if |url| >= 3 && url[|url| - 1] == '/' then
      var body := url[..|url| - 1];
      match LastIndexOf(body, '/')
      case None => None
      case Some(k) =>
        if k + 1 < |body| then
          var id := body[k + 1..];
          assert url[|url| - |id| - 2..] == "/" + id + "/";
          Some(id)
        else None
    else None
  }

  /** The match is found whenever the URL has the shape the pattern describes. */
  lemma ExtractIdComplete(url: string, id: string)
    requires |id| > 0 && '/' !in id && EndsWith(url, "/" + id + "/")
    ensures ExtractIdFromUrl(url) == Some(id)
  {
    var body := url[..|url| - 1];
    var p := |url| - |id| - 2;
    assert body[p] == '/';
    assert body[p + 1..] == id;
    var k := LastIndexOf(body, '/');
    assert k.Some?;
    var q := k.value;
    forall m | q < m < |body|
      ensures body[m] != '/'
    {
      assert body[q + 1..][m - q - 1] == body[m];
    }
    forall m | p < m < |body|
      ensures body[m] != '/'
    {
      assert body[m] == id[m - p - 1];
    }
  }

  // ---------------------------------------------------------------- cleanText

  /** No `<` is followed, anywhere later, by a `>`: no markup tag is left. */
  predicate TagFree(s: string)
  {
    s == [] || ((s[0] == '<' ==> '>' !in s[1..]) && TagFree(s[1..]))
  }

  /** Every whitespace character is a plain space and no two are adjacent. */
  predicate SingleSpaced(s: string)
  {
    && (forall i :: 0 <= i < |s| && IsWhitespace(s[i]) ==> s[i] == ' ')
    && (forall i :: 0 <= i < |s| - 1 ==> !DoubleSpaceAt(s, i))
  }

  predicate DoubleSpaceAt(s: string, i: nat)
    requires i + 1 < |s|
  {
    s[i] == ' ' && s[i + 1] == ' '
  }

  /** `s.replace(/<[^>]*>/g, " ")`: every `<` that has a later `>` starts a tag
      running to the first such `>`, and the tag becomes one space. */
  function ReplaceTags(s: string): string
    decreases |s|
  {
    if s == [] then []
    else if s[0] == '<' then
      match IndexOf(s, '>', 1)
      case Some(k) => " " + ReplaceTags(s[k + 1..])
      case None => s
    else [s[0]] + ReplaceTags(s[1..])
  }

  /** The tag replacement of `cleanText`, with what it guarantees. */
  function StripTags(s: string): (r: string)
    ensures TagFree(r)
    ensures TagFree(s) ==> r == s
  {
    ReplaceTagsTagFree(s);
    ReplaceTagsOfTagFree(s);
    ReplaceTags(s)
  }

  lemma {:induction false} ReplaceTagsTagFree(s: string)
    ensures TagFree(ReplaceTags(s))
    decreases |s|
  {
    if s != [] {
      if s[0] == '<' {
        match IndexOf(s, '>', 1)
        case Some(k) =>
          var r := ReplaceTags(s[k + 1..]);
          ReplaceTagsTagFree(s[k + 1..]);
          assert (" " + r)[1..] == r;
        case None =>
          assert '>' !in s[1..];
          DelimiterFreeTagFree(s[1..], '>');
      } else {
        var r := ReplaceTags(s[1..]);
        ReplaceTagsTagFree(s[1..]);
        assert ([s[0]] + r)[1..] == r;
      }
    }
  }

  lemma {:induction false} ReplaceTagsOfTagFree(s: string)
    ensures TagFree(s) ==> ReplaceTags(s) == s
    decreases |s|
  {
    if s != [] && TagFree(s) && s[0] != '<' {
      ReplaceTagsOfTagFree(s[1..]);
      assert s == [s[0]] + s[1..];
    }
  }

  /** Text missing either tag delimiter holds no tag. */
  lemma {:induction false} DelimiterFreeTagFree(s: string, c: char)
    requires (c == '<' || c == '>') && c !in s
    ensures TagFree(s)
    decreases |s|
  {
    if s != [] {
      DelimiterFreeTagFree(s[1..], c);
    }
  }

  /** `s.replace(/\s+/g, " ")`: each run of whitespace becomes one space. A
      whitespace character followed by another is dropped; the last one of a
      run becomes the space. */
  function CollapseWhitespace(s: string): (r: string)
    ensures SingleSpaced(r)
    ensures |s| > 0 ==> |r| > 0 && (IsWhitespace(s[0]) <==> r[0] == ' ')
    decreases |s|
  {
    if s == [] then []
    else if IsWhitespace(s[0]) && |s| > 1 && IsWhitespace(s[1]) then CollapseWhitespace(s[1..])
    else
      var c := if IsWhitespace(s[0]) then ' ' else s[0];
      var rest := CollapseWhitespace(s[1..]);
      ConsSingleSpaced(c, rest);
      [c] + rest
  }

  lemma ConsSingleSpaced(c: char, rest: string)
    requires SingleSpaced(rest)
    requires IsWhitespace(c) ==> c == ' '
    requires c == ' ' && |rest| > 0 ==> rest[0] != ' '
    ensures SingleSpaced([c] + rest)
  {
    var s := [c] + rest;
    assert forall i :: 0 < i < |s| ==> s[i] == rest[i - 1];
    forall i | 0 <= i < |s| - 1
      ensures !DoubleSpaceAt(s, i)
    {
      if i > 0 {
        assert !DoubleSpaceAt(rest, i - 1);
      }
    }
  }

  /** Collapsing changes whitespace only: the other characters are kept, in order. */
  lemma {:induction false} CollapseKeepsText(s: string)
    ensures Remove(CollapseWhitespace(s), Whitespace) == Remove(s, Whitespace)
    decreases |s|
  {
    if s != [] {
      var t := s[1..];
      CollapseKeepsText(t);
      assert s == [s[0]] + t;
      RemoveCons(s[0], t, Whitespace);
      if !(IsWhitespace(s[0]) && |s| > 1 && IsWhitespace(s[1])) {
        var c := if IsWhitespace(s[0]) then ' ' else s[0];
        RemoveCons(c, CollapseWhitespace(t), Whitespace);
      }
    }
  }

  /** Collapsing only ever adds spaces. */
  lemma {:induction false} CollapseAvoids(s: string, c: char)
    requires !IsWhitespace(c) && c !in s
    ensures c !in CollapseWhitespace(s)
    decreases |s|
  {
    if s != [] {
      CollapseAvoids(s[1..], c);
    }
  }

  /** Collapsing introduces no markup: text free of tags stays free of them. */
  lemma {:induction false} CollapseTagFree(s: string)
    requires TagFree(s)
    ensures TagFree(CollapseWhitespace(s))
    decreases |s|
  {
    if s != [] {
      var t := s[1..];
      CollapseTagFree(t);
      if s[0] == '<' {
        CollapseAvoids(t, '>');
      }
      if !(IsWhitespace(s[0]) && |s| > 1 && IsWhitespace(s[1])) {
        var r := CollapseWhitespace(s);
        assert r[1..] == CollapseWhitespace(t);
      }
    }
  }

  /** Text before the first `<` is kept as it is. */
  lemma {:induction false} ReplaceTagsPlainPrefix(a: string, t: string)
    requires '<' !in a
    ensures ReplaceTags(a + t) == a + ReplaceTags(t)
    decreases |a|
  {
    if a == [] {
      assert a + t == t;
    } else {
      var s := a + t;
      assert s[0] == a[0] && a[0] != '<';
      assert s[1..] == a[1..] + t;
      assert ReplaceTags(s) == [a[0]] + ReplaceTags(a[1..] + t);
      ReplaceTagsPlainPrefix(a[1..], t);
      assert a == [a[0]] + a[1..];
    }
  }

  /** A tag at the front becomes one space and the text after it is
      replaced on its own. */
  lemma ReplaceTagsTagFirst(x: string, b: string)
    requires '>' !in x
    ensures ReplaceTags("<" + x + ">" + b) == " " + ReplaceTags(b)
  {
    var s := "<" + x + ">" + b;
    var k := |x| + 1;
    assert s[k] == '>';
    assert forall j :: 1 <= j < k ==> s[j] == x[j - 1];
    assert IndexOf(s, '>', 1) == Some(k);
    assert s[k + 1..] == b;
  }

  /** Each tag becomes exactly one space, and the text around it is kept. */
  lemma StripTagsOneTag(a: string, x: string, b: string)
    requires '<' !in a && '>' !in x
    ensures StripTags(a + "<" + x + ">" + b) == a + " " + StripTags(b)
  {
    assert a + "<" + x + ">" + b == a + ("<" + x + ">" + b);
    ReplaceTagsPlainPrefix(a, "<" + x + ">" + b);
    ReplaceTagsTagFirst(x, b);
  }

  /** Collapsing works piecewise across a cut after a non-whitespace character. */
  lemma {:induction false} CollapseAppend(a: string, t: string)
    requires a == [] || !IsWhitespace(a[|a| - 1])
    ensures CollapseWhitespace(a + t) == CollapseWhitespace(a) + CollapseWhitespace(t)
    decreases |a|
  {
    if a == [] {
      assert a + t == t;
    } else {
      var s := a + t;
      assert s[0] == a[0] && s[1..] == a[1..] + t;
      assert |a| > 1 ==> s[1] == a[1];
      CollapseAppend(a[1..], t);
    }
  }

  /** A whitespace run before a non-whitespace character (or the end)
      becomes exactly one space. */
  lemma {:induction false} CollapseRun(w: string, b: string)
    requires |w| > 0 && AllWhitespace(w)
    requires b == [] || !IsWhitespace(b[0])
    ensures CollapseWhitespace(w + b) == " " + CollapseWhitespace(b)
    decreases |w|
  {
    var s := w + b;
    assert s[0] == w[0] && s[1..] == w[1..] + b;
    if |w| == 1 {
      assert w[1..] + b == b;
    } else {
      assert s[1] == w[1];
      CollapseRun(w[1..], b);
    }
  }

  /** A non-empty word: no whitespace and no `<`. */
  predicate Word(a: string)
  {
    |a| > 0 && '<' !in a && forall i :: 0 <= i < |a| ==> !IsWhitespace(a[i])
  }

  lemma WordIsClean(a: string)
    requires Word(a)
    ensures TagFree(a) && StripTags(a) == a && CollapseWhitespace(a) == a && IsTrimmed(a)
  {
    DelimiterFreeTagFree(a, '<');
    CollapseOfSingleSpaced(a);
  }

  /** Two words and a single space between them is clean text. */
  lemma WordsJoined(a: string, b: string)
    requires Word(a) && Word(b)
    ensures CollapseWhitespace(a + " " + b) == a + " " + b && IsTrimmed(a + " " + b)
  {
    WordIsClean(a);
    WordIsClean(b);
    assert a + " " + b == a + (" " + b);
    CollapseAppend(a, " " + b);
    CollapseRun(" ", b);
    ConcatEnds(a, " " + b);
  }

  /** Words separated by whitespace stay apart, with one space between them. */
  lemma CleanTextSeparatesWords(a: string, w: string, b: string)
    requires Word(a) && Word(b) && |w| > 0 && AllWhitespace(w)
    ensures CleanText(Some(a + w + b)) == a + " " + b
  {
    var s := a + w + b;
    NoTagInWords(a, w, b);
    DelimiterFreeTagFree(s, '<');
    CollapseWordsRun(a, w, b);
    WordsJoined(a, b);
    TrimOfTrimmed(a + " " + b);
  }

  lemma NoTagInWords(a: string, w: string, b: string)
    requires Word(a) && Word(b) && AllWhitespace(w)
    ensures '<' !in a + w + b
  {
    assert !IsWhitespace('<');
  }

  lemma CollapseWordsRun(a: string, w: string, b: string)
    requires Word(a) && Word(b) && |w| > 0 && AllWhitespace(w)
    ensures CollapseWhitespace(a + w + b) == a + " " + b
  {
    WordIsClean(a);
    WordIsClean(b);
    assert a + w + b == a + (w + b);
    CollapseAppend(a, w + b);
    CollapseRun(w, b);
  }

  /** Words separated by a tag stay apart: the tag becomes one space. */
  lemma CleanTextSeparatesAtTag(a: string, x: string, b: string)
    requires Word(a) && Word(b) && '>' !in x
    ensures CleanText(Some(a + "<" + x + ">" + b)) == a + " " + b
  {
    StripTagsOneTag(a, x, b);
    WordIsClean(b);
    WordsJoined(a, b);
    TrimOfTrimmed(a + " " + b);
  }

  lemma SingleSpacedSlice(s: string, a: nat, b: nat)
    requires a <= b <= |s| && SingleSpaced(s)
    ensures SingleSpaced(s[a..b])
  {
    var t := s[a..b];
    assert forall i :: 0 <= i < |t| ==> t[i] == s[a + i];
    forall i | 0 <= i < |t| - 1
      ensures !DoubleSpaceAt(t, i)
    {
      assert !DoubleSpaceAt(s, a + i);
    }
  }

  lemma {:induction false} TagFreeSuffix(s: string, a: nat)
    requires a <= |s| && TagFree(s)
    ensures TagFree(s[a..])
    decreases a
  {
    if a > 0 {
      TagFreeSuffix(s[1..], a - 1);
      assert s[1..][a - 1..] == s[a..];
    }
  }

  lemma {:induction false} TagFreePrefix(s: string, b: nat)
    requires b <= |s| && TagFree(s)
    ensures TagFree(s[..b])
    decreases b
  {
    if b > 0 {
      TagFreePrefix(s[1..], b - 1);
      assert s[..b][1..] == s[1..][..b - 1];
    }
  }

  lemma TagFreeSlice(s: string, a: nat, b: nat)
    requires a <= b <= |s| && TagFree(s)
    ensures TagFree(s[a..b])
  {
    TagFreeSuffix(s, a);
    TagFreePrefix(s[a..], b - a);
    assert s[a..][..b - a] == s[a..b];
  }

  lemma NoTripleSlice(s: string, a: nat, b: nat)
    requires a <= b <= |s|
    ensures NoTripleNewline(s) ==> NoTripleNewline(s[a..b])
  {
    var t := s[a..b];
    assert forall i :: 0 <= i < |t| ==> t[i] == s[a + i];
    forall i | 0 <= i < |t| - 2 && NoTripleNewline(s)
      ensures !TripleNewlineAt(t, i)
    {
      assert !TripleNewlineAt(s, a + i);
    }
  }

  /** `cleanText`: `""` for a missing or empty input; otherwise the input with
      its tags replaced by spaces, whitespace runs collapsed, and trimmed. */
  function CleanText(html: Option<string>): (r: string)
    ensures html.None? || html.value == "" ==> r == ""
    ensures IsTrimmed(r) && SingleSpaced(r) && TagFree(r)
    ensures html.Some? ==> Remove(r, Whitespace) == Remove(StripTags(html.value), Whitespace)
  {
    if html.None? || html.value == "" then ""
    else
      var c := CollapseWhitespace(StripTags(html.value));
      CollapseKeepsText(StripTags(html.value));
      CollapseTagFree(StripTags(html.value));
      TrimSingleSpaced(c);
      TrimTagFree(c);
      TrimKeepsNonWhitespace(c);
      Trim(c)
  }

  lemma TrimSingleSpaced(c: string)
    requires SingleSpaced(c)
    ensures SingleSpaced(Trim(c))
  {
    SingleSpacedSlice(c, TrimOffset(c), TrimLimit(c));
  }

  lemma TrimTagFree(c: string)
    requires TagFree(c)
    ensures TagFree(Trim(c))
  {
    TagFreeSlice(c, TrimOffset(c), TrimLimit(c));
  }

  /** Clean text never holds a line break. */
  lemma CleanTextHasNoNewline(html: Option<string>)
    ensures '\n' !in CleanText(html)
  {
    assert IsWhitespace('\n');
  }

  /** Text that is already clean passes through unchanged. */
  lemma CleanTextOfCleanText(s: string)
    requires IsTrimmed(s) && SingleSpaced(s) && TagFree(s) && s != ""
    ensures CleanText(Some(s)) == s
  {
    CollapseOfSingleSpaced(s);
    TrimOfTrimmed(s);
  }

  /** Single-spaced text has no run to collapse. */
  lemma {:induction false} CollapseOfSingleSpaced(s: string)
    requires SingleSpaced(s)
    ensures CollapseWhitespace(s) == s
    decreases |s|
  {
    if s != [] {
      CollapseStep(s);
      SingleSpacedSlice(s, 1, |s|);
      assert s[1..|s|] == s[1..];
      CollapseOfSingleSpaced(s[1..]);
      assert s == [s[0]] + s[1..];
    }
  }

  lemma CollapseStep(s: string)
    requires SingleSpaced(s) && |s| > 0
    ensures CollapseWhitespace(s) == [s[0]] + CollapseWhitespace(s[1..])
  {
    assert |s| > 1 ==> !DoubleSpaceAt(s, 0);
  }

  // ---------------------------------------------------------------- main content

  /** No three line breaks in a row. */
  predicate NoTripleNewline(s: string)
  {
    forall i :: 0 <= i < |s| - 2 ==> !TripleNewlineAt(s, i)
  }

  predicate TripleNewlineAt(s: string, i: nat)
    requires i + 2 < |s|
  {
    s[i] == '\n' && s[i + 1] == '\n' && s[i + 2] == '\n'
  }

  /** Only line breaks. */
  predicate LineBreaks(s: string)
  {
    forall i :: 0 <= i < |s| ==> s[i] == '\n'
  }

  /** `s.replace(/\n{3,}/g, "\n\n")`: each run of three or more line breaks
      becomes two. Written one character at a time: a line break that starts
      three in a row is dropped, which keeps the last two of every such run. */
  function CollapseNewlines(s: string): (r: string)
    ensures NoTripleNewline(r)
    ensures |r| <= |s|
    ensures |s| > 0 ==> |r| > 0 && r[0] == s[0]
    ensures |s| > 1 ==> |r| > 1 && r[1] == s[1]
    decreases |s|
  {
    if s == [] then []
    else if |s| > 2 && TripleNewlineAt(s, 0) then CollapseNewlines(s[1..])
    else
      var rest := CollapseNewlines(s[1..]);
      ConsNoTriple(s, rest);
      [s[0]] + rest
  }

  lemma ConsNoTriple(s: string, rest: string)
    requires |s| > 0 && NoTripleNewline(rest) && |rest| < |s|
    requires !(|s| > 2 && TripleNewlineAt(s, 0))
    requires |s| > 1 ==> |rest| > 0 && rest[0] == s[1]
    requires |s| > 2 ==> |rest| > 1 && rest[1] == s[2]
    ensures NoTripleNewline([s[0]] + rest)
  {
    var t := [s[0]] + rest;
    assert forall i :: 0 < i < |t| ==> t[i] == rest[i - 1];
    forall i | 0 <= i < |t| - 2
      ensures !TripleNewlineAt(t, i)
    {
      if i > 0 {
        assert !TripleNewlineAt(rest, i - 1);
      } else {
        assert t[1] == s[1] && t[2] == s[2];
      }
    }
  }

  /** Collapsing line-break runs drops line breaks only. */
  lemma {:induction false} CollapseNewlinesKeepsText(s: string)
    ensures Remove(CollapseNewlines(s), Newline) == Remove(s, Newline)
    decreases |s|
  {
    if s != [] {
      var t := s[1..];
      CollapseNewlinesKeepsText(t);
      assert s == [s[0]] + t;
      RemoveCons(s[0], t, Newline);
      if !(|s| > 2 && TripleNewlineAt(s, 0)) {
        RemoveCons(s[0], CollapseNewlines(t), Newline);
      }
    }
  }

  /** Text without a triple line break passes through unchanged. */
  lemma {:induction false} CollapseNewlinesOfNoTriple(s: string)
    requires NoTripleNewline(s)
    ensures CollapseNewlines(s) == s
    decreases |s|
  {
    if s != [] {
      assert |s| > 2 ==> !TripleNewlineAt(s, 0);
      NoTripleSlice(s, 1, |s|);
      assert s[1..|s|] == s[1..];
      CollapseNewlinesOfNoTriple(s[1..]);
      assert s == [s[0]] + s[1..];
    }
  }

  /** Collapsing works piecewise across a cut after a character that is not a
      line break. */
  lemma {:induction false} CollapseNewlinesAppend(a: string, t: string)
    requires a == [] || a[|a| - 1] != '\n'
    ensures CollapseNewlines(a + t) == CollapseNewlines(a) + CollapseNewlines(t)
    decreases |a|
  {
    if a == [] {
      assert a + t == t;
    } else {
      var s := a + t;
      assert s[0] == a[0] && s[1..] == a[1..] + t;
      assert |a| > 1 ==> s[1] == a[1];
      assert |a| > 2 ==> s[2] == a[2];
      assert s[|a| - 1] == a[|a| - 1];
      assert |a| > 1 ==> a[1..][|a| - 2] == a[|a| - 1];
      CollapseNewlinesAppend(a[1..], t);
    }
  }

  /** A run of line breaks followed by other text becomes two line breaks when
      it is three or more long, and stays as it is otherwise. */
  lemma {:induction false} CollapseNewlinesRun(run: string, b: string)
    requires run != [] && LineBreaks(run) && (b == [] || b[0] != '\n')
    ensures CollapseNewlines(run + b) == (if |run| >= 3 then "\n\n" else run) + CollapseNewlines(b)
    decreases |run|
  {
    var s := run + b;
    assert s[0] == '\n' && s[1..] == run[1..] + b;
    if |run| == 1 {
      assert run[1..] + b == b;
      assert |b| > 0 ==> s[1] == b[0];
      assert run == [s[0]];
    } else {
      assert s[1] == '\n';
      assert |run| == 2 && |b| > 0 ==> s[2] == b[0];
      assert |run| > 2 ==> s[2] == '\n';
      assert run == [s[0]] + run[1..];
      CollapseNewlinesRun(run[1..], b);
    }
  }

  /** A run of three or more line breaks between two characters that are not
      line breaks becomes a single blank line, and the text around it is
      collapsed on its own. */
  lemma CollapseNewlinesBetween(a: string, run: string, b: string)
    requires a == [] || a[|a| - 1] != '\n'
    requires |run| >= 3 && LineBreaks(run) && (b == [] || b[0] != '\n')
    ensures CollapseNewlines(a + run + b) == CollapseNewlines(a) + "\n\n" + CollapseNewlines(b)
  {
    assert a + run + b == a + (run + b);
    CollapseNewlinesAppend(a, run + b);
    CollapseNewlinesRun(run, b);
  }

  /** One element the DOM walk visits: its lower-cased tag name (the walk only
      selects `h3`, `h5`, `p` and `li`), its inner HTML, and whether its parent
      is a `ul` or `ol`. */
  datatype Element = Element(tag: string, html: Option<string>, parentIsList: bool)

  /** What the `switch` appends for an element with tag `tag` and clean text `t`. */
  function Layout(bullet: string, tag: string, inList: bool, t: string): string
  {
    if t == "" then ""
    else if tag == "h3" || tag == "h5" then "\n\n" + t + "\n\n"
    else if tag == "p" then t + "\n\n"
    else if tag == "li" then (if inList then bullet + t + "\n" else t + "\n\n")
    else ""
  }

  function Piece(bullet: string, e: Element): string
  {
    Layout(bullet, e.tag, e.parentIsList, CleanText(e.html))
  }

  /** The `content` string after the walk, before the final clean-up. */
  function Assemble(bullet: string, els: seq<Element>): string
  {
    if els == [] then "" else Piece(bullet, els[0]) + Assemble(bullet, els[1..])
  }

  lemma TrimNoTriple(s: string)
    requires NoTripleNewline(s)
    ensures NoTripleNewline(Trim(s))
  {
    NoTripleSlice(s, TrimOffset(s), TrimLimit(s));
  }

  /** The final clean-up: runs of three or more line breaks become two, then trim. */
  function Finish(c: string): (r: string)
    ensures IsTrimmed(r) && NoTripleNewline(r)
  {
    TrimNoTriple(CollapseNewlines(c));
    Trim(CollapseNewlines(c))
  }

  /** `extractMainContent` with the given bullet literal. */
  function MainContent(bullet: string, els: seq<Element>): (r: string)
    ensures IsTrimmed(r) && NoTripleNewline(r)
  {
    Finish(Assemble(bullet, els))
  }

  /** The visible text an element with clean text `t` contributes: `t`,
      preceded by the bullet when it is a list item inside a list. */
  function Visible(bullet: string, tag: string, inList: bool, t: string): string
  {
    if t == "" || !(tag in {"h3", "h5", "p", "li"}) then ""
    else if tag == "li" && inList then bullet + t
    else t
  }

  function Shown(bullet: string, e: Element): string
  {
    Visible(bullet, e.tag, e.parentIsList, CleanText(e.html))
  }

  function ShownAll(bullet: string, els: seq<Element>): string
  {
    if els == [] then "" else Shown(bullet, els[0]) + ShownAll(bullet, els[1..])
  }

  /** A usable bullet: non-empty, starting with a visible character, no line break. */
  predicate GoodBullet(bullet: string)
  {
    |bullet| > 0 && !IsWhitespace(bullet[0]) && '\n' !in bullet
  }

  /** The formatting only adds line breaks: with every line break removed, the
      main content is the elements' visible texts (with bullets) in document
      order, and nothing else. */
  lemma MainContentText(bullet: string, els: seq<Element>)
    requires GoodBullet(bullet)
    ensures Remove(MainContent(bullet, els), Newline) == ShownAll(bullet, els)
  {
    var a := Assemble(bullet, els);
    var d := CollapseNewlines(a);
    assert MainContent(bullet, els) == Trim(d);
    AssembleText(bullet, els);
    ShownAllTrimmed(bullet, els);
    CollapseNewlinesKeepsText(a);
    TrimKeepsText(d);
  }

  /** A line break free text and bullet lose nothing but the layout's line breaks. */
  lemma LayoutText(bullet: string, tag: string, inList: bool, t: string)
    requires '\n' !in bullet && '\n' !in t
    ensures Remove(Layout(bullet, tag, inList, t), Newline) == Visible(bullet, tag, inList, t)
  {
    if t != "" {
      if tag == "h3" || tag == "h5" {
        FramedText(t);
      } else if tag == "p" || (tag == "li" && !inList) {
        LineText(t, "\n\n");
      } else if tag == "li" {
        assert '\n' !in bullet + t;
        LineText(bullet + t, "\n");
      }
    }
  }

  /** A text without line breaks followed by line breaks only. */
  lemma LineText(t: string, breaks: string)
    requires '\n' !in t && forall k :: 0 <= k < |breaks| ==> breaks[k] == '\n'
    ensures Remove(t + breaks, Newline) == t
  {
    RemoveAppend(t, breaks, Newline);
    RemoveAll(t, Newline);
    RemoveNone(breaks, Newline);
  }

  /** A heading's text between two blank lines. */
  lemma FramedText(t: string)
    requires '\n' !in t
    ensures Remove("\n\n" + t + "\n\n", Newline) == t
  {
    assert "\n\n" + t + "\n\n" == "\n\n" + (t + "\n\n");
    RemoveClassPrefix("\n\n", t + "\n\n", Newline);
    LineText(t, "\n\n");
  }

  lemma {:induction false} AssembleText(bullet: string, els: seq<Element>)
    requires GoodBullet(bullet)
    ensures Remove(Assemble(bullet, els), Newline) == ShownAll(bullet, els)
    decreases |els|
  {
    if els != [] {
      var e := els[0];
      CleanTextHasNoNewline(e.html);
      LayoutText(bullet, e.tag, e.parentIsList, CleanText(e.html));
      AssembleText(bullet, els[1..]);
      RemoveAppend(Piece(bullet, e), Assemble(bullet, els[1..]), Newline);
    }
  }

  lemma ConcatEnds(a: string, b: string)
    ensures |a| > 0 ==> (a + b)[0] == a[0]
    ensures |b| > 0 ==> (a + b)[|a + b| - 1] == b[|b| - 1]
  {
  }

  lemma WhitespaceFrontEmpty(w: string, rest: string)
    requires AllWhitespace(w) && IsTrimmed(w + rest)
    ensures w == []
  {
    ConcatEnds(w, rest);
  }

  lemma WhitespaceBackEmpty(rest: string, w: string)
    requires AllWhitespace(w) && IsTrimmed(rest + w)
    ensures w == []
  {
    ConcatEnds(rest, w);
  }

  /** Two trimmed texts put side by side are trimmed. */
  lemma TrimmedConcat(a: string, b: string)
    requires IsTrimmed(a) && IsTrimmed(b)
    ensures IsTrimmed(a + b)
  {
    if |a| > 0 && |b| > 0 {
      assert (a + b)[0] == a[0] && (a + b)[|a + b| - 1] == b[|b| - 1];
    } else if |a| == 0 {
      assert a + b == b;
    } else {
      assert a + b == a;
    }
  }

  lemma VisibleTrimmed(bullet: string, tag: string, inList: bool, t: string)
    requires GoodBullet(bullet) && IsTrimmed(t)
    ensures IsTrimmed(Visible(bullet, tag, inList, t))
  {
    if t != "" && tag == "li" && inList {
      assert (bullet + t)[0] == bullet[0];
      assert (bullet + t)[|bullet + t| - 1] == t[|t| - 1];
    }
  }

  lemma {:induction false} ShownAllTrimmed(bullet: string, els: seq<Element>)
    requires GoodBullet(bullet)
    ensures IsTrimmed(ShownAll(bullet, els))
    decreases |els|
  {
    if els != [] {
      var e := els[0];
      VisibleTrimmed(bullet, e.tag, e.parentIsList, CleanText(e.html));
      ShownAllTrimmed(bullet, els[1..]);
      TrimmedConcat(Shown(bullet, e), ShownAll(bullet, els[1..]));
    }
  }

  /** Removing a class of characters from whitespace leaves whitespace. */
  lemma {:induction false} RemoveKeepsWhitespace(w: string, cls: CharClass)
    requires AllWhitespace(w)
    ensures AllWhitespace(Remove(w, cls))
    decreases |w|
  {
    if w != [] {
      RemoveKeepsWhitespace(w[1..], cls);
    }
  }

  /** When the text between the line breaks has no surrounding whitespace,
      trimming removes line breaks only. */
  lemma TrimKeepsText(y: string)
    requires IsTrimmed(Remove(y, Newline))
    ensures Remove(Trim(y), Newline) == Remove(y, Newline)
  {
    var pre, r, suf := y[..TrimOffset(y)], Trim(y), y[TrimLimit(y)..];
    TrimParts(y, Newline);
    TrimDropsWhitespace(y);
    RemoveKeepsWhitespace(pre, Newline);
    RemoveKeepsWhitespace(suf, Newline);
    TrimmedJoin(Remove(pre, Newline), Remove(r, Newline), Remove(suf, Newline));
  }

  /** Whitespace around a trimmed text is no whitespace at all. */
  lemma TrimmedJoin(fp: string, fr: string, fs: string)
    requires AllWhitespace(fp) && AllWhitespace(fs) && IsTrimmed(fp + fr + fs)
    ensures fp + fr + fs == fr
  {
    assert fp + fr + fs == fp + (fr + fs);
    WhitespaceFrontEmpty(fp, fr + fs);
    assert fp + fr + fs == fr + fs;
    WhitespaceBackEmpty(fr, fs);
  }

  // ---------------------------------------------------------------- spacing between elements

  /** The line breaks the walk writes before a displayed element's text. */
  function Lead(e: Element): string
  {
    if e.tag == "h3" || e.tag == "h5" then "\n\n" else ""
  }

  /** The line breaks the walk writes after a displayed element's text: one
      after a list item inside a list, a blank line after anything else. */
  function Trail(e: Element): string
  {
    if e.tag == "li" && e.parentIsList then "\n" else "\n\n"
  }

  /** What separates two consecutive displayed elements in the main content: a
      single line break when a list item inside a list is followed by anything
      but a heading, a blank line otherwise. */
  function Gap(e1: Element, e2: Element): string
  {
    if Trail(e1) == "\n" && Lead(e2) == "" then "\n" else "\n\n"
  }

  /** The elements that contribute text, in document order. */
  function Displayed(bullet: string, els: seq<Element>): (r: seq<Element>)
    ensures forall i :: 0 <= i < |r| ==> Shown(bullet, r[i]) != ""
  {
    if els == [] then []
    else (if Shown(bullet, els[0]) == "" then [] else [els[0]]) + Displayed(bullet, els[1..])
  }

  /** What the `switch` appends: nothing for an element without text (or with a
      tag it does not handle), otherwise the text between its lead and trail. */
  lemma PieceShape(bullet: string, e: Element)
    ensures Shown(bullet, e) == "" ==> Piece(bullet, e) == ""
    ensures Shown(bullet, e) != "" ==> Piece(bullet, e) == Lead(e) + Shown(bullet, e) + Trail(e)
  {
    LayoutShape(bullet, e, CleanText(e.html));
  }

  lemma LayoutShape(bullet: string, e: Element, t: string)
    ensures var v := Visible(bullet, e.tag, e.parentIsList, t);
      && (v == "" ==> Layout(bullet, e.tag, e.parentIsList, t) == "")
      && (v != "" ==> Layout(bullet, e.tag, e.parentIsList, t) == Lead(e) + v + Trail(e))
  {
    if t != "" && e.tag == "li" && e.parentIsList {
      assert Layout(bullet, e.tag, e.parentIsList, t) == bullet + t + "\n";
    }
  }

  /** Elements without text add nothing to the walk's output. */
  lemma {:induction false} AssembleDisplayed(bullet: string, els: seq<Element>)
    ensures Assemble(bullet, els) == Assemble(bullet, Displayed(bullet, els))
    decreases |els|
  {
    if els != [] {
      var e, rest := els[0], els[1..];
      PieceShape(bullet, e);
      AssembleDisplayed(bullet, rest);
      if Shown(bullet, e) == "" {
        assert Displayed(bullet, els) == Displayed(bullet, rest);
      } else {
        var d := Displayed(bullet, els);
        assert d == [e] + Displayed(bullet, rest);
        assert d[0] == e && d[1..] == Displayed(bullet, rest);
      }
    }
  }

  /** A displayed text has no line break and no whitespace at either end. */
  lemma ShownShape(bullet: string, e: Element)
    requires GoodBullet(bullet) && Shown(bullet, e) != ""
    ensures IsTrimmed(Shown(bullet, e)) && NoNewline(Shown(bullet, e))
  {
    var t := CleanText(e.html);
    CleanTextHasNoNewline(e.html);
    VisibleTrimmed(bullet, e.tag, e.parentIsList, t);
    if e.tag == "li" && e.parentIsList {
      assert forall i :: 0 <= i < |bullet + t| ==> (bullet + t)[i] in bullet || (bullet + t)[i] in t;
    } else {
      assert forall i :: 0 <= i < |t| ==> t[i] in t;
    }
  }

  predicate NoNewline(s: string)
  {
    forall i :: 0 <= i < |s| ==> s[i] != '\n'
  }

  /** A displayed element as the walk lays it out: the line breaks before its
      text, the text, and the line breaks after it. */
  datatype Block = Block(lead: string, text: string, trail: string)

  function BlockOf(bullet: string, e: Element): Block
  {
    Block(Lead(e), Shown(bullet, e), Trail(e))
  }

  function BlocksOf(bullet: string, es: seq<Element>): (r: seq<Block>)
    ensures |r| == |es| && forall i :: 0 <= i < |es| ==> r[i] == BlockOf(bullet, es[i])
  {
    seq(|es|, i requires 0 <= i < |es| => BlockOf(bullet, es[i]))
  }

  /** A block as a displayed element has it: a non-empty, trimmed text without
      line breaks, at most two line breaks before it and one or two after. */
  predicate GoodBlock(b: Block)
  {
    && b.text != "" && NoNewline(b.text) && IsTrimmed(b.text)
    && (b.lead == "" || b.lead == "\n\n")
    && (b.trail == "\n" || b.trail == "\n\n")
  }

  predicate GoodBlocks(bs: seq<Block>)
  {
    forall i :: 0 <= i < |bs| ==> GoodBlock(bs[i])
  }

  /** The blocks written one after another. */
  function Laid(bs: seq<Block>): string
  {
    if bs == [] then "" else bs[0].lead + bs[0].text + bs[0].trail + Laid(bs[1..])
  }

  /** What collapsing leaves of the line breaks between two blocks. */
  function Spacing(b1: Block, b2: Block): string
  {
    var run := b1.trail + b2.lead;
    if |run| >= 3 then "\n\n" else run
  }

  /** The texts of the blocks, each pair separated by its spacing. */
  function Read(bs: seq<Block>): string
  {
    if bs == [] then ""
    else if |bs| == 1 then bs[0].text
    else bs[0].text + Spacing(bs[0], bs[1]) + Read(bs[1..])
  }

  lemma NoNewlineNoTriple(v: string)
    requires NoNewline(v)
    ensures NoTripleNewline(v)
  {
    assert forall i :: 0 <= i < |v| - 2 ==> v[i] != '\n';
  }

  /** One step of collapsing: a text without line breaks, then a run of line
      breaks, then text that does not start with one. */
  lemma TextThenRun(v: string, run: string, y: string)
    requires NoNewline(v) && v != "" && run != "" && LineBreaks(run)
    requires y == [] || y[0] != '\n'
    ensures CollapseNewlines(v + (run + y))
      == v + (if |run| >= 3 then "\n\n" else run) + CollapseNewlines(y)
  {
    NoNewlineNoTriple(v);
    CollapseNewlinesAppend(v, run + y);
    CollapseNewlinesOfNoTriple(v);
    CollapseNewlinesRun(run, y);
  }

  /** The last text and its trail pass through collapsing unchanged. */
  lemma TextThenTrail(v: string, run: string)
    requires NoNewline(v) && v != "" && run != "" && |run| <= 2 && LineBreaks(run)
    ensures CollapseNewlines(v + run) == v + run
  {
    TextThenRun(v, run, "");
    assert run + "" == run;
    assert v + run + "" == v + run;
  }

  lemma Regroup(p: string, x: string, y: string, whole: string)
    requires whole == p + (x + y)
    ensures whole == (p + x) + y
  {
  }

  /** Collapsing laid-out blocks from the first text on: the texts joined by
      their spacings, then the last block's trail. */
  lemma {:induction false} CollapseLaid(bs: seq<Block>)
    requires |bs| > 0 && GoodBlocks(bs)
    ensures CollapseNewlines(bs[0].text + bs[0].trail + Laid(bs[1..]))
      == Read(bs) + bs[|bs| - 1].trail
    decreases |bs|
  {
    assert GoodBlock(bs[0]);
    if |bs| == 1 {
      CollapseLastBlock(bs);
    } else {
      var rest := bs[1..];
      GoodBlocksTail(bs);
      CollapseLaid(rest);
      assert rest[0] == bs[1] && rest[|rest| - 1] == bs[|bs| - 1];
      assert bs == [bs[0]] + rest;
      CollapseLaidStep(bs[0], rest);
    }
  }

  lemma GoodBlocksTail(bs: seq<Block>)
    requires |bs| > 0 && GoodBlocks(bs)
    ensures GoodBlocks(bs[1..])
  {
    assert forall i :: 0 <= i < |bs| - 1 ==> bs[1..][i] == bs[i + 1];
  }

  lemma CollapseLastBlock(bs: seq<Block>)
    requires |bs| == 1 && GoodBlock(bs[0])
    ensures CollapseNewlines(bs[0].text + bs[0].trail + Laid(bs[1..]))
      == Read(bs) + bs[|bs| - 1].trail
  {
    var b := bs[0];
    assert bs[1..] == [];
    assert b.text + b.trail + "" == b.text + b.trail;
    TextThenTrail(b.text, b.trail);
  }

  /** The step of `CollapseLaid`, given its claim for the blocks after `b`. */
  lemma CollapseLaidStep(b: Block, rest: seq<Block>)
    requires |rest| > 0 && GoodBlock(b) && GoodBlock(rest[0])
    requires CollapseNewlines(rest[0].text + rest[0].trail + Laid(rest[1..]))
      == Read(rest) + rest[|rest| - 1].trail
    ensures CollapseNewlines(b.text + b.trail + Laid(rest))
      == Read([b] + rest) + rest[|rest| - 1].trail
  {
    var c := rest[0];
    var y := c.text + c.trail + Laid(rest[1..]);
    LaidCons(rest);
    CollapseAfterText(b, c, y);
    ReadCons(b, rest);
    Regroup(b.text + Spacing(b, c), Read(rest), rest[|rest| - 1].trail,
      b.text + Spacing(b, c) + CollapseNewlines(y));
  }

  lemma LaidCons(bs: seq<Block>)
    requires |bs| > 0
    ensures Laid(bs) == bs[0].lead + (bs[0].text + bs[0].trail + Laid(bs[1..]))
  {
  }

  lemma ReadCons(b: Block, rest: seq<Block>)
    requires |rest| > 0
    ensures Read([b] + rest) == b.text + Spacing(b, rest[0]) + Read(rest)
  {
    assert ([b] + rest)[1..] == rest;
  }

  /** A block's text, its trail, the next block's lead, and text starting with
      that block's text: the two runs between the texts become their spacing. */
  lemma CollapseAfterText(b: Block, c: Block, y: string)
    requires GoodBlock(b) && GoodBlock(c) && |y| > 0 && y[0] == c.text[0]
    ensures CollapseNewlines(b.text + b.trail + (c.lead + y))
      == b.text + Spacing(b, c) + CollapseNewlines(y)
  {
    RunBetween(b, c);
    assert y[0] != '\n' by {
      assert IsWhitespace('\n');
    }
    Reassociate(b.text, b.trail, c.lead, y);
    TextThenRun(b.text, b.trail + c.lead, y);
  }

  lemma RunBetween(b: Block, c: Block)
    requires GoodBlock(b) && GoodBlock(c)
    ensures b.trail + c.lead != "" && LineBreaks(b.trail + c.lead)
  {
  }

  lemma Reassociate(p: string, q: string, r: string, y: string)
    ensures p + q + (r + y) == p + ((q + r) + y)
  {
  }

  lemma {:induction false} ReadTrimmed(bs: seq<Block>)
    requires |bs| > 0 && GoodBlocks(bs)
    ensures IsTrimmed(Read(bs)) && Read(bs) != ""
    decreases |bs|
  {
    assert GoodBlock(bs[0]);
    if |bs| > 1 {
      GoodBlocksTail(bs);
      ReadTrimmed(bs[1..]);
      var v, g, j := bs[0].text, Spacing(bs[0], bs[1]), Read(bs[1..]);
      assert (v + g + j)[0] == v[0];
      assert (v + g + j)[|v + g + j| - 1] == j[|j| - 1];
    }
  }

  /** Collapsing and trimming laid-out blocks reads their texts with their
      spacings and nothing else. */
  lemma FinishLaid(bs: seq<Block>)
    requires GoodBlocks(bs)
    ensures Finish(Laid(bs)) == Read(bs)
  {
    if bs == [] {
      FinishLaidEmpty(bs);
    } else {
      FinishLaidNonEmpty(bs);
    }
  }

  lemma FinishLaidEmpty(bs: seq<Block>)
    requires bs == []
    ensures Finish(Laid(bs)) == Read(bs)
  {
    assert Laid(bs) == "" && CollapseNewlines("") == "";
    TrimOfTrimmed("");
  }

  lemma FinishLaidNonEmpty(bs: seq<Block>)
    requires |bs| > 0 && GoodBlocks(bs)
    ensures Finish(Laid(bs)) == Read(bs)
  {
    var b, last := bs[0], bs[|bs| - 1];
    assert GoodBlock(b) && GoodBlock(last);
    LaidCons(bs);
    CollapseLaid(bs);
    ReadTrimmed(bs);
    FinishFirst(b.lead, b.text, b.trail, Laid(bs[1..]), Read(bs), last.trail);
  }

  /** The clean-up of the first block's lead, text and trail followed by the
      rest: the lead goes, and with it the last trail. */
  lemma FinishFirst(lead: string, text: string, trail: string, tail: string, j: string, last: string)
    requires lead == "" || lead == "\n\n"
    requires text != "" && IsTrimmed(text)
    requires last == "\n" || last == "\n\n"
    requires IsTrimmed(j) && j != ""
    requires CollapseNewlines(text + trail + tail) == j + last
    ensures Finish(lead + (text + trail + tail)) == j
  {
    var body := text + trail + tail;
    assert body[0] == text[0];
    assert IsWhitespace('\n');
    CollapseAfterLead(lead, body, j + last);
    FinishAround(lead, body, j, last);
  }

  /** Line breaks around a trimmed text are what the clean-up removes. */
  lemma FinishAround(lead: string, body: string, j: string, last: string)
    requires AllWhitespace(lead) && AllWhitespace(last) && IsTrimmed(j) && j != ""
    requires CollapseNewlines(lead + body) == lead + (j + last)
    ensures Finish(lead + body) == j
  {
    Regroup(lead, j, last, CollapseNewlines(lead + body));
    TrimAround(lead, j, last);
  }

  /** The first block's lead passes through collapsing unchanged. */
  lemma CollapseAfterLead(lead: string, body: string, collapsed: string)
    requires lead == "" || lead == "\n\n"
    requires |body| > 0 && body[0] != '\n'
    requires CollapseNewlines(body) == collapsed
    ensures CollapseNewlines(lead + body) == lead + collapsed
  {
    if lead == "" {
      assert lead + body == body;
    } else {
      CollapseNewlinesRun(lead, body);
    }
  }

  /** A displayed element's block is a good one. */
  lemma BlockOfGood(bullet: string, e: Element)
    requires GoodBullet(bullet) && Shown(bullet, e) != ""
    ensures GoodBlock(BlockOf(bullet, e))
  {
    ShownShape(bullet, e);
  }

  /** The walk's output over displayed elements is their blocks laid out. */
  lemma {:induction false} AssembleLaid(bullet: string, es: seq<Element>)
    requires forall i :: 0 <= i < |es| ==> Shown(bullet, es[i]) != ""
    ensures Assemble(bullet, es) == Laid(BlocksOf(bullet, es))
    decreases |es|
  {
    if es != [] {
      var bs := BlocksOf(bullet, es);
      assert Shown(bullet, es[0]) != "";
      PieceShape(bullet, es[0]);
      assert BlocksOf(bullet, es[1..]) == bs[1..];
      AssembleLaid(bullet, es[1..]);
    }
  }

  /** Between two displayed elements, collapsing leaves exactly their gap. */
  lemma SpacingIsGap(bullet: string, e1: Element, e2: Element)
    ensures Spacing(BlockOf(bullet, e1), BlockOf(bullet, e2)) == Gap(e1, e2)
  {
  }

  /** The main content is exactly the displayed texts in document order, each
      pair separated by its gap: two paragraphs give `t1 + "\n\n" + t2`, two
      list items of one list give `• t1 + "\n" + • t2`, and elements without
      text leave no trace. */
  lemma MainContentLayout(bullet: string, els: seq<Element>)
    requires GoodBullet(bullet)
    ensures MainContent(bullet, els) == Read(BlocksOf(bullet, Displayed(bullet, els)))
  {
    var es := Displayed(bullet, els);
    var bs := BlocksOf(bullet, es);
    AssembleDisplayed(bullet, els);
    AssembleLaid(bullet, es);
    BlocksOfGood(bullet, es);
    FinishLaid(bs);
  }

  /** Two displayed elements: their texts with their gap between, so two
      paragraphs are a blank line apart and two list items of one list a
      single line break apart. */
  lemma MainContentOfTwo(bullet: string, e1: Element, e2: Element)
    requires GoodBullet(bullet) && Shown(bullet, e1) != "" && Shown(bullet, e2) != ""
    ensures MainContent(bullet, [e1, e2]) == Shown(bullet, e1) + Gap(e1, e2) + Shown(bullet, e2)
  {
    var b1, b2 := BlockOf(bullet, e1), BlockOf(bullet, e2);
    MainContentLayout(bullet, [e1, e2]);
    DisplayedTwo(bullet, e1, e2);
    assert BlocksOf(bullet, [e1, e2]) == [b1, b2];
    ReadTwo(b1, b2);
    SpacingIsGap(bullet, e1, e2);
  }

  lemma DisplayedTwo(bullet: string, e1: Element, e2: Element)
    requires Shown(bullet, e1) != "" && Shown(bullet, e2) != ""
    ensures Displayed(bullet, [e1, e2]) == [e1, e2]
  {
    var s := [e1, e2];
    assert s[0] == e1 && s[1..] == [e2];
    assert [e2][0] == e2 && [e2][1..] == [];
    assert Displayed(bullet, [e2]) == [e2] + Displayed(bullet, []);
  }

  lemma ReadTwo(b1: Block, b2: Block)
    ensures Read([b1, b2]) == b1.text + Spacing(b1, b2) + b2.text
  {
    assert [b1, b2][1..] == [b2];
  }

  lemma BlocksOfGood(bullet: string, es: seq<Element>)
    requires GoodBullet(bullet) && forall i :: 0 <= i < |es| ==> Shown(bullet, es[i]) != ""
    ensures GoodBlocks(BlocksOf(bullet, es))
  {
    var bs := BlocksOf(bullet, es);
    forall i | 0 <= i < |bs|
      ensures GoodBlock(bs[i])
    {
      BlockOfGood(bullet, es[i]);
    }
  }
}

=== FILE: processor.dfy ===
/** The file importer (`processBlogs`): every `.json` file of the data
    directory holds one scraped post; each is enriched with content metadata
    and an embedding and inserted as a `blogs` row. Each file either ends as
    a stored row or as an error record, and the tallies keep count.

    The directory listing, the content of each file after `JSON.parse`, the
    metadata completion, the embedding call and the insert are inputs:
    `read(file)` is the parsed content (`Err` with the thrown message),
    `replyFor(mainContent)` the completion text for the metadata prompt,
    `embed(text)` the embedding (`Err` with the thrown message), and
    `insertError(row)` the error the store reports for that row. */
module BlogProcessor {
  import opened Wrappers
  import opened Json
  import opened Strings
  import opened Tally
  import opened LlmService

  /** What destructuring `null` throws (`JSON.parse` yields no `undefined`). */
  const DestructureNullMessage := "Cannot destructure 'blogData' as it is null."

  /** The `files.filter((file) => file.endsWith(".json"))` test. */
  predicate IsJsonFile(name: string)
  {
    EndsWith(name, ".json")
  }

  /** The listing's `.json` files, in listing order. */
  function JsonFiles(files: seq<string>): (r: seq<string>)
    ensures |r| <= |files|
    ensures forall f :: f in r <==> f in files && IsJsonFile(f)
  {
    if files == [] then []
    else (if IsJsonFile(files[0]) then [files[0]] else []) + JsonFiles(files[1..])
  }

  /** Filtering keeps listing order: the `.json` files of a listing are those
      of its first part followed by those of the rest. */
  lemma {:induction false} JsonFilesAppend(a: seq<string>, b: seq<string>)
    ensures JsonFiles(a + b) == JsonFiles(a) + JsonFiles(b)
    decreases |a|
  {
    if a == [] {
      assert a + b == b;
    } else {
      assert (a + b)[1..] == a[1..] + b;
      JsonFilesAppend(a[1..], b);
    }
  }

  /** One file is kept exactly when its name ends in `.json`. */
  lemma JsonFilesOne(file: string)
    ensures JsonFiles([file]) == if IsJsonFile(file) then [file] else []
  {
    assert [file][1..] == [];
  }

  /** Filtering twice is filtering once. */
  lemma {:induction false} JsonFilesIdempotent(files: seq<string>)
    ensures JsonFiles(JsonFiles(files)) == JsonFiles(files)
    decreases |files|
  {
    if files != [] {
      var rest := JsonFiles(files[1..]);
      JsonFilesIdempotent(files[1..]);
      if IsJsonFile(files[0]) {
        assert ([files[0]] + rest)[1..] == rest;
      } else {
        assert [] + rest == rest;
      }
    }
  }

  /** `{ file, error: error.message }`. */
  datatype FileError = FileError(file: string, error: string)

  /** The row's snake_case columns and the post fields they are copied
      from. */
  const ColumnSources: map<string, string> := map[
    "post_id" := "postId",
    "title" := "title",
    "slug" := "slug",
    "url" := "url",
    "publish_date" := "publishDate",
    "featured_image" := "featuredImage",
    "author" := "author",
    "content" := "content",
    "main_content" := "mainContent",
    "summary" := "summary",
    "categories" := "categories",
    "tags" := "tags"]

  const EnrichmentColumns: set<string> := {"content_metadata", "embedding", "embedding_text"}

  /** The text that is embedded: the serialised `{ contentMetadata }`. */
  function EmbeddingText(contentMetadata: Value, stringify: Value -> string): string
  {
    stringify(Obj(map["contentMetadata" := contentMetadata]))
  }

  /** The post's fields under their column names. */
  function Columns(post: Row): (r: Row)
    ensures r.Keys == ColumnSources.Keys
    ensures forall c :: c in ColumnSources ==> r[c] == Get(post, ColumnSources[c])
  {
    map c | c in ColumnSources :: Get(post, ColumnSources[c])
  }

  /** The row inserted for one post: its fields under their column names,
      plus the metadata, the embedding and the embedded text. */
  function InsertRow(post: Row, contentMetadata: Value, embedding: Value, text: string): (r: Row)
    ensures r.Keys == ColumnSources.Keys + EnrichmentColumns
    ensures forall c :: c in ColumnSources ==> r[c] == Get(post, ColumnSources[c])
    ensures r["content_metadata"] == contentMetadata && r["embedding"] == embedding
            && r["embedding_text"] == Str(text)
  {
    assert forall c :: c in ColumnSources ==> c !in EnrichmentColumns;
    Columns(post)["content_metadata" := contentMetadata]["embedding" := embedding]["embedding_text" := Str(text)]
  }

  /** The fields of a parsed post (`{}` for a primitive, which has none). */
  function Fields(v: Value): Row
  {
    if v.Obj? then v.fields else map[]
  }

  /** The body of the `try` block for one file. */
  function ProcessFile(file: string, read: string -> Result<Value>, replyFor: Value -> Option<string>,
                       parse: string -> Option<Value>, stringify: Value -> string,
                       embed: string -> Result<Value>, insertError: Row -> Option<string>): (r: Step<Row, FileError>)
    ensures r.Failed? ==> r.error.file == file
    ensures read(file).Err? ==> r == Failed(FileError(file, read(file).message))
    ensures r.Done? <==> read(file).Ok? && !read(file).value.Null? && !read(file).value.Undefined?
                         && var post := Fields(read(file).value);
                            var md := GenerateContentMetadata(replyFor(Get(post, "mainContent")), parse);
                            embed(EmbeddingText(md, stringify)).Ok?
                            && insertError(InsertRow(post, md, embed(EmbeddingText(md, stringify)).value,
                                                     EmbeddingText(md, stringify))).None?
    ensures r.Done? ==> var post := Fields(read(file).value);
                        var md := GenerateContentMetadata(replyFor(Get(post, "mainContent")), parse);
                        r.result == InsertRow(post, md, embed(EmbeddingText(md, stringify)).value, EmbeddingText(md, stringify))
  {
    match read(file)
    case Err(m) => Failed(FileError(file, m))
    case Ok(data) =>
      if data.Null? || data.Undefined? then Failed(FileError(file, DestructureNullMessage))
      else
        var post := Fields(data);
        var md := GenerateContentMetadata(replyFor(Get(post, "mainContent")), parse);
        var text := EmbeddingText(md, stringify);
        match embed(text)
        case Err(m) => Failed(FileError(file, m))
        case Ok(embedding) =>
          var row := InsertRow(post, md, embedding, text);
          if insertError(row).Some? then Failed(FileError(file, insertError(row).value))
          else Done(row)
  }

  /** The outcome of every `.json` file, in listing order. */
  function FileSteps(files: seq<string>, read: string -> Result<Value>, replyFor: Value -> Option<string>,
                     parse: string -> Option<Value>, stringify: Value -> string,
                     embed: string -> Result<Value>, insertError: Row -> Option<string>): (r: seq<Step<Row, FileError>>)
    ensures |r| == |JsonFiles(files)|
    ensures forall i :: 0 <= i < |r| ==>
              r[i] == ProcessFile(JsonFiles(files)[i], read, replyFor, parse, stringify, embed, insertError)
  {
    var json := JsonFiles(files);
    seq(|json|, i requires 0 <= i < |json| => ProcessFile(json[i], read, replyFor, parse, stringify, embed, insertError))
  }

  /** `processBlogs()`: `listing` is the directory listing (`Err` when
      `readdir` throws, which is rethrown). Returns the tallies and the rows
      stored, in file order. */
  method ProcessBlogs(listing: Result<seq<string>>, read: string -> Result<Value>,
                      replyFor: Value -> Option<string>, parse: string -> Option<Value>,
                      stringify: Value -> string, embed: string -> Result<Value>,
                      insertError: Row -> Option<string>)
    returns (r: Result<Report<FileError>>, rows: seq<Row>)
    ensures listing.Err? ==> r == Err(listing.message) && rows == []
    ensures listing.Ok? ==> r.Ok? && r.value.total == |JsonFiles(listing.value)| && Balanced(r.value)
    ensures listing.Ok? ==> var steps := FileSteps(listing.value, read, replyFor, parse, stringify, embed, insertError);
              r.value.errors == Errors(steps) && rows == Results(steps) && r.value.processed == |rows|
    ensures listing.Ok? ==> forall k :: 0 <= k < |r.value.errors| ==>
              r.value.errors[k].file in listing.value && IsJsonFile(r.value.errors[k].file)
  {
    if listing.Err? {
      return Err(listing.message), [];
    }
    var steps := FileSteps(listing.value, read, replyFor, parse, stringify, embed, insertError);
    var report;
    report, rows := Run(steps);
    forall k | 0 <= k < |report.errors|
      ensures report.errors[k].file in JsonFiles(listing.value)
    {
      ErrorOrigin(steps, k);
    }
    r := Ok(report);
  }
}

=== FILE: recommendation.dfy ===
/** Strategy dispatch (`getRecommendedBlogs`): the request body's fields with
    their defaults, and the stage `searchType` selects, with the arguments it
    is called with. Running the stage is the business of the stage's own
    module. */
module Recommendation {
  import opened Wrappers
  import opened Json

  const DefaultModel := "google/gemini-2.0-flash-001"
  const DefaultTargetCount: real := 5.0
  const InvalidSearchType := "Invalid search type"

  /** The stage call `getRecommendedBlogs` makes. */
  datatype Stage =
    | VectorStage(preferences: Value, targetCount: Value)
    | LlmStage(preferences: Value, model: Value, targetCount: Value)
    | RerankerStage(preferences: Value, targetCount: Value, rules: Value, rerankerEnabled: Value)

  /** A destructured field with a default: the default replaces only
      `undefined`. */
  function Field(body: Value, key: string, default: Value): (r: Value)
    requires Prop(body, key).Some?
    ensures Prop(body, key).value.Undefined? ==> r == default
    ensures !Prop(body, key).value.Undefined? ==> r == Prop(body, key).value
  {
    var v := Prop(body, key).value;
    if v.Undefined? then default else v
  }

  /** `getRecommendedBlogs(body)`: the stage to run, or the thrown error.
      Destructuring `null` or `undefined` throws a TypeError. */
  function GetRecommendedBlogs(body: Value): (r: Result<Stage>)
    ensures body.Null? || body.Undefined? ==> r.Err?
    ensures Prop(body, "searchType") == Some(Str("vector")) ==>
              r == Ok(VectorStage(Prop(body, "preferences").value, Field(body, "targetCount", Num(DefaultTargetCount))))
    ensures Prop(body, "searchType") == Some(Str("llm")) ==>
              r == Ok(LlmStage(Prop(body, "preferences").value, Field(body, "model", Str(DefaultModel)),
                               Field(body, "targetCount", Num(DefaultTargetCount))))
    ensures Prop(body, "searchType") == Some(Str("reranker")) ==>
              r == Ok(RerankerStage(Prop(body, "preferences").value, Field(body, "targetCount", Num(DefaultTargetCount)),
                                    Field(body, "rules", Null), Field(body, "rerankerEnabled", Bool(false))))
    ensures Prop(body, "searchType").Some? && Prop(body, "searchType").value !in {Str("vector"), Str("llm"), Str("reranker")} ==>
              r == Err(InvalidSearchType)
  {
    if body.Null? || body.Undefined? then Err("Cannot destructure the request body")
    else
      var preferences := Prop(body, "preferences").value;
      var model := Field(body, "model", Str(DefaultModel));
      var targetCount := Field(body, "targetCount", Num(DefaultTargetCount));
      var rules := Field(body, "rules", Null);
      var rerankerEnabled := Field(body, "rerankerEnabled", Bool(false));
      match Prop(body, "searchType").value
      case Str("vector") => Ok(VectorStage(preferences, targetCount))
      case Str("llm") => Ok(LlmStage(preferences, model, targetCount))
      case Str("reranker") => Ok(RerankerStage(preferences, targetCount, rules, rerankerEnabled))
      case _ => Err(InvalidSearchType)
  }

  /** Spelling out a default changes nothing: a body that gives the default
      values explicitly selects the same stage as one that omits them. */
  lemma ExplicitDefaults(fields: Row)
    requires "model" !in fields && "targetCount" !in fields && "rules" !in fields && "rerankerEnabled" !in fields
    ensures GetRecommendedBlogs(Obj(fields)) ==
            GetRecommendedBlogs(Obj(fields["model" := Str(DefaultModel)]["targetCount" := Num(DefaultTargetCount)]
                                          ["rules" := Null]["rerankerEnabled" := Bool(false)]))
  {
    var full := fields["model" := Str(DefaultModel)]["targetCount" := Num(DefaultTargetCount)]
                      ["rules" := Null]["rerankerEnabled" := Bool(false)];
    assert Get(full, "searchType") == Get(fields, "searchType");
    assert Get(full, "preferences") == Get(fields, "preferences");
  }

  /** A missing `searchType` selects no stage. */
  lemma MissingSearchType(fields: Row)
    requires "searchType" !in fields
    ensures GetRecommendedBlogs(Obj(fields)) == Err(InvalidSearchType)
  {
  }
}

=== FILE: reranker.dfy ===
/** The reranker (`useReranker`): vector ranking first, then a rerank call
    over the recommendations' `embedding_text`, whose result indices pick
    entries of the vector recommendations. Scores are not rewritten, nothing
    is sorted, and the second parameter of `useReranker` is never read, so
    the model does not take it. The rerank call is the input `rerank`. */
module Reranker {
  import opened Wrappers
  import opened Json
  import opened VectorRanking

  const RerankModel := "rerank-v3.5"
  const RerankTopN: nat := 5

  /** The arguments of the rerank call. */
  datatype RerankRequest = RerankRequest(model: string, query: string, documents: seq<Value>, topN: nat)

  /** The resolved value: the picked entries (`None` for `undefined`) and the
      vector ranking as it was. */
  datatype RerankResult = RerankResult(rerankedBlogs: seq<Option<Row>>, vectorRanking: VectorResult)

  /** `documents`: the `embedding_text` of each recommendation, in order. */
  function Documents(recs: seq<Row>): (r: seq<Value>)
    ensures |r| == |recs| && forall i :: 0 <= i < |recs| ==> r[i] == Get(recs[i], "embedding_text")
  {
    if recs == [] then []
    else
      assert forall i :: 0 < i < |recs| ==> recs[1..][i - 1] == recs[i];
      [Get(recs[0], "embedding_text")] + Documents(recs[1..])
  }

  /** `recommendations[index]`: an entry, or `undefined` out of range. */
  function At(recs: seq<Row>, index: int): (r: Option<Row>)
    ensures r.Some? <==> 0 <= index < |recs|
    ensures r.Some? ==> r.value == recs[index]
  {
    if 0 <= index < |recs| then Some(recs[index]) else None
  }

  /** `response.results.map((result) => recommendations[result.index])`. */
  function Pick(recs: seq<Row>, indices: seq<int>): (r: seq<Option<Row>>)
    ensures |r| == |indices|
    ensures forall k :: 0 <= k < |indices| ==> r[k] == At(recs, indices[k])
  {
    seq(|indices|, k requires 0 <= k < |indices| => At(recs, indices[k]))
  }

  /** `useReranker(preferences, _)`. `rerank(req)` is the list of result
      indices of the rerank call (`None` when it throws). */
  function UseReranker(preferences: Value, stringify: Value -> string,
                       embed: string -> Option<seq<real>>,
                       rpc: MatchQuery -> Option<seq<Row>>,
                       rerank: RerankRequest -> Option<seq<int>>): (r: Result<RerankResult>)
    ensures UseVectorRanking(preferences, stringify, embed, rpc).Err? ==> r.Err?
    ensures r.Ok? ==> r.value.vectorRanking == UseVectorRanking(preferences, stringify, embed, rpc).value
    ensures r.Ok? ==> var recs := r.value.vectorRanking.recommendations;
              var req := RerankRequest(RerankModel, stringify(preferences), Documents(recs), RerankTopN);
              rerank(req).Some? && r.value.rerankedBlogs == Pick(recs, rerank(req).value)
    ensures UseVectorRanking(preferences, stringify, embed, rpc).Ok? ==>
              var recs := UseVectorRanking(preferences, stringify, embed, rpc).value.recommendations;
              r.Ok? <==> rerank(RerankRequest(RerankModel, stringify(preferences), Documents(recs), RerankTopN)).Some?
  {
    match UseVectorRanking(preferences, stringify, embed, rpc)
    case Err(e) => Err(e)
    case Ok(vector) =>
      var recs := vector.recommendations;
      match rerank(RerankRequest(RerankModel, stringify(preferences), Documents(recs), RerankTopN))
      case None => Err("rerank failed")
      case Some(indices) => Ok(RerankResult(Pick(recs, indices), vector))
  }

  /** Every reranked entry is one of the vector recommendations, unmodified. */
  lemma RerankedAreVectorEntries(recs: seq<Row>, indices: seq<int>, k: nat)
    requires k < |indices| && Pick(recs, indices)[k].Some?
    ensures Pick(recs, indices)[k].value in recs
  {
  }

  /** Picking every index in order gives the vector recommendations back. */
  lemma PickIdentity(recs: seq<Row>, indices: seq<int>)
    requires |indices| == |recs| && forall k :: 0 <= k < |indices| ==> indices[k] == k
    ensures forall k :: 0 <= k < |recs| ==> Pick(recs, indices)[k] == Some(recs[k])
  {
  }
}

=== FILE: rules.dfy ===
/** The rule post-processor (`useRulesPostProcessor`): for each blog, an LLM
    turns the rules into a numeric modifier that is added to the blog's
    similarity. The completions run in parallel but independently, so the
    model maps over the blogs in order; the completion for the blog at
    position `i` is the input `replyFor(i)`. */
module RulesPostProcessor {
  import opened Wrappers
  import opened Json

  const ModifierModel := "google/gemini-2.0-flash-lite-001"

  /** One completion: the call threw, or it replied and `parseFloat` read the
      trimmed text (`None` for `NaN`). */
  datatype ModifierReply = CallFailed | Reply(modifier: Option<real>)

  /** `blog.similarity + modifier` for a numeric similarity; any other value
      becomes `Undefined`. */
  function Plus(similarity: Value, m: real): (r: Value)
    ensures similarity.Num? ==> r == Num(similarity.n + m)
  {
    if similarity.Num? then Num(similarity.n + m) else Undefined
  }

  const ModifiedKeys: set<string> := {"similarity", "appliedModifier"}

  /** The blog after its completion: `{ ...blog, similarity, appliedModifier }`
      for a number, the blog itself when the call failed or the reply was not
      a number. */
  function Modified(blog: Row, reply: ModifierReply): (r: Row)
    ensures reply.CallFailed? || reply.modifier.None? ==> r == blog
    ensures reply.Reply? && reply.modifier.Some? ==>
              r.Keys == blog.Keys + ModifiedKeys
              && r["similarity"] == Plus(Get(blog, "similarity"), reply.modifier.value)
              && r["appliedModifier"] == Num(reply.modifier.value)
              && forall k :: k in blog && k !in ModifiedKeys ==> r[k] == blog[k]
  {
    match reply
    case CallFailed => blog
    case Reply(None) => blog
    case Reply(Some(m)) =>
      blog["similarity" := Plus(Get(blog, "similarity"), m)]["appliedModifier" := Num(m)]
  }

  /** Whether the guard `!rules || !blogs || blogs.length === 0` returns the
      input as it is. */
  predicate Skipped(blogs: Option<seq<Row>>, rules: Value)
  {
    !Truthy(rules) || blogs.None? || |blogs.value| == 0
  }

  /** `useRulesPostProcessor(blogs, rules)`; `None` stands for a `null` or
      `undefined` blog list. */
  function UseRulesPostProcessor(blogs: Option<seq<Row>>, rules: Value, replyFor: nat -> ModifierReply): (r: Option<seq<Row>>)
    ensures Skipped(blogs, rules) ==> r == blogs
    ensures r.Some? <==> blogs.Some?
    ensures r.Some? ==> |r.value| == |blogs.value|
    ensures !Skipped(blogs, rules) ==>
              forall i :: 0 <= i < |blogs.value| ==> r.value[i] == Modified(blogs.value[i], replyFor(i))
  {
    if Skipped(blogs, rules) then blogs
    else Some(seq(|blogs.value|, i requires 0 <= i < |blogs.value| => Modified(blogs.value[i], replyFor(i))))
  }

  /** A skipped call changes nothing, so running it again changes nothing. */
  lemma SkippedIdempotent(blogs: Option<seq<Row>>, rules: Value, f: nat -> ModifierReply, g: nat -> ModifierReply)
    requires Skipped(blogs, rules)
    ensures UseRulesPostProcessor(UseRulesPostProcessor(blogs, rules, f), rules, g) == UseRulesPostProcessor(blogs, rules, f)
  {
  }

  /** Each blog depends only on its own completion: two runs whose completions
      agree at position `i` agree on blog `i`, whatever happened elsewhere. */
  lemma BlogsIndependent(blogs: seq<Row>, rules: Value, f: nat -> ModifierReply, g: nat -> ModifierReply, i: nat)
    requires i < |blogs| && f(i) == g(i)
    ensures UseRulesPostProcessor(Some(blogs), rules, f).value[i] == UseRulesPostProcessor(Some(blogs), rules, g).value[i]
  {
  }

  /** Removing what was applied: subtracting `appliedModifier` from the new
      similarity and dropping `appliedModifier` gives the original blog back
      (for a numeric similarity and a blog that had no `appliedModifier`). */
  lemma ModifierUndo(blog: Row, m: real)
    requires "similarity" in blog && blog["similarity"].Num? && "appliedModifier" !in blog
    ensures var r := Modified(blog, Reply(Some(m)));
            (r - {"appliedModifier"})["similarity" := Num(r["similarity"].n - r["appliedModifier"].n)] == blog
  {
    var r := Modified(blog, Reply(Some(m)));
    var u := (r - {"appliedModifier"})["similarity" := Num(r["similarity"].n - r["appliedModifier"].n)];
    assert u.Keys == blog.Keys;
    assert forall k :: k in u ==> u[k] == blog[k];
  }
}

=== FILE: scraper_service.dfy ===
/** The scraper service: `scrapeBlogPost` with an LLM summary and a canonical
    post URL, and `scrapeAllContent`, the crawl of every category with an
    optional limit followed by the scrape of each post found. */
module ScraperService {
  import opened Wrappers
  import opened Strings
  import opened Json
  import opened OrderedSet
  import opened PageText
  import opened LlmService
  import opened BlogPage
  import opened Crawler

  /** The list-item bullet of this file: the UTF-8 bytes of `•` read back as
      Windows-1252, as the source text has it. */
  const ServiceBullet := "\U{00E2}\U{20AC}\U{00A2} "

  const PostUrlPrefix := "https://www.slocal.com/blog/post"

  /** `https://www.slocal.com/blog/post/${slug}/`. */
  function CanonicalUrl(slug: string): string
  {
    PostUrlPrefix + "/" + slug + "/"
  }

  /** A post as `scrapeBlogPost` returns it (`publishDate` keeps the raw
      `datetime` attribute). */
  datatype Post = Post(
    postId: Option<string>,
    title: string,
    slug: string,
    url: string,
    publishDate: Option<string>,
    featuredImage: Image,
    author: Author,
    content: Option<string>,
    mainContent: string,
    summary: string,
    categories: seq<Term>,
    tags: seq<Term>)

  /** `extractMainContent` with this file's bullet. */
  function ExtractMainContent(page: PostPage): (r: string)
    ensures IsTrimmed(r) && NoTripleNewline(r)
    ensures r == Read(BlocksOf(ServiceBullet, Displayed(ServiceBullet, page.elements)))
  {
    MainContentLayout(ServiceBullet, page.elements);
    MainContent(ServiceBullet, page.elements)
  }

  /** `summary || firstParagraph.trim()` with `summary = generateSummary(…)`:
      the trimmed reply, unless the call failed or the reply was only
      whitespace. */
  function SummaryOrFallback(reply: Option<string>, firstParagraph: string): (r: string)
    ensures IsTrimmed(r)
    ensures reply.Some? && Trim(reply.value) != "" ==> r == Trim(reply.value)
    ensures reply.None? || Trim(reply.value) == "" ==> r == Trim(firstParagraph)
  {
    var summary := GenerateSummary(reply);
    if summary.Some? && summary.value != "" then summary.value else Trim(firstParagraph)
  }

  /** `scrapeBlogPost(url)`: `page` is the fetched page (`None` when the fetch
      or the parse throws) and `reply` is the LLM's reply to the summary
      request made with the post's main content (`None` when the call fails).
      Any exception yields `null`. */
  function ScrapeBlogPost(url: string, page: Option<PostPage>, reply: Option<string>): (r: Option<Post>)
    ensures r.Some? <==> page.Some? && Terms(page.value.categories).Some? && Terms(page.value.tags).Some?
    ensures r.Some? ==> r.value.slug == Slug(url) && r.value.url == CanonicalUrl(Slug(url))
    ensures r.Some? ==> r.value.postId == ExtractIdFromUrl(url)
    ensures r.Some? ==> r.value.title == Trim(page.value.title)
    ensures r.Some? ==> r.value.categories == Terms(page.value.categories).value
                        && r.value.tags == Terms(page.value.tags).value
    ensures r.Some? ==> r.value.mainContent == MainContent(ServiceBullet, page.value.elements)
    ensures r.Some? ==> IsTrimmed(r.value.summary)
    ensures r.Some? && reply.Some? && Trim(reply.value) != "" ==> r.value.summary == Trim(reply.value)
    ensures r.Some? && (reply.None? || Trim(reply.value) == "") ==> r.value.summary == Trim(page.value.firstParagraph)
  {
    if page.None? then None
    else
      var p := page.value;
      var cats, tags := Terms(p.categories), Terms(p.tags);
      if cats.None? || tags.None? then None
      else
        var slug := Slug(url);
        Some(Post(
          postId := ExtractIdFromUrl(url),
          title := Trim(p.title),
          slug := slug,
          url := CanonicalUrl(slug),
          publishDate := p.datetime,
          featuredImage := FeaturedImage(p),
          author := AuthorOf(p),
          content := p.content,
          mainContent := ExtractMainContent(p),
          summary := SummaryOrFallback(reply, p.firstParagraph),
          categories := cats.value,
          tags := tags.value))
  }

  /** The canonical URL names the post again: scraping it yields the same slug,
      and its post id is that slug. */
  lemma CanonicalUrlRoundTrip(slug: string)
    requires slug != "" && '/' !in slug
    ensures Slug(CanonicalUrl(slug)) == slug
    ensures ExtractIdFromUrl(CanonicalUrl(slug)) == Some(slug)
  {
    SlugOfSegment(PostUrlPrefix, slug);
    var url := CanonicalUrl(slug);
    assert url[|url| - |"/" + slug + "/"|..] == "/" + slug + "/";
    ExtractIdComplete(url, slug);
  }

  /** A scraped post whose source URL has an id keeps that id as its slug, and
      its canonical URL carries the same id. */
  lemma ScrapedPostIds(url: string, page: Option<PostPage>, reply: Option<string>)
    requires ScrapeBlogPost(url, page, reply).Some? && ExtractIdFromUrl(url).Some?
    ensures var post := ScrapeBlogPost(url, page, reply).value;
            post.postId == Some(post.slug) && ExtractIdFromUrl(post.url) == post.postId
  {
    SlugMatchesId(url);
    CanonicalUrlRoundTrip(Slug(url));
  }

  // ---------------------------------------------------------------- crawl

  /** The object `scrapeAllContent` resolves to (`outputDirectory` left out),
      with the posts it writes to `all-posts.json`. */
  datatype ScrapeReport = ScrapeReport(
    categoryUrls: seq<string>,
    blogUrls: seq<string>,
    totalBlogs: nat,
    scrapedPosts: nat,
    limit: Value,
    posts: seq<Post>)

  /** `limit || "none"`. */
  function LimitEcho(limit: Option<int>): (r: Value)
    ensures r == Str("none") <==> limit.None? || limit.value == 0
  {
    if limit.Some? && limit.value != 0 then Num(limit.value as real) else Str("none")
  }

  function PostSlug(post: Post): string
  {
    post.slug
  }

  /** The posts `scrapeAllContent` keeps from a navigation bar: the crawl from
      an empty set, then the successful scrapes of its URLs up to the capped
      count. */
  function KeptPosts(hrefs: seq<Option<string>>, pagesOf: string -> seq<CategoryPage>,
                     scrape: string -> Option<Post>, limit: Option<int>): seq<Post>
  {
    var found := Somes(MapSeq(scrape, CrawlAll([], MapSeq(pagesOf, CategoryUrls(hrefs)), limit)));
    found[..Cap(limit, |found|)]
  }

  /** `scrapeAllContent(limit)`. The fetches, the file system and the post
      scraper are parameters:
      - `nav` is the navigation hrefs of the main blog page, or the error its
        fetch throws;
      - `pagesOf(u)` are the pages category `u` serves, page 1 first;
      - `mkdirError` is what creating the output directory throws, if anything;
      - `scrape(u)` is what `scrapeBlogPost(u)` returns, which never throws;
      - `writeError(fileName)` is what writing that file throws, if anything.
      The first error thrown rejects the promise with its message. */
  method ScrapeAllContent(nav: Result<seq<Option<string>>>,
                          pagesOf: string -> seq<CategoryPage>,
                          scrape: string -> Option<Post>,
                          limit: Option<int>,
                          mkdirError: Option<string>,
                          writeError: string -> Option<string>) returns (r: Result<ScrapeReport>)
    ensures nav.Err? ==> r == Err(nav.message)
    ensures nav.Ok? && mkdirError.Some? ==> r == Err(mkdirError.value)
    ensures nav.Ok? && mkdirError.None? ==>
              var failure := WriteFailure(WrittenFiles(MapSeq(PostSlug, KeptPosts(nav.value, pagesOf, scrape, limit))), writeError);
              (failure.Some? ==> r == Err(failure.value)) && (failure.None? ==> r.Ok?)
    ensures r.Ok? ==> r.value.posts == KeptPosts(nav.value, pagesOf, scrape, limit)
    ensures r.Ok? ==> nav.Ok? && mkdirError.None? && WriteFailure(WrittenFiles(MapSeq(PostSlug, r.value.posts)), writeError).None?
    ensures r.Ok? ==> r.value.categoryUrls == CategoryUrls(nav.value)
    ensures r.Ok? ==> Distinct(r.value.blogUrls)
    ensures r.Ok? ==> r.value.blogUrls == CrawlAll([], MapSeq(pagesOf, r.value.categoryUrls), limit)
    ensures r.Ok? ==> LimitedCrawlOf(r.value.blogUrls, MapSeq(pagesOf, r.value.categoryUrls), limit)
    ensures r.Ok? ==> r.value.totalBlogs == |r.value.blogUrls|
    ensures r.Ok? ==> var found := Somes(MapSeq(scrape, r.value.blogUrls));
              |r.value.posts| == Cap(limit, |found|) <= |found| && r.value.posts == found[..|r.value.posts|]
    ensures r.Ok? ==> r.value.scrapedPosts == |r.value.posts| && r.value.limit == LimitEcho(limit)
  {
    if nav.Err? {
      return Err(nav.message);
    }
    var cats := CategoryUrls(nav.value);
    var pages := MapSeq(pagesOf, cats);
    var urls := CrawlAll([], pages, limit);
    CrawlFromScratch(pages, limit);
    if mkdirError.Some? {
      return Err(mkdirError.value);
    }
    var posts := ScrapePosts(MapSeq(scrape, urls), limit);
    var failure := WriteFailure(WrittenFiles(MapSeq(PostSlug, posts)), writeError);
    if failure.Some? {
      return Err(failure.value);
    }
    r := Ok(ScrapeReport(cats, urls, |urls|, |posts|, LimitEcho(limit), posts));
  }
}

=== FILE: strings.dfy ===
/** String helpers with the semantics of the JavaScript built-ins the services
    use: `trim`, the regular-expression class `\s`, `startsWith`, `endsWith`,
    `includes`, `split` on one character, and template-literal rendering of a
    non-negative integer. */
module Strings {
  import opened Wrappers

  /** The characters JavaScript's `String.prototype.trim` strips and the
      regular-expression class `\s` matches (WhiteSpace and LineTerminator of
      ECMA-262). */
  predicate IsWhitespace(c: char)
  {
    || '\t' <= c <= '\r' || c == ' ' || c == '\U{00A0}' || c == '\U{1680}'
    || '\U{2000}' <= c <= '\U{200A}' || c == '\U{2028}' || c == '\U{2029}'
    || c == '\U{202F}' || c == '\U{205F}' || c == '\U{3000}' || c == '\U{FEFF}'
  }

  predicate AllWhitespace(s: string)
  {
    forall i :: 0 <= i < |s| ==> IsWhitespace(s[i])
  }

  /** `s` has no leading and no trailing whitespace. */
  predicate IsTrimmed(s: string)
  {
    |s| > 0 ==> !IsWhitespace(s[0]) && !IsWhitespace(s[|s| - 1])
  }

  /** The first index at or after `i` that does not hold whitespace (`|s|`
      when there is none). */
  function SkipWhitespace(s: string, i: nat): (k: nat)
    requires i <= |s|
    ensures i <= k <= |s|
    ensures forall j :: i <= j < k ==> IsWhitespace(s[j])
    ensures k < |s| ==> !IsWhitespace(s[k])
    decreases |s| - i
  {
    if i < |s| && IsWhitespace(s[i]) then SkipWhitespace(s, i + 1) else i
  }

  /** The end of `s[lo..hi]` once its trailing whitespace is dropped. */
  function BackOverWhitespace(s: string, lo: nat, hi: nat): (k: nat)
    requires lo <= hi <= |s|
    ensures lo <= k <= hi
    ensures forall j :: k <= j < hi ==> IsWhitespace(s[j])
    ensures k > lo ==> !IsWhitespace(s[k - 1])
    decreases hi - lo
  {
    if hi > lo && IsWhitespace(s[hi - 1]) then BackOverWhitespace(s, lo, hi - 1) else hi
  }

  /** Where the text `trim` keeps starts. */
  function TrimOffset(s: string): (i: nat)
    ensures i <= |s|
  {
    SkipWhitespace(s, 0)
  }

  /** Where the text `trim` keeps ends. */
  function TrimLimit(s: string): (j: nat)
    ensures TrimOffset(s) <= j <= |s|
  {
    BackOverWhitespace(s, TrimOffset(s), |s|)
  }

  /** `String.prototype.trim`: the slice of `s` left once the whitespace at
      both ends is removed. */
  function Trim(s: string): (r: string)
    ensures IsTrimmed(r)
    ensures s == s[..TrimOffset(s)] + r + s[TrimLimit(s)..]
    ensures forall j :: 0 <= j < TrimOffset(s) ==> IsWhitespace(s[j])
    ensures forall j :: TrimLimit(s) <= j < |s| ==> IsWhitespace(s[j])
  {
    var a, b := TrimOffset(s), TrimLimit(s);
    SliceSplit(s, a, b);
    SliceTrimmed(s, a, b);
    s[a..b]
  }

  /** A slice whose end characters are not whitespace is trimmed. */
  lemma SliceTrimmed(s: string, a: nat, b: nat)
    requires a <= b <= |s|
    requires a < b ==> !IsWhitespace(s[a]) && !IsWhitespace(s[b - 1])
    ensures IsTrimmed(s[a..b])
  {
    if a < b {
      var t := s[a..b];
      assert t[0] == s[a] && t[|t| - 1] == s[b - 1];
    }
  }

  /** Cutting `s` at `a` and `b` and gluing the parts back gives `s`. */
  lemma SliceSplit(s: string, a: nat, b: nat)
    requires a <= b <= |s|
    ensures s == s[..a] + s[a..b] + s[b..]
  {
  }

  /** Trimming removes only whitespace: a string whose ends are not
      whitespace is its own trim. */
  lemma TrimOfTrimmed(s: string)
    requires IsTrimmed(s)
    ensures Trim(s) == s
  {
    assert TrimOffset(s) == 0;
    assert TrimLimit(s) == |s|;
    assert s[0..|s|] == s;
  }

  /** Whitespace on either side of a trimmed text is exactly what `trim` removes. */
  lemma TrimAround(w1: string, m: string, w2: string)
    requires AllWhitespace(w1) && AllWhitespace(w2) && IsTrimmed(m) && m != ""
    ensures Trim(w1 + m + w2) == m
  {
    var s := w1 + m + w2;
    var a, b := |w1|, |w1| + |m|;
    assert forall j :: 0 <= j < a ==> s[j] == w1[j];
    assert forall j :: b <= j < |s| ==> s[j] == w2[j - b];
    assert s[a] == m[0] && s[b - 1] == m[|m| - 1];
    assert TrimOffset(s) == a;
    assert TrimLimit(s) == b;
    assert s[a..b] == m;
  }

  lemma TrimIdempotent(s: string)
    ensures Trim(Trim(s)) == Trim(s)
  {
    TrimOfTrimmed(Trim(s));
  }

  /** A class of characters a text comparison may ignore. */
  datatype CharClass = Whitespace | Newline

  predicate InClass(cls: CharClass, c: char)
  {
    match cls
    case Whitespace => IsWhitespace(c)
    case Newline => c == '\n'
  }

  /** The characters of `s` outside `cls`, in order. */
  function Remove(s: string, cls: CharClass): (r: string)
    ensures |r| <= |s|
    ensures forall k :: 0 <= k < |r| ==> !InClass(cls, r[k])
  {
    if s == [] then []
    else (if InClass(cls, s[0]) then [] else [s[0]]) + Remove(s[1..], cls)
  }

  /** Every kept character comes from `s`. */
  lemma {:induction false} RemoveFrom(s: string, cls: CharClass)
    ensures forall c :: c in Remove(s, cls) ==> c in s
    decreases |s|
  {
    if s != [] {
      RemoveFrom(s[1..], cls);
    }
  }

  lemma {:induction false} RemoveAppend(a: string, b: string, cls: CharClass)
    ensures Remove(a + b, cls) == Remove(a, cls) + Remove(b, cls)
    decreases |a|
  {
    if a == [] {
      assert a + b == b;
    } else {
      assert (a + b)[1..] == a[1..] + b;
      RemoveAppend(a[1..], b, cls);
    }
  }

  /** One step of the removal: the first character is kept iff it is outside the class. */
  lemma RemoveCons(c: char, x: string, cls: CharClass)
    ensures Remove([c] + x, cls) == (if InClass(cls, c) then [] else [c]) + Remove(x, cls)
  {
    assert ([c] + x)[1..] == x;
  }

  /** A prefix made only of the class disappears. */
  lemma RemoveClassPrefix(w: string, t: string, cls: CharClass)
    requires forall k :: 0 <= k < |w| ==> InClass(cls, w[k])
    ensures Remove(w + t, cls) == Remove(t, cls)
  {
    RemoveAppend(w, t, cls);
    RemoveNone(w, cls);
  }

  /** Removal distributes over cutting `s` at `i` and `j`. */
  lemma RemoveThreeParts(s: string, i: nat, j: nat, cls: CharClass)
    requires i <= j <= |s|
    ensures Remove(s, cls) == Remove(s[..i], cls) + Remove(s[i..j], cls) + Remove(s[j..], cls)
  {
    assert s == s[..i] + s[i..j] + s[j..];
    RemoveAppend(s[..i] + s[i..j], s[j..], cls);
    RemoveAppend(s[..i], s[i..j], cls);
  }

  lemma {:induction false} RemoveNone(s: string, cls: CharClass)
    requires forall k :: 0 <= k < |s| ==> InClass(cls, s[k])
    ensures Remove(s, cls) == []
    decreases |s|
  {
    if s != [] {
      RemoveNone(s[1..], cls);
    }
  }

  lemma {:induction false} RemoveAll(s: string, cls: CharClass)
    requires forall k :: 0 <= k < |s| ==> !InClass(cls, s[k])
    ensures Remove(s, cls) == s
    decreases |s|
  {
    if s != [] {
      RemoveAll(s[1..], cls);
      assert [s[0]] + s[1..] == s;
    }
  }

  predicate StartsWith(s: string, prefix: string)
  {
    |prefix| <= |s| && s[..|prefix|] == prefix
  }

  predicate EndsWith(s: string, suffix: string)
  {
    |suffix| <= |s| && s[|s| - |suffix|..] == suffix
  }

  predicate OccursAt(s: string, part: string, i: nat)
  {
    i + |part| <= |s| && s[i..i + |part|] == part
  }

  /** `String.prototype.includes`. */
  predicate Contains(s: string, part: string)
  {
    exists i: nat :: i <= |s| && OccursAt(s, part, i)
  }

  /** Position of the first `c` in `s` at or after `from`. */
  function IndexOf(s: string, c: char, from: nat): (r: Option<nat>)
    ensures r.Some? ==> from <= r.value < |s| && s[r.value] == c
    ensures r.Some? ==> forall k :: from <= k < r.value ==> s[k] != c
    ensures r.None? ==> forall k :: from <= k < |s| ==> s[k] != c
    decreases |s| - from
  {
    if from >= |s| then None
    else if s[from] == c then Some(from)
    else IndexOf(s, c, from + 1)
  }

  /** Position of the last `c` in `s`. */
  function LastIndexOf(s: string, c: char): (r: Option<nat>)
    ensures r.Some? ==> r.value < |s| && s[r.value] == c && c !in s[r.value + 1..]
    ensures r.None? ==> c !in s
  {
    if s == [] then None
    else if s[|s| - 1] == c then Some(|s| - 1)
    else
      var r := LastIndexOf(s[..|s| - 1], c);
      assert s == s[..|s| - 1] + [s[|s| - 1]];
      r
  }

  /** `s.split(sep)` for a one-character separator. */
  function Split(s: string, sep: char): (r: seq<string>)
    ensures |r| > 0
    ensures forall k :: 0 <= k < |r| ==> sep !in r[k]
  {
    if s == [] then [[]]
    else
      var rest := Split(s[1..], sep);
      if s[0] == sep then [[]] + rest
      else [[s[0]] + rest[0]] + rest[1..]
  }

  lemma {:induction false} SplitNoSeparator(s: string, sep: char)
    requires sep !in s
    ensures Split(s, sep) == [s]
    decreases |s|
  {
    if s != [] {
      SplitNoSeparator(s[1..], sep);
      assert [s[0]] + s[1..] == s;
    }
  }

  /** Splitting distributes over a separator occurrence. */
  lemma {:induction false} SplitAtSeparator(a: string, sep: char, b: string)
    ensures Split(a + [sep] + b, sep) == Split(a, sep) + Split(b, sep)
    decreases |a|
  {
    if a == [] {
      assert a + [sep] + b == [sep] + b;
      assert ([sep] + b)[1..] == b;
    } else {
      assert (a + [sep] + b)[1..] == a[1..] + [sep] + b;
      SplitAtSeparator(a[1..], sep, b);
    }
  }

  function DigitChar(d: nat): (c: char)
    requires d < 10
    ensures '0' <= c <= '9' && c as int - '0' as int == d
  {
    (d + '0' as int) as char
  }

  /** The decimal rendering of `n`, as a template literal `${n}` prints a
      non-negative integer. */
  function NatToString(n: nat): (r: string)
    ensures 0 < |r| && (n < 10 <==> |r| == 1)
    ensures forall i :: 0 <= i < |r| ==> '0' <= r[i] <= '9'
    ensures r[|r| - 1] as int - '0' as int == n % 10
  {
    if n < 10 then [DigitChar(n)] else NatToString(n / 10) + [DigitChar(n % 10)]
  }

  /** Distinct numbers render distinctly. */
  lemma {:induction false} NatToStringInjective(a: nat, b: nat)
    requires NatToString(a) == NatToString(b)
    ensures a == b
    decreases a
  {
    if a >= 10 && b >= 10 {
      var sa, sb := NatToString(a), NatToString(b);
      assert NatToString(a / 10) == sa[..|sa| - 1];
      assert NatToString(b / 10) == sb[..|sb| - 1];
      NatToStringInjective(a / 10, b / 10);
    }
  }

  /** What `trim` drops, and what it keeps, in three parts. */
  lemma TrimParts(s: string, cls: CharClass)
    ensures Remove(s, cls) == Remove(s[..TrimOffset(s)], cls) + Remove(Trim(s), cls) + Remove(s[TrimLimit(s)..], cls)
  {
    RemoveThreeParts(s, TrimOffset(s), TrimLimit(s), cls);
  }

  /** What `trim` drops is whitespace. */
  lemma TrimDropsWhitespace(s: string)
    ensures AllWhitespace(s[..TrimOffset(s)]) && AllWhitespace(s[TrimLimit(s)..])
  {
    var a, b := TrimOffset(s), TrimLimit(s);
    assert forall j :: 0 <= j < a ==> s[..a][j] == s[j];
    assert forall j :: 0 <= j < |s| - b ==> s[b..][j] == s[b + j];
  }

  /** Trimming drops only whitespace, so the non-whitespace text is kept. */
  lemma TrimKeepsNonWhitespace(s: string)
    ensures Remove(Trim(s), Whitespace) == Remove(s, Whitespace)
  {
    TrimParts(s, Whitespace);
    TrimDropsWhitespace(s);
    RemoveNone(s[..TrimOffset(s)], Whitespace);
    RemoveNone(s[TrimLimit(s)..], Whitespace);
  }
}

=== FILE: tally.dfy ===
/** The per-item `try { … processed++ } catch { failed++; errors.push(…) }`
    loop shared by the batch jobs: every item either succeeds with a result
    or fails with an error record, and the loop keeps the running counters. */
module Tally {

  datatype Step<R, E> = Done(result: R) | Failed(error: E)

  /** The `{ total, processed, failed, errors }` object the jobs report. */
  datatype Report<E> = Report(total: nat, processed: nat, failed: nat, errors: seq<E>)

  predicate Balanced<E>(t: Report<E>)
  {
    t.processed + t.failed == t.total && |t.errors| == t.failed
  }

  /** The error records of the failed steps, in order. */
  function Errors<R, E>(steps: seq<Step<R, E>>): seq<E>
  {
    if steps == [] then []
    else
      var last := steps[|steps| - 1];
      Errors(steps[..|steps| - 1]) + (if last.Failed? then [last.error] else [])
  }

  /** The results of the successful steps, in order. */
  function Results<R, E>(steps: seq<Step<R, E>>): seq<R>
  {
    if steps == [] then []
    else
      var last := steps[|steps| - 1];
      Results(steps[..|steps| - 1]) + (if last.Done? then [last.result] else [])
  }

  /** Runs the loop over `steps`, the outcome of each item in iteration order. */
  method Run<R, E>(steps: seq<Step<R, E>>) returns (report: Report<E>, results: seq<R>)
    ensures report.total == |steps| && Balanced(report)
    ensures report.errors == Errors(steps)
    ensures results == Results(steps) && report.processed == |results|
  {
    report := Report(|steps|, 0, 0, []);
    results := [];
    var i := 0;
    while i < |steps|
      invariant 0 <= i <= |steps|
      invariant report.total == |steps|
      invariant report.processed + report.failed == i
      invariant report.errors == Errors(steps[..i]) && |report.errors| == report.failed
      invariant results == Results(steps[..i]) && |results| == report.processed
    {
      assert steps[..i + 1][..i] == steps[..i];
      match steps[i] {
        case Done(r) =>
          results := results + [r];
          report := report.(processed := report.processed + 1);
        case Failed(e) =>
          report := report.(failed := report.failed + 1, errors := report.errors + [e]);
      }
      i := i + 1;
    }
    assert steps[..i] == steps;
  }

  /** Every reported error is the error of one of the failed steps. */
  lemma {:induction false} ErrorOrigin<R, E>(steps: seq<Step<R, E>>, k: nat)
    requires k < |Errors(steps)|
    ensures exists i :: 0 <= i < |steps| && steps[i] == Failed(Errors(steps)[k])
    decreases |steps|
  {
    var init := steps[..|steps| - 1];
    if k < |Errors(init)| {
      ErrorOrigin(init, k);
      var i :| 0 <= i < |init| && init[i] == Failed(Errors(init)[k]);
      assert steps[i] == init[i];
    } else {
      assert steps[|steps| - 1] == Failed(Errors(steps)[k]);
    }
  }
}

=== FILE: vector_ranking.dfy ===
/** Vector ranking (`useVectorRanking`): the serialised preferences are
    embedded, the store's `match_blogs` function returns the closest blogs,
    and each row is projected to a fixed set of fields. The embedding call and
    the store call are inputs; `JSON.stringify` is the parameter
    `stringify`. */
module VectorRanking {
  import opened Wrappers
  import opened Json

  const EmbeddingModel := "text-embedding-3-small"
  const MatchThreshold: real := 0.1
  const MatchCount: nat := 5

  /** The arguments of the `match_blogs` call. */
  datatype MatchQuery = MatchQuery(embedding: seq<real>, threshold: real, count: nat)

  /** The resolved value: the preferences as given and the projected rows. */
  datatype VectorResult = VectorResult(preferences: Value, recommendations: seq<Row>)

  const RecommendationKeys: set<string> :=
    {"id", "title", "similarity", "summary", "url", "content_metadata", "embedding_text"}

  /** The object built for one store row. */
  function Project(row: Row): (r: Row)
    ensures r.Keys == RecommendationKeys
    ensures forall k :: k in RecommendationKeys ==> r[k] == Get(row, k)
  {
    map k | k in RecommendationKeys :: Get(row, k)
  }

  /** Projecting a recommendation again changes nothing. */
  lemma ProjectIdempotent(row: Row)
    ensures Project(Project(row)) == Project(row)
  {
    var p := Project(row);
    assert Project(p).Keys == p.Keys;
    assert forall k :: k in p ==> Project(p)[k] == p[k];
  }

  /** The query the code sends for an embedding, whatever the caller asked. */
  function QueryFor(embedding: seq<real>): MatchQuery
  {
    MatchQuery(embedding, MatchThreshold, MatchCount)
  }

  /** `useVectorRanking(preferences)`. `embed(text)` is the embedding of
      `text` (`None` when the call throws); `rpc(q)` is the store's answer to
      `q` (`None` when it reports an error, which is rethrown). */
  function UseVectorRanking(preferences: Value, stringify: Value -> string,
                            embed: string -> Option<seq<real>>,
                            rpc: MatchQuery -> Option<seq<Row>>): (r: Result<VectorResult>)
    ensures r.Ok? <==> embed(stringify(preferences)).Some? && rpc(QueryFor(embed(stringify(preferences)).value)).Some?
    ensures r.Ok? ==> r.value.preferences == preferences
    ensures r.Ok? ==> var rows := rpc(QueryFor(embed(stringify(preferences)).value)).value;
              |r.value.recommendations| == |rows|
              && forall i :: 0 <= i < |rows| ==> r.value.recommendations[i] == Project(rows[i])
  {
    match embed(stringify(preferences))
    case None => Err("embedding failed")
    case Some(e) =>
      match rpc(QueryFor(e))
      case None => Err("match_blogs failed")
      case Some(rows) =>
        Ok(VectorResult(preferences, seq(|rows|, i requires 0 <= i < |rows| => Project(rows[i]))))
  }

  /** Every recommendation carries exactly the seven fields, with the row's
      similarity unchanged. */
  lemma RecommendationShape(preferences: Value, stringify: Value -> string,
                            embed: string -> Option<seq<real>>,
                            rpc: MatchQuery -> Option<seq<Row>>, i: nat)
    requires UseVectorRanking(preferences, stringify, embed, rpc).Ok?
    requires i < |UseVectorRanking(preferences, stringify, embed, rpc).value.recommendations|
    ensures var rec := UseVectorRanking(preferences, stringify, embed, rpc).value.recommendations[i];
            var rows := rpc(QueryFor(embed(stringify(preferences)).value)).value;
            i < |rows| && rec.Keys == RecommendationKeys && rec["similarity"] == Get(rows[i], "similarity")
  {
  }
}

=== FILE: wrappers.dfy ===
/** Failure-carrying wrappers used throughout the model: `Option` stands for a
    JavaScript value that may be `null`/`undefined` or a call that may throw,
    `Result` for a computation that either returns or throws an `Error` whose
    message is kept. */
module Wrappers {

  datatype Option<+T> = None | Some(value: T) {
    function GetOr(default: T): T {
      match this
      case Some(v) => v
      case None => default
    }
  }

  datatype Result<+T> = Ok(value: T) | Err(message: string)

  /** The values of the `Some` entries of `xs`, in order. */
  function Somes<T>(xs: seq<Option<T>>): seq<T>
  {
    if xs == [] then []
    else if xs[0].Some? then [xs[0].value] + Somes(xs[1..])
    else Somes(xs[1..])
  }

  lemma {:induction false} SomesAppend<T>(a: seq<Option<T>>, b: seq<Option<T>>)
    ensures Somes(a + b) == Somes(a) + Somes(b)
    decreases |a|
  {
    if a == [] {
      assert a + b == b;
    } else {
      assert (a + b)[1..] == a[1..] + b;
      SomesAppend(a[1..], b);
    }
  }

  lemma {:induction false} SomesLength<T>(xs: seq<Option<T>>)
    ensures |Somes(xs)| <= |xs|
    decreases |xs|
  {
    if xs != [] {
      SomesLength(xs[1..]);
    }
  }

  /** `xs.map(f)` for a callback that cannot throw. */
  function MapSeq<A, B>(f: A -> B, xs: seq<A>): (r: seq<B>)
    ensures |r| == |xs| && forall i :: 0 <= i < |xs| ==> r[i] == f(xs[i])
  {
    seq(|xs|, i requires 0 <= i < |xs| => f(xs[i]))
  }

  /** The first `Some` entry of `xs`: what a sequence of steps that may each
      throw reports when the first one that throws ends the run. */
  function FirstSome<T>(xs: seq<Option<T>>): (r: Option<T>)
    ensures r.None? <==> forall i :: 0 <= i < |xs| ==> xs[i].None?
    ensures forall k :: 0 <= k < |xs| && xs[k].Some? && (forall j :: 0 <= j < k ==> xs[j].None?) ==> r == xs[k]
  {
    if xs == [] then None
    else if xs[0].Some? then xs[0]
    else
      var rest := xs[1..];
      assert forall i :: 0 <= i < |rest| ==> rest[i] == xs[i + 1];
      FirstSome(rest)
  }

  /** The values `filter(Boolean)` keeps of one mapped item. */
  function Kept<T>(x: Option<T>): seq<T>
  {
    if x.Some? then [x.value] else []
  }

  /** Mapping a list with a callback that may throw or yield nothing, then
      dropping the empty results: the first thrown error, or the values kept
      in order. */
  function Collect<T>(xs: seq<Result<Option<T>>>): (r: Result<seq<T>>)
    ensures r.Ok? ==> |r.value| <= |xs|
  {
    if xs == [] then Ok([])
    else
      var rest := Collect(xs[1..]);
      if xs[0].Err? then Err(xs[0].message)
      else if rest.Err? then rest
      else Ok(Kept(xs[0].value) + rest.value)
  }

  /** Collecting fails exactly when some callback threw. */
  lemma {:induction false} CollectOk<T>(xs: seq<Result<Option<T>>>)
    ensures Collect(xs).Ok? <==> forall i :: 0 <= i < |xs| ==> xs[i].Ok?
    decreases |xs|
  {
    if xs != [] {
      CollectOk(xs[1..]);
      assert forall i :: 0 < i < |xs| ==> xs[1..][i - 1] == xs[i];
    }
  }

  lemma CollectCons<T>(x: Result<Option<T>>, rest: seq<Result<Option<T>>>)
    requires x.Ok? && Collect(rest).Ok?
    ensures Collect([x] + rest) == Ok(Kept(x.value) + Collect(rest).value)
  {
    assert ([x] + rest)[1..] == rest;
  }

  /** One step of `Collect` on a successful, non-empty list. */
  lemma CollectStep<T>(xs: seq<Result<Option<T>>>)
    requires xs != [] && Collect(xs).Ok?
    ensures xs[0].Ok? && Collect(xs[1..]).Ok?
    ensures Collect(xs).value == Kept(xs[0].value) + Collect(xs[1..]).value
  {
  }

  /** Collecting keeps order: the values of a concatenation are the values of
      its parts. */
  lemma {:induction false} CollectAppend<T>(a: seq<Result<Option<T>>>, b: seq<Result<Option<T>>>)
    requires Collect(a).Ok? && Collect(b).Ok?
    ensures Collect(a + b) == Ok(Collect(a).value + Collect(b).value)
    decreases |a|
  {
    if a == [] {
      CollectAppendEmpty(a, b);
    } else {
      CollectStep(a);
      CollectAppend(a[1..], b);
      CollectAppendStep(a[0], a[1..], b);
      assert a == [a[0]] + a[1..];
    }
  }

  lemma CollectAppendEmpty<T>(a: seq<Result<Option<T>>>, b: seq<Result<Option<T>>>)
    requires a == [] && Collect(b).Ok?
    ensures Collect(a + b) == Ok(Collect(a).value + Collect(b).value)
  {
    assert a + b == b;
    assert Collect(a) == Ok([]);
    assert [] + Collect(b).value == Collect(b).value;
  }

  lemma CollectAppendStep<T>(head: Result<Option<T>>, tail: seq<Result<Option<T>>>, b: seq<Result<Option<T>>>)
    requires head.Ok? && Collect(tail).Ok? && Collect(b).Ok?
    requires Collect(tail + b) == Ok(Collect(tail).value + Collect(b).value)
    ensures Collect([head] + tail + b) == Ok(Kept(head.value) + Collect(tail).value + Collect(b).value)
  {
    assert [head] + tail + b == [head] + (tail + b);
    CollectCons(head, tail + b);
    var k, x, y := Kept(head.value), Collect(tail).value, Collect(b).value;
    assert k + (x + y) == k + x + y;
  }

  /** One item contributes its value when present and nothing otherwise. */
  lemma CollectOne<T>(x: Result<Option<T>>)
    requires x.Ok?
    ensures Collect([x]) == Ok(Kept(x.value))
  {
    assert Collect<T>([]) == Ok([]);
    CollectCons(x, []);
    assert [x] + [] == [x];
    assert Kept(x.value) + [] == Kept(x.value);
  }

  /** When no item is dropped, the values line up with the items. */
  lemma {:induction false} CollectAllPresent<T>(xs: seq<Result<Option<T>>>)
    requires forall i :: 0 <= i < |xs| ==> xs[i].Ok? && xs[i].value.Some?
    ensures Collect(xs).Ok? && |Collect(xs).value| == |xs|
    ensures forall i :: 0 <= i < |xs| ==> Collect(xs).value[i] == xs[i].value.value
    decreases |xs|
  {
    if xs != [] {
      assert forall i :: 0 < i < |xs| ==> xs[1..][i - 1] == xs[i];
      CollectAllPresent(xs[1..]);
    }
  }
}
